=== FILE: README.md ===
# PAC-Klaim frontend: a Dafny model of its claim helpers

PAC-Klaim is a Next.js frontend for employee reimbursement claims. An employee
submits a claim. HR reviews it. Finance pays it. The client holds no workflow
engine: the claim lifecycle lives only in the small pure helpers the React
components call. This project models those helpers and proves what each one
promises:

- the four different status-to-label mappings;
- the claim queues of `lib/data.ts`, the finance "ready to pay" derivation
  and the dashboard statistics;
- the submission guards of the claim, review, payment and sign-in forms, and
  the records those forms build;
- amount text (`"1.250.000"`), digit sanitising, and the "n days ago" phrases;
- the sidebar's expanded-section list.

Every module is a pure functional model. JavaScript `null`/`undefined` become
`Option` (or `Nullable` where the two differ), CSS class strings become
`Palette.Tone` tokens, and `NaN` is `None`. The effects of an event handler
(`alert`, `onSubmit`, `onClose`) are returned as an `Events.Event` trace in
order. Fresh ids, timestamps, the server's replies and the result of `new
Date(...)` are parameters.

Modules: `Optional`, `Text`, `Lists`, `Numbers`, `Amounts`, `Palette` and
`Events` model the JavaScript built-ins the components rely on. There is one
module per component: `Data`, `EmployeeClaimsList`, `ClaimCard`,
`PaymentCard`, `ClaimDetailModal`, `FinanceQueue` (`finance-dashboardd.tsx`),
`FinanceDashboard` (`finance-dashboard.tsx`), `HrDashboard`,
`EmployeeDashboard`, `ReviewForm`, `ReviewModal`, `ReviewDetailModal`,
`PaymentForm`, `ClaimSubmissionForm` (`claim-submission-form.tsx`),
`ClaimSubmissionCallback` (`ClaimSubmissionForm.tsx`), `AuthModal`,
`TransactionsList`, `HrReviewsList` and `Sidebar`.

## Where the code differs from the intended workflow

The model follows the code. The intended claim workflow has parts the code
does not implement:

- There is no role gate and no state machine. Nothing on the client checks
  the caller's role or that a claim is approved before it is paid. Nothing
  prevents a second payment. `FinanceQueue.RejectedReviewIsPayable` shows
  that a rejected review still puts its claim in the payment queue.
- Status reading is case-insensitive in one place only: the badge colour of
  the employee claim list, which understands only the Indonesian keys
  `diterima`/`ditolak`. That list's badge text is the raw status name
  ("pending" when the claim has none); its `getStatusText` translation is
  defined but never called. The claim card, the payment card and the detail
  modal match the English keys exactly, and each handles unknown values in
  its own way.
- A zero claim amount is not refused by `claim-submission-form.tsx`; only
  `ClaimSubmissionForm.tsx` checks `transactionTotal <= 0`.
- The validation messages report the first failing check only, not every
  failing field (`ClaimSubmissionCallback.DateCheckFirst`). The browser's
  `required` check already refuses an empty date or name, but a zero total
  with a name of spaces still fails both checks and gets only the
  date-and-amount message (`ClaimSubmissionCallback.DateCheckFirstInBrowser`).
- The detail modal reads `"1.250.000"` with `parseFloat` as 1.25, which its formatter (no fraction digits) rounds to "Rp 1".
  The cards read the same text as 1250000
  (`ClaimDetailModal.GroupedAmountReadAsFraction`).
- `hr-reviews-list.tsx` calls `claim.amount.replace(...)` and reads
  `claim.employeeName`, but the `Claim` of `lib/data.ts` types `amount` as an
  optional number and has no `employeeName`. `HrReviewsList.Statistics`
  therefore takes the amount texts as its input. On the sample data the
  queue is empty, so the cards read 0, 0 and 0.

## Model

| member | source | states |
|---|---|---|
| Data.ClaimsByStatus | lib/data.ts:89-91 | a claim is in the result iff it is in the input with exactly that `status_id`; each such claim keeps its multiplicity; the result is a subsequence of the input |
| Data.ClaimsForFinance | lib/data.ts:93-95 | the finance queue is the same list as the approved-status queue |
| Data.ClaimsForHR | lib/data.ts:97-101 | exactly the pending claims with an empty transaction date, with their multiplicities, in input order |
| Data.ClaimsForEmployee | lib/data.ts:103-108 | with a non-empty id, exactly that user's claims as a subsequence; with an absent or empty id, the whole list unchanged |
| Data.FinanceAndHRDisjoint | lib/data.ts:93-101 | no claim is ever in both the finance queue and the HR queue |
| Data.SampleFinanceQueue | lib/data.ts:60-95 | on `SAMPLE_CLAIMS` the finance queue holds both claims |
| Data.SampleHRQueueEmpty | lib/data.ts:60-101 | on `SAMPLE_CLAIMS` the HR queue is empty |
| Lists.FilterIsSubsequence | lib/data.ts:89-108 | every filter result can be obtained from its input by deleting elements, so no claim is altered, reordered or duplicated |
| Lists.FilterMultiplicity | lib/data.ts:89-108 | a filter keeps every occurrence of a selected element and none of a rejected one |
| EmployeeClaimsList.StatusText | components/asset-ui/employee-claims-list.tsx:24-35 | the unused `getStatusText`: "Disetujui" iff the lower-cased status is "diterima", "Ditolak" iff it is "ditolak", "Menunggu review" for everything else, including a missing status |
| EmployeeClaimsList.StatusColor | components/asset-ui/employee-claims-list.tsx:11-22 | emerald, red and yellow under the same three conditions |
| EmployeeClaimsList.ColorAgreesWithText | components/asset-ui/employee-claims-list.tsx:11-35 | emerald iff "Disetujui", red iff "Ditolak", yellow iff "Menunggu review", for every status |
| EmployeeClaimsList.CaseInsensitive | components/asset-ui/employee-claims-list.tsx:12-25 | a status and its lower-cased form get the same text and the same colour |
| EmployeeClaimsList.MissingIsWaiting | components/asset-ui/employee-claims-list.tsx:12-33 | both helpers read a null, undefined or empty status as pending: `getStatusText` gives "Menunggu review" and the colour is yellow |
| EmployeeClaimsList.EnglishKeysAreWaiting | components/asset-ui/employee-claims-list.tsx:27-33 | `getStatusText` reads "approved" and "paid" as waiting, while "DITERIMA" reads as approved |
| EmployeeClaimsList.NameOr | components/asset-ui/employee-claims-list.tsx:62-64 | `obj?.name ?? d` falls back only when the object or its name is null or undefined |
| EmployeeClaimsList.ListClaim | components/asset-ui/employee-claims-list.tsx:61-65 | the fetched record is kept whole; user, claim type and status names are copied when present and default to "Nama tidak diketahui", "Jenis klaim tidak diketahui" and "pending" otherwise |
| EmployeeClaimsList.ListClaims | components/asset-ui/employee-claims-list.tsx:61-65 | one listed claim per fetched claim, in order, each the item's own record with its `??` defaults for employee, type and status name |
| EmployeeClaimsList.ClaimBadge | components/asset-ui/employee-claims-list.tsx:142-144 | the badge text is the listed claim's raw status name; its colour is emerald iff the non-empty name lower-cases to "diterima", red iff to "ditolak", yellow otherwise |
| EmployeeClaimsList.MissingStatusBadge | components/asset-ui/employee-claims-list.tsx:142-144 | a fetched claim without a status name gets a yellow badge that reads "pending" |
| EmployeeClaimsList.BadgeColourIgnoresCase | components/asset-ui/employee-claims-list.tsx:11-22 | lower-casing the status name keeps the badge colour, while the text shows the name as spelled |
| EmployeeClaimsList.BadgeShowsRawName | components/asset-ui/employee-claims-list.tsx:142-144 | a claim whose status name is "diterima" shows an emerald badge reading "diterima", not the "Disetujui" `getStatusText` would give |
| ClaimCard.StatusText | components/asset-ui/claim-card.tsx:89-102 | "approved", "rejected", "pending" and "paid" read "Disetujui", "Ditolak", "Pending" and "Dibayar"; any other status is shown unchanged |
| ClaimCard.StatusColor | components/asset-ui/claim-card.tsx:61-74 | emerald, red, yellow and blue for approved, rejected, pending and paid; gray iff the status is not one of the four keys; `payment-card.tsx` uses the same class strings, so its badge reuses this table |
| ClaimCard.KnownColorsDistinct | components/asset-ui/claim-card.tsx:61-74 | the four known statuses have four different colours |
| ClaimCard.GrayIffPassedThrough | components/asset-ui/claim-card.tsx:61-102 | a badge is gray exactly when its text is the raw status |
| ClaimCard.ColorAgreesWithText | components/asset-ui/claim-card.tsx:61-102 | an emerald badge reads "Disetujui", red "Ditolak", yellow "Pending" and blue "Dibayar" |
| ClaimCard.CapitalisedIsUnknown | components/asset-ui/claim-card.tsx:89-102 | matching is exact: "Approved" is passed through in gray |
| ClaimCard.View | components/asset-ui/claim-card.tsx:113-219 | a payment claim shows its employee name and its initials, its own `status`, `category`, `amount` and NIK, and its first truthy approval/review/submission date; any other record shows a truthy user name with its initials or "Tanpa Nama" and "U", a truthy `status_id` or "" (label ""), a truthy total through the dotted-amount formatter or a dash, a truthy category or "-"; its NIK, date and (without a description key) description come from the `claim` prop or "-"; a truthy reviewer reads "Oleh" and the name; the note box appears iff a payment claim has a truthy note; badge text and colour follow the status mappings |
| ClaimCard.Render | components/asset-ui/claim-card.tsx:117-120 | nothing is rendered iff a payment without a claim, or neither a payment nor a claim, is given; otherwise the payment's claim wins over the claim |
| ClaimCard.PaymentWithoutClaimPropShowsDash | components/asset-ui/claim-card.tsx:208-217 | a payment whose claim has no employee name, rendered without a `claim` prop, shows "-" for NIK and date whatever its own fields hold |
| Text.Initials | components/asset-ui/claim-card.tsx:124-129 | the initials are the first characters of the non-empty space-separated words, one per word and in order, never a space |
| Amounts.FormatOrDash | components/asset-ui/claim-card.tsx:104-107 | a dash iff the amount is empty; otherwise the dotted amount read as a number |
| Palette.CategoryTone | components/asset-ui/claim-card.tsx:76-87 | gray iff the category is not Medis, Pembelian Barang or Perjalanan Dinas; never red or yellow |
| Palette.CategoryTonesDistinct | components/asset-ui/transactions-list.tsx:65-76 | the three known categories have three different colours |
| PaymentCard.StatusText | components/asset-ui/payment-card.tsx:63-76 | the four keys read "Disetujui", "Ditolak", "Pending" and "Dibayar"; any other status is passed through |
| PaymentCard.SameBadgesAsClaimCard | components/asset-ui/payment-card.tsx:63-76 | the payment card labels every status exactly as the claim card does; its colour table (lines 30-43) is the claim card's class for class and is modelled by `ClaimCard.StatusColor` |
| PaymentCard.FirstTruthy | components/asset-ui/payment-card.tsx:162 | a chain of `||` yields the first non-empty candidate, or the fallback when there is none |
| PaymentCard.Field | components/asset-ui/payment-card.tsx:87-162 | optional chaining: every field of a missing claim is missing |
| PaymentCard.Render | components/asset-ui/payment-card.tsx:78-170 | a truthy employee name is shown with its initials, otherwise "?" and "Unknown Employee"; the category and status badges, the claim id and the note box appear iff those fields are truthy, and then show them; the amount is a dash without a claim and the claim's formatted amount with one; description and NIK fall back to "-"; the date is `DateShown`; bank and note fall back to "-" when empty or missing |
| PaymentCard.DateShown | components/asset-ui/payment-card.tsx:162 | the approval date if present, else the review date, else the submission date, else "-" |
| PaymentCard.DateIsFirstTruthy | components/asset-ui/payment-card.tsx:162 | the date shown is the first non-empty of the three dates |
| ClaimDetailModal.StatusText | components/asset-ui/claim-detail-modal.tsx:38-51 | "Disetujui", "Ditolak", "Menunggu Review" and "Sudah Dibayar" exactly for "approved", "rejected", "pending" and "paid"; "Status Tidak Diketahui" iff the status is none of them, so an unknown input is never echoed |
| ClaimDetailModal.StatusColor | components/asset-ui/claim-detail-modal.tsx:23-36 | gray iff the status is unknown |
| ClaimDetailModal.ColorAgreesWithText | components/asset-ui/claim-detail-modal.tsx:23-51 | emerald iff "Disetujui", red iff "Ditolak", yellow iff "Menunggu Review", blue iff "Sudah Dibayar", gray iff the unknown-status label; the colours are the claim card's |
| ClaimDetailModal.UnknownStatusesLookAlike | components/asset-ui/claim-detail-modal.tsx:48-50 | two unknown statuses look identical in the modal although the claim card tells them apart |
| ClaimDetailModal.Clean | components/asset-ui/claim-detail-modal.tsx:59 | the cleaned text is a subsequence of the input holding every digit, dot and minus sign as often as the input does, and nothing else |
| ClaimDetailModal.CleanIdempotent | components/asset-ui/claim-detail-modal.tsx:59 | cleaning twice is cleaning once |
| ClaimDetailModal.FormatCurrency | components/asset-ui/claim-detail-modal.tsx:53-73 | a missing amount shows 0; a number shows itself; a text shows 0 or the value `parseFloat` reads from its cleaned form |
| ClaimDetailModal.FormatCurrencyNeedsDigit | components/asset-ui/claim-detail-modal.tsx:58-65 | a text without a digit shows 0 |
| ClaimDetailModal.FormatCurrencyOfDigits | components/asset-ui/claim-detail-modal.tsx:58-65 | a plain digit string shows the number it spells, the same number the cards show |
| ClaimDetailModal.GroupedAmountReadAsFraction | components/asset-ui/claim-detail-modal.tsx:59-60 | a thousands-grouped amount `a.b.c` shows as the decimal `a.b`, not as the grouped number |
| ClaimDetailModal.GroupedAmountExample | components/asset-ui/claim-detail-modal.tsx:59-60 | the cleaned "1.250.000" is read as 1.25, the number handed to the formatter (which rounds it to "Rp 1") |
| ClaimDetailModal.SpellGrouped | components/asset-ui/claim-detail-modal.tsx:59 | the cleaned thousands-grouped text "1.250.000" splits into the numeral "1.250" and a second group ".000", the split the example above relies on |
| ClaimDetailModal.OneQuarterExample | components/asset-ui/claim-detail-modal.tsx:60 | the numeral `parseFloat` stops at, "1.250", is worth 1.25 |
| ClaimDetailModal.FormatDate | components/asset-ui/claim-detail-modal.tsx:75-80 | "-" iff the date is missing, empty or unparseable; otherwise the parsed date itself |
| ClaimDetailModal.TransactionDate | components/asset-ui/claim-detail-modal.tsx:156 | "-" iff the date is empty; "Invalid Date" iff it is non-empty and does not parse |
| ClaimDetailModal.DatesAgreeWhenParsed | components/asset-ui/claim-detail-modal.tsx:75-156 | both date renderings agree on every parseable date and differ on every non-empty unparseable one |
| ClaimDetailModal.AttachmentLink | components/asset-ui/claim-detail-modal.tsx:183 | the link is the base URL, then "/uploads/", then the file name |
| ClaimDetailModal.AttachmentLinksDistinct | components/asset-ui/claim-detail-modal.tsx:183 | two different file names never get the same download link |
| ClaimDetailModal.Render | components/asset-ui/claim-detail-modal.tsx:82-213 | badge label and colour follow the modal's own mapping of the status name, gray "Status Tidak Diketahui" without one; the total is `FormatCurrency` of the transaction total; missing type and user names show "-"; the transaction date is `TransactionDate`; a truthy description is shown, otherwise "-"; one attachment line per attachment, in order, with its link and its `FormatDate` upload date, none without the list |
| FinanceQueue.ClaimById | components/asset-ui/finance-dashboardd.tsx:86 | the first fetched claim with that id, absent iff none has it |
| FinanceQueue.Join | components/asset-ui/finance-dashboardd.tsx:85-91 | each entry is the referenced claim plus that review's id |
| FinanceQueue.ClaimsWithReview | components/asset-ui/finance-dashboardd.tsx:84-91 | entry i joins the i-th accepted review, so there is one entry per accepted review, in review order |
| FinanceQueue.UniqueClaims | components/asset-ui/finance-dashboardd.tsx:93-95 | distinct claim ids, in the order of first occurrence, each entry being the last one with its id |
| FinanceQueue.QueueComesFromAcceptedReviews | components/asset-ui/finance-dashboardd.tsx:84-95 | every queued entry comes from some accepted review, and every accepted review's claim id is queued |
| FinanceQueue.DecisionNotConsulted | components/asset-ui/finance-dashboardd.tsx:84 | two review lists that differ only in non-null decisions give the same queue |
| FinanceQueue.RejectedReviewIsPayable | components/asset-ui/finance-dashboardd.tsx:84-91 | a rejected review queues its claim; a null decision does not |
| FinanceQueue.Amount | components/asset-ui/finance-dashboardd.tsx:106 | a missing claim or total adds 0; a number total adds itself; a text total adds its `Number` value, or 0 when that is `NaN` |
| FinanceQueue.AmountOfDigits | components/asset-ui/finance-dashboardd.tsx:106 | a digit-string total adds the number it spells |
| FinanceQueue.TotalAmount | components/asset-ui/finance-dashboardd.tsx:105-107 | the total is non-negative whenever every amount is |
| FinanceQueue.TotalAmountStep | components/asset-ui/finance-dashboardd.tsx:105-107 | the total of an empty queue is 0, and each further entry adds exactly its own amount |
| FinanceQueue.UniquePayments | components/asset-ui/finance-dashboardd.tsx:97-99 | distinct payment ids, listed in the order the ids first occur, each entry the last fetched payment with its id; every fetched id is kept and every kept payment was fetched |
| FinanceQueue.Load | components/asset-ui/finance-dashboardd.tsx:51-111 | on success the queue, its size, its total, the unique payments and the methods are set together and every other field is unchanged; on failure only an alert |
| FinanceQueue.Open | components/asset-ui/finance-dashboardd.tsx:221 | the pay button selects the entry and opens the modal without touching the form |
| FinanceQueue.ReplyPayment | components/asset-ui/finance-dashboardd.tsx:154-155 | an error reply gives no payment; an array reply gives one iff it is non-empty |
| FinanceQueue.Request | components/asset-ui/finance-dashboardd.tsx:133-139 | the posted form carries the claim id, the review id, the method, the bank and the note as entered |
| FinanceQueue.SubmitPayment | components/asset-ui/finance-dashboardd.tsx:120-171 | nothing happens without a selection; a missing bank or method only alerts; a request is posted iff both are set and a token exists; a posted request succeeds iff the reply carries a payment (an object, or a non-empty array's first element); success prepends that payment, with the fresh id if it has none, closes the modal and clears form, selection and `loading`, changing nothing else; every failure after the guards (no token, an error reply, an empty array) raises the payment-failed alert and changes only `loading` |
| FinanceQueue.CreatedPaymentId | components/asset-ui/finance-dashboardd.tsx:154-158 | the new payment keeps the reply's id, or gets the fresh id when it has none |
| Lists.MapValues | components/asset-ui/finance-dashboardd.tsx:93-95 | one entry per key, in the order of first occurrence, each being the last entry with its key |
| Lists.MapValuesKeys | components/asset-ui/finance-dashboardd.tsx:93-99 | the kept keys are pairwise distinct and cover every input key |
| Numbers.JsNumberOfDigits | components/asset-ui/finance-dashboardd.tsx:106 | `Number` of a digit string is the number it spells |
| Numbers.JsNumber | components/asset-ui/finance-dashboardd.tsx:106 | blank text converts to 0, so a blank total adds 0 |
| Numbers.JsNumberOfDecimal | components/asset-ui/finance-dashboardd.tsx:106 | a white-space padded, optionally signed `w.f` numeral (either side of the dot may be empty, not both) converts to its signed value |
| Numbers.JsNumberOfInteger | components/asset-ui/finance-dashboardd.tsx:106 | a white-space padded, optionally signed digit string converts to its digits' value, negated after a minus |
| Numbers.JsNumberRejectsTextAfterDecimal | components/asset-ui/finance-dashboardd.tsx:106 | a `w.f` numeral followed by text that cannot continue it (not a digit, not an exponent) converts to `NaN` |
| Numbers.JsNumberRejectsTextAfterInteger | components/asset-ui/finance-dashboardd.tsx:106 | a digit string followed by text that cannot continue it (not a digit, dot, exponent or radix letter) converts to `NaN` |
| Text.TrimOfPadded | components/asset-ui/finance-dashboardd.tsx:106 | `trim` of a text between white-space runs, with no white space at its ends, is that text |
| Numbers.JsNumberRejectsTrailingText | components/asset-ui/finance-dashboardd.tsx:106 | digits followed by a letter convert to `NaN` (counted 0 in the total) although `parseInt` reads them as the digits' value |
| FinanceDashboard.OrNull | components/asset-ui/finance-dashboard.tsx:65-67 | `null` iff the value is empty, the value otherwise |
| FinanceDashboard.RequestBody | components/asset-ui/finance-dashboard.tsx:62-69 | the three ids are posted as entered; method, bank and note become `null` when empty |
| FinanceDashboard.BodyKeepsEnteredValues | components/asset-ui/finance-dashboard.tsx:62-69 | every non-empty field reaches the server unchanged, and an empty method, bank or note is posted as null |
| FinanceDashboard.OptionalFieldsPostNull | components/asset-ui/finance-dashboard.tsx:62-69 | a form with the three required ids filled and the optional fields empty passes the browser's `required` check and posts the ids with null method, bank and note |
| FinanceDashboard.ErrorText | components/asset-ui/finance-dashboard.tsx:88 | never empty; the message itself when it has one |
| FinanceDashboard.HandleSubmit | components/asset-ui/finance-dashboard.tsx:50-92 | `loading` ends false; success resets all six fields, clears the error and refreshes; failure keeps the fields and sets a non-empty error, the server message or "Failed to create payment" |
| FinanceDashboard.RefusalHasOwnDefault | components/asset-ui/finance-dashboard.tsx:72-75 | a refusal never shows "Unknown error" unless the server said so |
| FinanceDashboard.FetchPayments | components/asset-ui/finance-dashboard.tsx:36-48 | a listing replaces the payments and clears the error; a failure keeps them and sets the error |
| HrDashboard.ReviewedClaims | components/asset-ui/hr-dashboard.tsx:11 | exactly the claims with a non-empty review date, each as often as it occurs, in order |
| HrDashboard.PercentageBounds | components/asset-ui/hr-dashboard.tsx:21 | a share of a positive whole lies between 0 and 100 |
| HrDashboard.Percentage | components/asset-ui/hr-dashboard.tsx:21 | none of the whole is 0 percent and all of it is 100 percent |
| HrDashboard.Dashboard | components/asset-ui/hr-dashboard.tsx:10-21 | the pending list is the HR queue; the approval rate is 0 with nothing reviewed and otherwise 100 times approved over reviewed, always in [0, 100]; the recent list is the first at most three reviewed claims |
| HrDashboard.AllApprovedRate | components/asset-ui/hr-dashboard.tsx:21 | the rate is 100 when every reviewed claim is approved |
| HrDashboard.NoneApprovedRate | components/asset-ui/hr-dashboard.tsx:21 | the rate is 0 when no reviewed claim is approved |
| HrDashboard.SampleDashboard | components/asset-ui/hr-dashboard.tsx:10-131 | on the sample data nothing is pending or reviewed, the rate is 0 and the recent list is empty |
| EmployeeDashboard.Dashboard | components/asset-ui/employee-dashboard.tsx:13-26 | the claims are exactly EMP-001's; pending counts `status == 'pending'`, approved counts 'approved' or 'paid'; pending plus approved never exceeds the total |
| EmployeeDashboard.CountsIgnoreStatusId | components/asset-ui/employee-dashboard.tsx:25-26 | a claim stored as pending but without the view `status` is counted in neither bucket |
| EmployeeDashboard.SampleDashboardEmpty | components/asset-ui/employee-dashboard.tsx:13-26 | on the sample data all three counts are 0 |
| ReviewForm.ExactlyThreeDecisions | components/asset-ui/review-form.tsx:22-44 | the decision ids are approved, rejected and pending, pairwise distinct, and "Butuh Info Tambahan" reuses the pending id |
| ReviewForm.SelectedStatus | components/asset-ui/review-form.tsx:99 | an option is found iff the id is one of the three, and it is the option with that id |
| ReviewForm.InputChange | components/asset-ui/review-form.tsx:92-97 | the named field takes the value and the other keeps its value |
| ReviewForm.InputChangeOverwrites | components/asset-ui/review-form.tsx:92-97 | only the last update of a field counts |
| ReviewForm.SubmitEnabled | components/asset-ui/review-form.tsx:238 | enabled iff nothing is being submitted, a decision is chosen and the note has a non-blank character |
| ReviewForm.AnyDecisionEnables | components/asset-ui/review-form.tsx:238 | any non-empty decision string enables the button, not only the three offered |
| ReviewForm.VariantOf | components/asset-ui/review-form.tsx:210-245 | the approve variant iff the approved id, the reject variant iff the rejected id |
| ReviewForm.VariantsAgree | components/asset-ui/review-form.tsx:210-245 | the placeholder and the button colour single out the same two decisions; every other id looks like pending |
| ReviewForm.Submit | components/asset-ui/review-form.tsx:70-90 | the trace is exactly one logged review followed by the close; the review has the fresh id, the claim id, the chosen decision and note, the fixed HR user, and the two clock reads as `createdAt` and `updatedAt` |
| Text.TrimEmptyIffBlank | components/asset-ui/review-form.tsx:238 | `trim()` is empty iff every character is white space |
| ReviewModal.Initial | components/asset-ui/review-modal.tsx:32-33 | the decision starts as the claim's `status_id` and the note as its notes or "" |
| ReviewModal.HandleSubmit | components/asset-ui/review-modal.tsx:35-49 | an empty decision only alerts; otherwise the trace is exactly `onSubmit` of the review (no id, the claim id, the current user, the decision, the note, the two clock reads as `created_at` and `updated_at`) followed by `onClose` |
| ReviewModal.ResubmitFromInitial | components/asset-ui/review-modal.tsx:32-48 | a claim that already has a decision can be resubmitted unchanged straight away |
| ReviewDetailModal.Initial | components/asset-ui/review-detail-modal.tsx:38-39 | the decision starts as the claim's `status_id` or "", the note empty |
| ReviewDetailModal.HandleSubmit | components/asset-ui/review-detail-modal.tsx:41-52 | an empty decision only alerts; otherwise the trace is exactly `onSubmit` of the review (claim id, decision, note, current user) followed by `onClose` |
| ReviewDetailModal.UndecidedClaimRefused | components/asset-ui/review-detail-modal.tsx:38-42 | a claim without a decision cannot be submitted until one is chosen |
| Events.SubmitThenClose | components/asset-ui/review-modal.tsx:47-48 | an accepted submission is exactly two events: `onSubmit` with the value, then `onClose` |
| PaymentForm.HandleSubmit | components/asset-ui/payment-form.tsx:17-47 | a payload is posted iff bank and note are non-empty, else only "Lengkapi semua field" is alerted; the payload copies the claim, review and user ids and the entered texts; an accepted post alerts "Pembayaran berhasil!" then closes, a refused one alerts "Gagal mengirim data ke backend" and stays open; `loading` ends false |
| PaymentForm.MethodIsFixed | components/asset-ui/payment-form.tsx:28 | every posted payload names the same payment method |
| ClaimSubmissionForm.InputChange | components/asset-ui/claim-submission-form.tsx:66-71 | the named field takes the value and every other field keeps its value |
| ClaimSubmissionForm.InputChangesCommute | components/asset-ui/claim-submission-form.tsx:66-71 | updates of two different fields commute |
| ClaimSubmissionForm.DigitsOnly | components/asset-ui/claim-submission-form.tsx:74-79 | the result is a subsequence of the input holding every digit as often as the input does, and nothing else |
| ClaimSubmissionForm.DigitsOnlyIdempotent | components/asset-ui/claim-submission-form.tsx:74-79 | stripping twice is stripping once, and a digit string is left alone |
| ClaimSubmissionForm.AmountChange | components/asset-ui/claim-submission-form.tsx:78-81 | the stored total is always a digit string, the digits typed, and no other field changes |
| ClaimSubmissionForm.FormatCurrency | components/asset-ui/claim-submission-form.tsx:73-76 | 0 when no digit was typed, otherwise the number the digits spell |
| ClaimSubmissionForm.FormatCurrencyOfStored | components/asset-ui/claim-submission-form.tsx:73-81 | the display depends only on the digits, and a stored total displays as its own value |
| ClaimSubmissionForm.SubmitEnabled | components/asset-ui/claim-submission-form.tsx:267 | enabled iff not submitting and claim type, first description, date and total are all non-empty |
| ClaimSubmissionForm.GuardIgnoresOptionalFields | components/asset-ui/claim-submission-form.tsx:267 | the optional fields never change the guard, and a total of "0" enables submit |
| ClaimSubmissionForm.Submit | components/asset-ui/claim-submission-form.tsx:45-64 | the trace is exactly one logged claim followed by the close; the claim is "status-pending" for user-001, carries the form's fields and has the two clock reads as `createdAt` and `updatedAt` |
| ClaimSubmissionCallback.HandleSubmit | components/asset-ui/ClaimSubmissionForm.tsx:26-49 | a missing date or a total at most 0 alerts the first message; otherwise a blank name or type alerts the second; otherwise `onSubmit` runs once with the fields as entered; never closes; `loading` ends false |
| ClaimSubmissionCallback.DateCheckFirst | components/asset-ui/ClaimSubmissionForm.tsx:29-36 | whenever both checks fail (missing date or total at most 0, and a blank name or type) only the date-and-amount message is shown |
| ClaimSubmissionCallback.BrowserFilteredSubmit | components/asset-ui/ClaimSubmissionForm.tsx:29-36 | on a form that passes the inputs' `required` and `min={0}` attributes, the first message appears exactly for a zero total and the second exactly for a positive total with a name or type of white space only |
| ClaimSubmissionCallback.DateCheckFirstInBrowser | components/asset-ui/ClaimSubmissionForm.tsx:29-36 | a zero total with a name of spaces passes the browser's check, fails both handler checks, and gets only the date-and-amount message |
| ClaimSubmissionCallback.PassedAsEntered | components/asset-ui/ClaimSubmissionForm.tsx:33-47 | a name with leading space passes the trimmed check and is handed on untrimmed, with an empty description |
| AuthModal.InputChange | components/asset-ui/auth-modal.tsx:63-68 | the named field takes the value and every other field keeps its value |
| AuthModal.IsFormValid | components/asset-ui/auth-modal.tsx:111-124 | a login is valid iff email and password are non-empty; a registration iff all seven fields are non-empty and the passwords match |
| AuthModal.RegisterValidIsLoginValid | components/asset-ui/auth-modal.tsx:111-124 | every form valid for registration is valid for login |
| AuthModal.MismatchWarning | components/asset-ui/auth-modal.tsx:354 | the warning shows iff the confirmation is non-empty and differs from the password |
| AuthModal.WarningBlocksRegistration | components/asset-ui/auth-modal.tsx:111-354 | a form showing the warning cannot register |
| AuthModal.SubmitEnabled | components/asset-ui/auth-modal.tsx:367 | enabled iff the form is valid for its mode and nothing is loading; a login as soon as both credentials are typed; a registration never with mismatched passwords |
| AuthModal.SwitchMode | components/asset-ui/auth-modal.tsx:383 | the footer link asks for the other mode |
| AuthModal.RoleNamed | components/asset-ui/auth-modal.tsx:99 | a role entry is found iff the role is employee, hr or finance, and it is the entry with that id |
| AuthModal.RoleRedirects | components/asset-ui/auth-modal.tsx:27-46 | employee, hr and finance go to their own dashboards |
| AuthModal.Redirect | components/asset-ui/auth-modal.tsx:96-104 | login goes to the employee dashboard; registration to the role entry's page, or "/dashboard" without one |
| AuthModal.RegisterRedirect | components/asset-ui/auth-modal.tsx:97-100 | registering sends each known role to its own dashboard and any other role to "/dashboard" |
| AuthModal.LoginIgnoresRole | components/asset-ui/auth-modal.tsx:101-104 | the login redirect does not depend on the role field |
| AuthModal.HandleSubmit | components/asset-ui/auth-modal.tsx:70-109 | a login logs the credentials; a registration logs the record with the fresh id, the typed name, email, password and role, NIK and phone read by `parseInt`, and the two clock reads as `created_at` and `updated_at`; the modal then closes and navigates to `Redirect`, with loading off |
| AuthModal.PhoneLeadingZeroLost | components/asset-ui/auth-modal.tsx:81-82 | a phone "0812..." is logged as the same number as "812...": `parseInt` drops the leading zero |
| TransactionsList.TotalAmount | components/asset-ui/transactions-list.tsx:99 | the total is a number iff every dotted amount parses |
| TransactionsList.TotalOfGrouped | components/asset-ui/transactions-list.tsx:99 | when every amount is grouped digits, the total is the sum of the numbers the digits spell |
| TransactionsList.Statistics | components/asset-ui/transactions-list.tsx:98-100 | the claim count is the list's length, the total as above, and an average exists iff the list is non-empty and the total is a number, and is then `Math.round(total / count)` |
| TransactionsList.CategoryColor | components/asset-ui/transactions-list.tsx:65-76 | gray iff the category is not one of the three known ones |
| TransactionsList.RenderRow | components/asset-ui/transactions-list.tsx:189-242 | a row shows the initials of the employee name (at most one per word), the claim's category with its colour, its claim id, description, name, NIK and approval date, and the amount read with the dots removed |
| TransactionsList.FormFor | components/asset-ui/transactions-list.tsx:272-276 | the payment form is shown iff it is open and a claim is selected, and then for that claim |
| TransactionsList.ProcessPayment | components/asset-ui/transactions-list.tsx:87-90 | the form opens on the clicked claim |
| TransactionsList.ClosePaymentForm | components/asset-ui/transactions-list.tsx:92-95 | closing hides the form |
| TransactionsList.CloseUndoesProcess | components/asset-ui/transactions-list.tsx:87-95 | opening a row and closing the form returns to the initial state |
| TransactionsList.SampleTotal | components/asset-ui/transactions-list.tsx:23-99 | the three sample amounts total 2,320,000 |
| TransactionsList.SampleStatistics | components/asset-ui/transactions-list.tsx:23-100 | the sample cards read 3 claims, 2,320,000 in all and 773,333 on average |
| Amounts.RemoveDots | components/asset-ui/transactions-list.tsx:80 | the result has no dot and is the input's other characters, in order (a subsequence) and each as often as in the input |
| Amounts.ParseDottedGrouping | components/asset-ui/transactions-list.tsx:79-81 | an amount of digits and dots with at least one digit reads as the number its digits spell |
| Amounts.ParseDottedNeedsDigit | components/asset-ui/transactions-list.tsx:79-81 | an amount without a digit reads as `NaN`; with `ParseDottedGrouping` this characterises `Amounts.ParseDotted` (`parseInt` after removing every dot), which has no contract of its own |
| Amounts.ParseDottedOfNumberText | components/asset-ui/transactions-list.tsx:144 | formatting `total.toString()` reads back the total itself, `NaN` included |
| Amounts.AppendGroup | components/asset-ui/transactions-list.tsx:79-81 | a further `.ddd` group multiplies the digits' value by 1000 and adds the group |
| Numbers.RoundedQuotient | components/asset-ui/transactions-list.tsx:164 | `Math.round(total / count)`: the nearest integer with halves rounded up, `NaN` iff the count is 0, which its callers reach only with a total of 0 (JavaScript's `0 / 0`) |
| Numbers.ParseIntOfIntToString | components/asset-ui/transactions-list.tsx:144 | `parseInt(n.toString())` is `n` for every integer |
| Numbers.ParseIntOfDigits | components/asset-ui/transactions-list.tsx:80 | a non-empty digit string parses to the number it spells |
| Numbers.ParseIntNeedsDigit | components/asset-ui/transactions-list.tsx:80 | a string with no digit parses to `NaN` |
| Numbers.ParseIntReadsLeadingDigits | components/asset-ui/transactions-list.tsx:80 | `parseInt` reads the leading digits and ignores the rest: digits followed by a non-digit read as the digits' value |
| Numbers.ParseIntOfNegative | components/asset-ui/auth-modal.tsx:81-82 | a leading minus negates the digits after it |
| Numbers.ParseIntSkipsSpace | components/asset-ui/auth-modal.tsx:81-82 | leading white space does not change the result |
| Numbers.ParseIntOfHex | components/asset-ui/auth-modal.tsx:81-82 | without a radix a `0x` prefix reads the hexadecimal digits after it; with the lemmas above this is the characterisation of `Numbers.ParseInt`, which has no contract of its own |
| Numbers.DigitsValueConcat | components/asset-ui/transactions-list.tsx:80 | the value of `a + b` is the value of `a` shifted by the length of `b`, plus the value of `b` |
| Numbers.ParseFloatOfDecimal | components/asset-ui/claim-detail-modal.tsx:60 | `parseFloat` of `w.f` followed by a non-digit is the decimal `w.f` |
| Numbers.ParseFloatOfDigits | components/asset-ui/claim-detail-modal.tsx:60 | `parseFloat` of a digit string is its value |
| Numbers.ParseFloatNeedsDigit | components/asset-ui/claim-detail-modal.tsx:58-65 | text without a digit reads `NaN`; with the two lemmas above this is the characterisation of `Numbers.ParseFloat`, which has no contract of its own |
| HrReviewsList.DateSourceOfThreeWords | components/asset-ui/hr-reviews-list.tsx:30 | "day month year" becomes "year-month-day" |
| Text.JoinSplit | components/asset-ui/hr-reviews-list.tsx:30 | joining the pieces of a split with the same separator gives back the text |
| Text.ReverseInvolutive | components/asset-ui/hr-reviews-list.tsx:30 | reversing twice is the identity |
| HrReviewsList.DiffDays | components/asset-ui/hr-reviews-list.tsx:31-33 | the whole days rounding the absolute gap up: non-negative, the least count of days covering the gap, `NaN` iff the date did not parse |
| HrReviewsList.DaysAgo | components/asset-ui/hr-reviews-list.tsx:35-38 | days iff fewer than 7, weeks iff 7 to 29, months otherwise or for `NaN`; the week count lies in 1..4 and the month count is at least 1, each the floor of the quotient |
| HrReviewsList.OneDayIsGeneralCase | components/asset-ui/hr-reviews-list.tsx:35-36 | the special phrase for one day equals the general day phrase |
| HrReviewsList.UnitsGrowWithDays | components/asset-ui/hr-reviews-list.tsx:35-38 | more days never read as a shorter unit |
| HrReviewsList.Statistics | components/asset-ui/hr-reviews-list.tsx:81-122 | the pending count is the number of claims; the total is `NaN` iff some amount does not parse; the average is 0 for an empty queue or a `NaN` total, otherwise the rounded mean |
| HrReviewsList.TotalCardShowsTotal | components/asset-ui/hr-reviews-list.tsx:106 | the total card reads back exactly the total |
| HrReviewsList.SampleQueueEmpty | components/asset-ui/hr-reviews-list.tsx:46-212 | with the sample data nothing waits for review and the cards read 0, 0 and 0 |
| HrReviewsList.DetailShown | components/asset-ui/hr-reviews-list.tsx:227 | the detail modal shows iff it is open and a claim is selected |
| HrReviewsList.ReviewShown | components/asset-ui/hr-reviews-list.tsx:235 | the review form shows iff it is open and a claim is selected |
| HrReviewsList.ViewDetail | components/asset-ui/hr-reviews-list.tsx:48-51 | clicking a card shows that claim's detail and leaves the review form flag alone |
| HrReviewsList.ReviewClaim | components/asset-ui/hr-reviews-list.tsx:53-57 | the review button shows the review form for that claim and leaves the detail flag alone |
| HrReviewsList.CloseDetailModal | components/asset-ui/hr-reviews-list.tsx:59-62 | closing the detail hides both modals, because the shared selection is cleared |
| HrReviewsList.CloseReviewForm | components/asset-ui/hr-reviews-list.tsx:64-67 | closing the review form hides both modals |
| HrReviewsList.ClosingHidesBoth | components/asset-ui/hr-reviews-list.tsx:48-67 | after opening both, closing the review form also hides the detail although its flag stays set |
| Sidebar.Toggle | components/asset-ui/sidebar.tsx:20-25 | the section is in the result iff it was not before; no other id changes membership; an absent id is appended; a present one is removed, leaving a shorter subsequence |
| Sidebar.ToggleFlips | components/asset-ui/sidebar.tsx:20-66 | a click flips that section's expanded state and no other |
| Sidebar.ToggleTwice | components/asset-ui/sidebar.tsx:20-25 | opening a collapsed section and closing it again restores the list exactly |
| Sidebar.ToggleKeepsDistinct | components/asset-ui/sidebar.tsx:20-25 | toggling keeps the list free of repeats |
| Sidebar.AfterClicks | components/asset-ui/sidebar.tsx:13-25 | after any clicks, every listed id was clicked or was initially expanded |
| Sidebar.ClicksKeepDistinct | components/asset-ui/sidebar.tsx:13-25 | starting from ['finance'], no run of clicks puts a section in the list twice |
| Sidebar.ExpandedByParity | components/asset-ui/sidebar.tsx:13-66 | a section is expanded iff it was clicked an odd number of times, flipped for 'finance', which starts open |
| Sidebar.ToggleMobileMenu | components/asset-ui/sidebar.tsx:98 | the menu button flips the drawer |
| Sidebar.Navigate | components/asset-ui/sidebar.tsx:16-18 | following a link closes the drawer |
| Sidebar.IsActive | components/asset-ui/sidebar.tsx:147-193 | a link is highlighted iff it is the current page |

## Left out

- HTTP and the browser: `fetch`, `Promise.all`, bearer tokens from `localStorage`, `alert` text display, `console` logging and the simulated `setTimeout` delays. Server replies, the stored token and the result of each request are parameters; alerts and callbacks appear as events.
- React rendering: JSX, layout, CSS class strings (modelled as `Palette.Tone` tokens) and router navigation (modelled as the path pushed). `landing-page.tsx`, `layout.tsx` and the `app/*/page.tsx` files only compose components and have no behaviour of their own.
- `Intl.NumberFormat` and `toLocaleDateString`: the model returns the number or parsed date handed to the formatter, not the formatted text.
- `Date` parsing and `Date.now()`: `new Date(s)` is a `parses` predicate or a millisecond value supplied by the caller.
- Floating point: amounts are unbounded `int` or `real`, so precision beyond 2^53 and `toFixed` are not modelled. `Math.round` is modelled exactly on rationals (`Numbers.RoundedQuotient`).
- `Number()` of exponent, hex, binary and octal literals and of `Infinity`: `finance-dashboardd.tsx:106` passes the server's raw `transaction_total` text to `Number`, and the model reads "1e6", "0x10" or "Infinity" as `NaN`, so such a total counts 0 here where the program adds its value. The model is exact for padded, signed decimal numerals and for text that cannot continue one.
- `parseFloat` of exponents and `Infinity`: its callers first strip every character except digits, dots and minus signs, so neither can reach it.
- Full Unicode `toLowerCase`, `toUpperCase` and `trim`: the model works over ASCII.
- `crypto.randomUUID()` and `new Date().toISOString()`: fresh ids and timestamps are parameters. A record's creation and update timestamps are two separate clock reads in the source and two separate parameters here, so nothing relates them.
- The input `maxLength` attributes of `auth-modal.tsx` and the `type="number"` coercion of `ClaimSubmissionForm.tsx`, whose total is modelled as a real number already.
- The browser's `required`/`min` check on `ClaimSubmissionForm.tsx` and `finance-dashboard.tsx`: it stops the submit before `handleSubmit` runs. ClaimSubmissionCallback.HandleSubmit and FinanceDashboard.HandleSubmit are modelled for every form, including ones the browser would stop. What the browser lets through is a separate predicate, `FormAccepts`, in each module. The lemmas that use it are `ClaimSubmissionCallback.BrowserFilteredSubmit`, `ClaimSubmissionCallback.DateCheckFirstInBrowser` and `FinanceDashboard.OptionalFieldsPostNull`. The `required` check on the number input itself is not modelled, because a cleared number field is held as the number 0.
- The proof image of `claim-card.tsx:192-202`: an `<Image>` of `payment.proof`, drawn only for a payment with a truthy `proof`; it is markup with no derived value, so `ClaimCard.CardView` has no field for it.
- `lib/data/claims.ts` declares types only.
- The drafts `claim-form copy.tsx`, `employee-claims-list copy.tsx` and `finance-dashboard copy.tsx` duplicate modelled components and are not part of this model.
- Type-level defects that do not change behaviour: `payment-form.tsx:4` imports a `ClaimWithReview` that `finance-dashboardd.tsx` does not export; `employee-claims-list.tsx:8` imports a `./claim-form` that is not part of this model; `layout.tsx:29` passes a prop `sidebar.tsx:11` does not accept.
- Role gating, approval before payment, one payment per claim and a needs-info state: the client enforces none of them, so none is asserted.
- The handlers of `review-form.tsx` and `auth-modal.tsx` do not re-check their guards; the model's `Submit`/`HandleSubmit` accept any form, as the code does, and the guards are separate functions.
- FinanceQueue.TotalAmount: its own contract states only that the total is non-negative; its value is stated by `FinanceQueue.TotalAmountStep`.
- Sidebar.AfterClicks: states only where listed ids come from; membership is given exactly by `Sidebar.ExpandedByParity`.

=== FILE: amounts.dfy ===
/** The amount text handling repeated across the components: Indonesian
    amounts are written with `.` as the thousands separator ("1.250.000"), and
    are read back with `parseInt(amount.replace(/\./g, ''))`. The grouping
    `Intl.NumberFormat("id-ID")` applies when displaying is not modelled: a
    displayed amount is the number it formats. */
module Amounts {
  import opened Optional
  import opened Text
  import opened Lists
  import opened Numbers

  predicate NotDot(c: char) {
    c != '.'
  }

  /** `amount.replace(/\./g, '')` */
  function RemoveDots(s: string): (r: string)
    ensures '.' !in r
    ensures forall c :: c in r <==> c in s && c != '.'
    ensures forall c :: multiset(r)[c] == if c != '.' then multiset(s)[c] else 0
    ensures IsSubsequence(r, s)
  {
    FilterMultiplicity(s, NotDot);
    FilterIsSubsequence(s, NotDot);
    Filter(s, NotDot)
  }

  /** `parseInt(amount.replace(/\./g, ''))`: `None` is `NaN`. */
  function ParseDotted(s: string): Option<int> {
    ParseInt(RemoveDots(s))
  }

  /** An amount without any digit reads as `NaN`. */
  lemma ParseDottedNeedsDigit(s: string)
    requires forall i :: 0 <= i < |s| ==> !IsDigit(s[i])
    ensures ParseDotted(s) == None
  {
    var t := RemoveDots(s);
    assert forall j :: 0 <= j < |t| ==> t[j] in s;
    ParseIntNeedsDigit(t);
  }

  /** An amount made of digits and dots, with at least one digit, reads as the
      number its digits spell: the dots are only grouping. */
  lemma ParseDottedGrouping(s: string)
    requires forall i :: 0 <= i < |s| ==> IsDigit(s[i]) || s[i] == '.'
    requires exists i :: 0 <= i < |s| && IsDigit(s[i])
    ensures AllDigits(RemoveDots(s)) && ParseDotted(s) == Some(DigitsValue(RemoveDots(s)))
  {
    var t := RemoveDots(s);
    var i :| 0 <= i < |s| && IsDigit(s[i]);
    assert s[i] in t;
    assert forall j :: 0 <= j < |t| ==> t[j] in s;
    ParseIntOfDigits(t);
  }

  /** The dots of `a.g` vanish and the digits of `g` follow those of `a`. */
  lemma RemoveDotsAppend(a: string, g: string)
    requires AllDigits(g)
    ensures RemoveDots(a + "." + g) == RemoveDots(a) + g
  {
    assert a + "." + g == a + (['.'] + g);
    FilterConcat(a, ['.'] + g, NotDot);
    FilterConcat(['.'], g, NotDot);
    FilterKeepsAll(g, NotDot);
  }

  /** The digits of an amount followed by one more thousands group `.ddd`
      spell the amount's value times a thousand plus the group. */
  lemma AppendGroup(a: string, g: string)
    requires AllDigits(RemoveDots(a)) && |g| == 3 && AllDigits(g)
    ensures AllDigits(RemoveDots(a + "." + g))
    ensures DigitsValue(RemoveDots(a + "." + g)) == DigitsValue(RemoveDots(a)) * 1000 + DigitsValue(g)
  {
    RemoveDotsAppend(a, g);
    DigitsValueConcat(RemoveDots(a), g);
    assert Pow10(|g|) == 1000;
  }

  /** `String(total)` for a sum that may be `NaN`. */
  function NumberText(v: Option<int>): string {
    if v.None? then "NaN" else IntToString(v.value)
  }

  /** Formatting `total.toString()` with the dotted-amount reader gives the
      total back, `NaN` included: the cards can show a computed sum. */
  lemma ParseDottedOfNumberText(v: Option<int>)
    ensures ParseDotted(NumberText(v)) == v
  {
    if v.None? {
      ParseDottedNeedsDigit("NaN");
    } else {
      var t := IntToString(v.value);
      assert forall i :: 0 <= i < |t| ==> NotDot(t[i]) by {
        var u := NatToString(if v.value < 0 then -v.value else v.value);
        assert forall i :: 0 <= i < |u| ==> IsDigit(u[i]);
        if v.value < 0 {
          assert t == "-" + u;
          assert forall i :: 1 <= i < |t| ==> t[i] == u[i - 1];
        }
      }
      FilterKeepsAll(t, NotDot);
      ParseIntOfIntToString(v.value);
      ParseDottedVia(t, t, v.value);
    }
  }

  lemma ParseDottedVia(s: string, t: string, v: int)
    requires RemoveDots(s) == t && ParseInt(t) == Some(v)
    ensures ParseDotted(s) == Some(v)
  {
  }

  /** How a formatted amount appears: a dash, or the number that
      `Intl.NumberFormat` groups (`None` renders as "NaN"). */
  datatype Shown = Dash | Grouped(value: Option<int>)

  /** The cards' `formatCurrency`: a dash for a missing or empty amount,
      otherwise the dotted amount read as a number. */
  function FormatOrDash(amount: string): (r: Shown)
    ensures r == Dash <==> amount == ""
    ensures amount != "" ==> r == Grouped(ParseDotted(amount))
  {
    if amount == "" then Dash else Grouped(ParseDotted(amount))
  }
}

=== FILE: auth_modal.dfy ===
/** The sign-in and registration modal: field updates, the validity guard
    of each mode, the password-mismatch warning, the logged record and the
    redirect after submitting. */
module AuthModal {
  import opened Optional
  import opened Text
  import opened Lists
  import opened Numbers
  import opened Events

  datatype Mode = Login | Register

  datatype FormData = FormData(name: string, email: string, password: string, confirmPassword: string,
                               nik: string, phone: string, role: string)

  const InitialForm := FormData("", "", "", "", "", "", "")

  /** The keys of the form's `FormData`. */
  datatype Field = Name | Email | Password | ConfirmPassword | Nik | Phone | RoleField

  function Get(f: FormData, field: Field): string {
    match field
    case Name => f.name
    case Email => f.email
    case Password => f.password
    case ConfirmPassword => f.confirmPassword
    case Nik => f.nik
    case Phone => f.phone
    case RoleField => f.role
  }

  /** `handleInputChange(field, value)` */
  function InputChange(f: FormData, field: Field, value: string): (r: FormData)
    ensures Get(r, field) == value
    ensures forall other :: other != field ==> Get(r, other) == Get(f, other)
  {
    match field
    case Name => f.(name := value)
    case Email => f.(email := value)
    case Password => f.(password := value)
    case ConfirmPassword => f.(confirmPassword := value)
    case Nik => f.(nik := value)
    case Phone => f.(phone := value)
    case RoleField => f.(role := value)
  }

  /** `isFormValid()`: a login needs an email and a password; a
      registration needs all seven fields and matching passwords. */
  function IsFormValid(mode: Mode, f: FormData): (r: bool)
    ensures mode == Login ==> (r <==> f.email != "" && f.password != "")
    ensures mode == Register ==> (r <==> (forall field :: Get(f, field) != "") && f.password == f.confirmPassword)
  {
    assert Get(f, Name) == f.name && Get(f, Email) == f.email && Get(f, Password) == f.password
        && Get(f, ConfirmPassword) == f.confirmPassword && Get(f, Nik) == f.nik && Get(f, Phone) == f.phone
        && Get(f, RoleField) == f.role;
    match mode
    case Login => f.email != "" && f.password != ""
    case Register =>
      f.name != "" && f.email != "" && f.password != "" && f.confirmPassword != "" && f.nik != ""
      && f.phone != "" && f.role != "" && f.password == f.confirmPassword
  }

  /** A form good enough to register with is good enough to log in with. */
  lemma RegisterValidIsLoginValid(f: FormData)
    ensures IsFormValid(Register, f) ==> IsFormValid(Login, f)
  {
    if IsFormValid(Register, f) {
      assert Get(f, Email) != "" && Get(f, Password) != "";
    }
  }

  /** The "passwords differ" warning under the confirmation field. */
  function MismatchWarning(f: FormData): (shown: bool)
    ensures shown <==> f.confirmPassword != "" && f.password != f.confirmPassword
  {
    f.confirmPassword != "" && f.password != f.confirmPassword
  }

  /** A registrable form never shows the warning, and any form showing it
      cannot register. */
  lemma WarningBlocksRegistration(f: FormData)
    ensures MismatchWarning(f) ==> !IsFormValid(Register, f)
  {
  }

  /** The submit button is enabled: never while loading, for a login as soon
      as both credentials are typed, and never for a registration whose
      passwords differ. */
  function SubmitEnabled(mode: Mode, f: FormData, loading: bool): (r: bool)
    ensures r <==> IsFormValid(mode, f) && !loading
    ensures r ==> !loading
    ensures mode == Login ==> (r <==> !loading && f.email != "" && f.password != "")
    ensures mode == Register ==> (r <==> !loading && (forall field :: Get(f, field) != "") && f.password == f.confirmPassword)
    ensures mode == Register && r ==> !MismatchWarning(f) && f.password != "" && f.role != ""
  {
    IsFormValid(mode, f) && !loading
  }

  /** The footer link asks the page to switch to the other mode. */
  function SwitchMode(mode: Mode): (r: Mode)
    ensures r != mode
  {
    if mode == Login then Register else Login
  }

  datatype Role = Role(id: string, name: string, description: string, redirectTo: string)

  /** `ROLES` */
  const Roles: seq<Role> := [
    Role("employee", "Employee", "Karyawan yang mengajukan klaim", "/employee/dashboard"),
    Role("hr", "HR", "Human Resources untuk review klaim", "/hr/dashboard"),
    Role("finance", "Finance", "Tim Finance untuk proses pembayaran", "/finance/dashboard")
  ]

  /** The role entry whose id is `role`, if any. */
  function RoleNamed(role: string): (r: Option<Role>)
    ensures r.Some? <==> role in {"employee", "hr", "finance"}
    ensures r.Some? ==> r.value.id == role && r.value in Roles
  {
    assert Roles[0].id == "employee" && Roles[1].id == "hr" && Roles[2].id == "finance" && |Roles| == 3;
    Find(Roles, (r: Role) => r.id == role)
  }

  /** Each role's entry sends it to its own dashboard. */
  lemma RoleRedirects()
    ensures RoleNamed("employee") == Some(Roles[0]) && Roles[0].redirectTo == "/employee/dashboard"
    ensures RoleNamed("hr") == Some(Roles[1]) && Roles[1].redirectTo == "/hr/dashboard"
    ensures RoleNamed("finance") == Some(Roles[2]) && Roles[2].redirectTo == "/finance/dashboard"
  {
    assert Roles[0].id == "employee" && Roles[1].id == "hr" && Roles[2].id == "finance" && |Roles| == 3;
  }

  /** Where the modal navigates after submitting. */
  function Redirect(mode: Mode, role: string): (path: string)
    ensures mode == Login ==> path == "/employee/dashboard"
    ensures mode == Register && RoleNamed(role).Some? ==> path == RoleNamed(role).value.redirectTo
    ensures mode == Register && RoleNamed(role).None? ==> path == "/dashboard"
  {
    match mode
    case Login => "/employee/dashboard"
    case Register =>
      var selected := RoleNamed(role);
      if selected.Some? then selected.value.redirectTo else "/dashboard"
  }

  /** Registering sends each known role to its own dashboard and every
      other role to the generic one. */
  lemma RegisterRedirect(role: string)
    ensures role == "employee" ==> Redirect(Register, role) == "/employee/dashboard"
    ensures role == "hr" ==> Redirect(Register, role) == "/hr/dashboard"
    ensures role == "finance" ==> Redirect(Register, role) == "/finance/dashboard"
    ensures role !in {"employee", "hr", "finance"} ==> Redirect(Register, role) == "/dashboard"
  {
    RoleRedirects();
  }

  /** Logging in lands on the employee dashboard whatever the role field
      holds. */
  lemma LoginIgnoresRole(a: string, b: string)
    ensures Redirect(Login, a) == Redirect(Login, b)
  {
  }

  /** The registration record logged: `nik` and `phone` go through
      `parseInt`. */
  datatype RegisterRecord = RegisterRecord(id: string, name: string, nik: Option<int>, phone: Option<int>,
                                           email: string, password: string, role: string,
                                           createdAt: string, updatedAt: string)

  datatype Logged = Registered(record: RegisterRecord) | LoggedIn(email: string, password: string)

  /** What one submission did: the record logged, the effects, and the
      redirect path. */
  datatype Outcome = Outcome(logged: Logged, events: seq<Event<Logged>>, redirect: string, loading: bool)

  /** `handleSubmit`; the handler does not re-check `isFormValid`, the
      disabled button does. `freshId` is the generated id; `created` and
      `updated` are the two separate `new Date().toISOString()` reads. */
  function HandleSubmit(mode: Mode, f: FormData, freshId: string, created: string, updated: string): (r: Outcome)
    ensures mode == Login ==> r.logged == LoggedIn(f.email, f.password)
    ensures mode == Register ==> r.logged.Registered? && r.logged.record.email == f.email
                                 && r.logged.record.role == f.role && r.logged.record.phone == ParseInt(f.phone)
                                 && r.logged.record.nik == ParseInt(f.nik)
    ensures mode == Register ==> r.logged.record.id == freshId && r.logged.record.name == f.name
                                 && r.logged.record.password == f.password
                                 && r.logged.record.createdAt == created && r.logged.record.updatedAt == updated
    ensures r.events == [Closed] && r.redirect == Redirect(mode, f.role) && !r.loading
  {
    var logged := match mode
      case Login => LoggedIn(f.email, f.password)
      case Register => Registered(RegisterRecord(freshId, f.name, ParseInt(f.nik), ParseInt(f.phone),
                                                 f.email, f.password, f.role, created, updated));
    Outcome(logged, [Closed], Redirect(mode, f.role), false)
  }

  /** A leading zero does not change a digit string's value. */
  lemma {:induction false} LeadingZero(d: string)
    requires AllDigits(d)
    ensures AllDigits("0" + d) && DigitsValue("0" + d) == DigitsValue(d)
    decreases |d|
  {
    if d != [] {
      var init := d[..|d| - 1];
      LeadingZero(init);
      assert ("0" + d)[..|"0" + d| - 1] == "0" + init;
    } else {
      assert "0" + d == "0";
    }
  }

  /** Reading the phone with `parseInt` drops its leading zero: "0812..."
      and "812..." are logged as the same number. */
  lemma PhoneLeadingZeroLost(f: FormData, d: string, freshId: string, created: string, updated: string)
    requires d != [] && AllDigits(d) && d[0] != '0'
    ensures HandleSubmit(Register, f.(phone := "0" + d), freshId, created, updated).logged.record.phone
         == HandleSubmit(Register, f.(phone := d), freshId, created, updated).logged.record.phone
  {
    LeadingZero(d);
    ParseIntOfDigits("0" + d);
    assert !HexPrefixed(d) by {
      if |d| >= 2 { assert IsDigit(d[1]); }
    }
    ParseIntOfDigits(d);
  }
}

=== FILE: claim_card.dfy ===
/** The claim card: status badge, amount, and the fallbacks it uses for a
    record that may be either a stored claim or the claim inside a payment.
    Its status matching is exact and passes unknown values through. */
module ClaimCard {
  import opened Optional
  import opened Text
  import opened Palette
  import opened Amounts

  const KnownStatuses: set<string> := {"approved", "rejected", "pending", "paid"}

  /** The badge text (`getStatusText`): the four known keys get their
      Indonesian label, any other value is shown as it is. */
  function StatusText(status: string): (r: string)
    ensures status == "approved" ==> r == "Disetujui"
    ensures status == "rejected" ==> r == "Ditolak"
    ensures status == "pending" ==> r == "Pending"
    ensures status == "paid" ==> r == "Dibayar"
    ensures status !in KnownStatuses ==> r == status
  {
    match status
    case "approved" => "Disetujui"
    case "rejected" => "Ditolak"
    case "pending" => "Pending"
    case "paid" => "Dibayar"
    case _ => status
  }

  /** The badge colour (`getStatusColor`): gray for anything unknown. */
  function StatusColor(status: string): (t: Tone)
    ensures status == "approved" ==> t == Emerald
    ensures status == "rejected" ==> t == Red
    ensures status == "pending" ==> t == Yellow
    ensures status == "paid" ==> t == Blue
    ensures t == Gray <==> status !in KnownStatuses
  {
    match status
    case "approved" => Emerald
    case "rejected" => Red
    case "pending" => Yellow
    case "paid" => Blue
    case _ => Gray
  }

  /** Each known status has a colour of its own. */
  lemma KnownColorsDistinct(a: string, b: string)
    requires a in KnownStatuses && b in KnownStatuses && a != b
    ensures StatusColor(a) != StatusColor(b)
  {
  }

  /** A status is shown gray exactly when its text is passed through. */
  lemma GrayIffPassedThrough(status: string)
    ensures StatusColor(status) == Gray <==> StatusText(status) == status
  {
  }

  /** Each known colour comes with its own label: emerald reads "Disetujui",
      red "Ditolak", yellow "Pending" and blue "Dibayar". */
  lemma ColorAgreesWithText(status: string)
    ensures StatusColor(status) == Emerald ==> StatusText(status) == "Disetujui"
    ensures StatusColor(status) == Red ==> StatusText(status) == "Ditolak"
    ensures StatusColor(status) == Yellow ==> StatusText(status) == "Pending"
    ensures StatusColor(status) == Blue ==> StatusText(status) == "Dibayar"
  {
  }

  /** Matching is exact: a capitalised key is an unknown status. */
  lemma CapitalisedIsUnknown()
    ensures StatusText("Approved") == "Approved" && StatusColor("Approved") == Gray
  {
  }

  /** The record a card shows, with every field optional: a stored claim
      carries `user_name`, `user_id`, `status_id`, `desc2` and
      `transaction_total`; the claim inside a payment carries
      `employee_name`, `nik`, `status`, `amount` and `notes`. A `Some`
      description stands for a record that has a `description` key. */
  datatype CardData = CardData(
    id: string,
    userName: Option<string>,
    userId: Option<string>,
    statusId: Option<string>,
    category: Option<string>,
    description: Option<string>,
    desc2: Option<string>,
    transactionTotal: Option<string>,
    transactionDate: Option<string>,
    reviewedBy: Option<string>,
    employeeName: Option<string>,
    nik: Option<string>,
    status: Option<string>,
    amount: Option<string>,
    notes: Option<string>,
    approvalDate: Option<string>,
    reviewDate: Option<string>,
    submissionDate: Option<string>)

  datatype CardPayment = CardPayment(id: string, claim: Option<CardData>)

  /** `isPaymentClaim`: the record has a string `employee_name`. */
  predicate IsPaymentClaim(d: CardData) {
    d.employeeName.Some?
  }

  /** What the card displays. `status` is the key the badge is computed from;
      `notes` is the note box, present only when it is drawn. */
  datatype CardView = CardView(
    initials: string,
    displayName: string,
    status: string,
    statusLabel: string,
    statusTone: Tone,
    category: string,
    categoryTone: Tone,
    amount: Shown,
    reviewer: string,
    description: string,
    notes: Option<string>,
    nik: string,
    date: string)

  /** The record shown: the payment's claim when a payment is given,
      otherwise the claim. */
  function Shown(claim: Option<CardData>, payment: Option<CardPayment>): Option<CardData> {
    if payment.Some? then payment.value.claim else claim
  }

  /** `claim?.<field>`: the optional chain on the `claim` prop. */
  function ClaimProp(claim: Option<CardData>, field: CardData -> Option<string>): (r: Option<string>)
    ensures claim.None? ==> r.None?
    ensures claim.Some? ==> r == field(claim.value)
  {
    if claim.None? then None else field(claim.value)
  }

  /** The description line: the record's own description when it has the
      field, else the claim prop's second description, else "-". */
  function ShownDescription(d: CardData, claim: Option<CardData>): (r: string)
    ensures d.description.Some? ==> r == d.description.value
    ensures d.description.None? && claim.None? ==> r == "-"
    ensures d.description.None? && claim.Some? ==> r == OrElse(claim.value.desc2, "-")
  {
    if d.description.Some? then d.description.value
    else OrElse(ClaimProp(claim, (c: CardData) => c.desc2), "-")
  }

  /** The NIK line: a payment's claim shows its own NIK, any other record
      the claim prop's user id, else "-". */
  function ShownNik(d: CardData, claim: Option<CardData>): (r: string)
    ensures IsPaymentClaim(d) ==> r == d.nik.GetOr("")
    ensures !IsPaymentClaim(d) && claim.None? ==> r == "-"
    ensures !IsPaymentClaim(d) && claim.Some? ==> r == OrElse(claim.value.userId, "-")
  {
    if IsPaymentClaim(d) then d.nik.GetOr("")
    else OrElse(ClaimProp(claim, (c: CardData) => c.userId), "-")
  }

  /** The date line: a payment's claim shows its first present date of
      approval, review and submission; any other record the claim prop's
      transaction date, else "-". */
  function ShownDate(d: CardData, claim: Option<CardData>): (r: string)
    ensures IsPaymentClaim(d) ==> r == OrElse(d.approvalDate, OrElse(d.reviewDate, d.submissionDate.GetOr("")))
    ensures !IsPaymentClaim(d) && claim.None? ==> r == "-"
    ensures !IsPaymentClaim(d) && claim.Some? ==> r == OrElse(claim.value.transactionDate, "-")
  {
    if IsPaymentClaim(d) then OrElse(d.approvalDate, OrElse(d.reviewDate, d.submissionDate.GetOr("")))
    else OrElse(ClaimProp(claim, (c: CardData) => c.transactionDate), "-")
  }

  /** The card's content for the record `d` it shows. The description, NIK and
      date fallbacks of a record that is not a payment's claim read the
      `claim` prop, not `d`. A missing field of a payment's claim renders like
      the empty string. */
  function View(d: CardData, claim: Option<CardData>): (v: CardView)
    ensures v.statusLabel == StatusText(v.status) && v.statusTone == StatusColor(v.status)
    ensures v.categoryTone == CategoryTone(v.category)
    ensures IsPaymentClaim(d) ==> v.displayName == d.employeeName.value && v.initials == ToUpper(Initials(d.employeeName.value))
    ensures IsPaymentClaim(d) ==> v.status == d.status.GetOr("") && v.category == d.category.GetOr("")
    ensures IsPaymentClaim(d) ==> v.amount == FormatOrDash(d.amount.GetOr(""))
    ensures IsPaymentClaim(d) ==> v.date == OrElse(d.approvalDate, OrElse(d.reviewDate, d.submissionDate.GetOr("")))
    ensures !IsPaymentClaim(d) && Truthy(d.userName) ==>
              v.displayName == d.userName.value && v.initials == ToUpper(Initials(d.userName.value))
    ensures !IsPaymentClaim(d) && !Truthy(d.userName) ==> v.displayName == "Tanpa Nama" && v.initials == "U"
    ensures !IsPaymentClaim(d) && Truthy(d.statusId) ==> v.status == d.statusId.value
    ensures !IsPaymentClaim(d) && !Truthy(d.statusId) ==> v.status == "" && v.statusLabel == ""
    ensures !IsPaymentClaim(d) && Truthy(d.transactionTotal) ==> v.amount == FormatOrDash(d.transactionTotal.value)
    ensures !IsPaymentClaim(d) && !Truthy(d.transactionTotal) ==> v.amount == Dash
    ensures !IsPaymentClaim(d) && Truthy(d.category) ==> v.category == d.category.value
    ensures !IsPaymentClaim(d) && !Truthy(d.category) ==> v.category == "-"
    ensures Truthy(d.reviewedBy) ==> v.reviewer == "Oleh " + d.reviewedBy.value
    ensures !Truthy(d.reviewedBy) ==> v.reviewer == ""
    ensures d.description.Some? ==> v.description == d.description.value
    ensures d.description.None? && claim.None? ==> v.description == "-"
    ensures d.description.None? && claim.Some? ==> v.description == OrElse(claim.value.desc2, "-")
    ensures v.notes.Some? <==> IsPaymentClaim(d) && Truthy(d.notes)
    ensures v.notes.Some? ==> v.notes == d.notes
    ensures IsPaymentClaim(d) ==> v.nik == d.nik.GetOr("")
    ensures !IsPaymentClaim(d) && claim.None? ==> v.nik == "-" && v.date == "-"
    ensures !IsPaymentClaim(d) && claim.Some? ==> v.nik == OrElse(claim.value.userId, "-")
    ensures !IsPaymentClaim(d) && claim.Some? ==> v.date == OrElse(claim.value.transactionDate, "-")
  {
    var pc := IsPaymentClaim(d);
    var name := if pc then d.employeeName.value else OrElse(d.userName, "U");
    var status := if pc then d.status.GetOr("") else OrElse(d.statusId, "");
    var category := if pc then d.category.GetOr("") else OrElse(d.category, "-");
    SplitWord("U", ' ');
    CardView(
      ToUpper(Initials(name)),
      if pc then d.employeeName.value else OrElse(d.userName, "Tanpa Nama"),
      status,
      StatusText(status),
      StatusColor(status),
      category,
      CategoryTone(category),
      FormatOrDash(if pc then d.amount.GetOr("") else OrElse(d.transactionTotal, "")),
      if Truthy(d.reviewedBy) then "Oleh " + d.reviewedBy.value else "",
      ShownDescription(d, claim),
      if pc && Truthy(d.notes) then d.notes else None,
      ShownNik(d, claim),
      ShownDate(d, claim))
  }

  /** The card renders nothing when it is given neither a payment nor a
      claim, or a payment without a claim. */
  function Render(claim: Option<CardData>, payment: Option<CardPayment>): (r: Option<CardView>)
    ensures r.None? <==> (payment.Some? && payment.value.claim.None?) || (payment.None? && claim.None?)
    ensures r.Some? ==> r == Some(View(Shown(claim, payment).value, claim))
  {
    var d := Shown(claim, payment);
    if d.None? then None else Some(View(d.value, claim))
  }

  /** A payment whose claim is not a payment claim shows "-" for the NIK and
      the date when no `claim` prop is given, whatever the record holds. */
  lemma PaymentWithoutClaimPropShowsDash(p: CardPayment)
    requires p.claim.Some? && !IsPaymentClaim(p.claim.value)
    ensures Render(None, Some(p)).Some?
    ensures Render(None, Some(p)).value.date == "-" && Render(None, Some(p)).value.nik == "-"
  {
  }
}

=== FILE: claim_detail_modal.dfy ===
/** The claim detail modal: its own status labels (every unknown status reads
    "Status Tidak Diketahui"), an amount read with `parseFloat`, and dates
    that fall back to `-`. */
module ClaimDetailModal {
  import opened Optional
  import opened Text
  import opened Lists
  import opened Numbers
  import opened Palette
  import Amounts
  import ClaimCard
  import Data

  const UnknownStatus := "Status Tidak Diketahui"

  /** `getStatusText`: one label per known key, one shared label for the rest. */
  function StatusText(status: string): (r: string)
    ensures r == "Disetujui" <==> status == "approved"
    ensures r == "Ditolak" <==> status == "rejected"
    ensures r == "Menunggu Review" <==> status == "pending"
    ensures r == "Sudah Dibayar" <==> status == "paid"
    ensures r == UnknownStatus <==> status !in ClaimCard.KnownStatuses
  {
    match status
    case "approved" => "Disetujui"
    case "rejected" => "Ditolak"
    case "pending" => "Menunggu Review"
    case "paid" => "Sudah Dibayar"
    case _ => UnknownStatus
  }

  /** `getStatusColor`: gray for anything unknown. */
  function StatusColor(status: string): (t: Tone)
    ensures t == Gray <==> status !in ClaimCard.KnownStatuses
  {
    match status
    case "approved" => Emerald
    case "rejected" => Red
    case "pending" => Yellow
    case "paid" => Blue
    case _ => Gray
  }

  /** Colour and label agree: emerald exactly with "Disetujui", red with
      "Ditolak", yellow with "Menunggu Review", blue with "Sudah Dibayar" and
      gray with "Status Tidak Diketahui"; the colour is the claim card's. */
  lemma ColorAgreesWithText(status: string)
    ensures StatusColor(status) == Emerald <==> StatusText(status) == "Disetujui"
    ensures StatusColor(status) == Red <==> StatusText(status) == "Ditolak"
    ensures StatusColor(status) == Yellow <==> StatusText(status) == "Menunggu Review"
    ensures StatusColor(status) == Blue <==> StatusText(status) == "Sudah Dibayar"
    ensures StatusColor(status) == Gray <==> StatusText(status) == UnknownStatus
    ensures StatusColor(status) == ClaimCard.StatusColor(status)
  {
  }

  /** Unknown statuses cannot be told apart in the modal, although the claim
      card shows each of them verbatim. */
  lemma UnknownStatusesLookAlike(a: string, b: string)
    requires a !in ClaimCard.KnownStatuses && b !in ClaimCard.KnownStatuses
    ensures StatusText(a) == StatusText(b) && StatusColor(a) == StatusColor(b)
    ensures a != b ==> ClaimCard.StatusText(a) != ClaimCard.StatusText(b)
  {
  }

  /** The amount handed to `formatCurrency`: missing, a string, or a number. */
  datatype AmountInput = NoAmount | TextAmount(text: string) | NumberAmount(value: real)

  /** The characters `/[^\d.-]/g` keeps. */
  predicate Kept(c: char) {
    IsDigit(c) || c == '.' || c == '-'
  }

  /** `amount.replace(/[^\d.-]/g, "")` */
  function Clean(s: string): (r: string)
    ensures |r| <= |s|
    ensures forall i :: 0 <= i < |r| ==> Kept(r[i])
    ensures forall c :: c in r <==> c in s && Kept(c)
    ensures forall c :: multiset(r)[c] == if Kept(c) then multiset(s)[c] else 0
    ensures IsSubsequence(r, s)
  {
    FilterMultiplicity(s, Kept);
    FilterIsSubsequence(s, Kept);
    Filter(s, Kept)
  }

  /** Cleaning removes nothing from a string of kept characters, so it is
      idempotent. */
  lemma CleanIdempotent(s: string)
    ensures Clean(Clean(s)) == Clean(s)
  {
    FilterIdempotent(s, Kept);
  }

  /** `formatCurrency(amount)`: the number displayed, `0` for a missing amount
      and for text `parseFloat` cannot read. */
  function FormatCurrency(amount: AmountInput): (r: real)
    ensures amount.NoAmount? ==> r == 0.0
    ensures amount.NumberAmount? ==> r == amount.value
    ensures amount.TextAmount? && ParseFloat(Clean(amount.text)).Some? ==> r == ParseFloat(Clean(amount.text)).value
    ensures amount.TextAmount? && ParseFloat(Clean(amount.text)).None? ==> r == 0.0
  {
    match amount
    case NoAmount => 0.0
    case NumberAmount(x) => x
    case TextAmount(s) => ParseFloat(Clean(s)).GetOr(0.0)
  }

  /** Text without a digit displays as `0`. */
  lemma FormatCurrencyNeedsDigit(s: string)
    requires forall i :: 0 <= i < |s| ==> !IsDigit(s[i])
    ensures FormatCurrency(TextAmount(s)) == 0.0
  {
    var c := Clean(s);
    assert forall i :: 0 <= i < |c| ==> c[i] in s;
    ParseFloatNeedsDigit(c);
  }

  /** A plain digit string displays as the number it spells, the same number
      the cards read with `parseInt`. */
  lemma FormatCurrencyOfDigits(s: string)
    requires s != [] && AllDigits(s) && !Numbers.HexPrefixed(s)
    ensures FormatCurrency(TextAmount(s)) == DigitsValue(s) as real
    ensures Amounts.ParseDotted(s) == Some(DigitsValue(s))
  {
    FilterKeepsAll(s, Kept);
    ParseFloatOfDigits(s);
    FilterKeepsAll(s, Amounts.NotDot);
    ParseIntOfDigits(s);
  }

  /** A thousands-grouped amount such as "1.250.000" is read by `parseFloat`
      as the decimal fraction before its second dot, where the cards read the
      whole number. */
  lemma GroupedAmountReadAsFraction(whole: string, group: string, rest: string)
    requires whole != [] && AllDigits(whole) && AllDigits(group) && AllDigits(rest)
    ensures var s := whole + "." + group + "." + rest;
            FormatCurrency(TextAmount(s)) == DecimalValue(whole, group)
  {
    var s := whole + "." + group + "." + rest;
    assert forall i :: 0 <= i < |s| ==> Kept(s[i]);
    FilterKeepsAll(s, Kept);
    assert s == whole + "." + group + ("." + rest);
    ParseFloatOfDecimal(whole, group, "." + rest);
  }

  /** "1.250.000" reaches the modal's formatter as 1.25, which it rounds to
      "Rp 1", where the cards read 1250000. */
  lemma GroupedAmountExample()
    ensures FormatCurrency(TextAmount("1.250.000")) == 1.25
  {
    SpellGrouped();
    GroupedAmountReadAsFraction("1", "250", "000");
    OneQuarterExample();
  }

  /** "1.250.000" is the numeral "1.250" followed by the group ".000". */
  lemma SpellGrouped()
    ensures "1" + "." + "250" + "." + "000" == "1.250.000"
  {
    var s := "1" + "." + "250" + "." + "000";
    assert |s| == 9;
    assert s[0] == '1' && s[1] == '.' && s[2] == '2' && s[3] == '5' && s[4] == '0'
        && s[5] == '.' && s[6] == '0' && s[7] == '0' && s[8] == '0';
  }

  /** The numeral "1.250" is worth 1.25. */
  lemma OneQuarterExample()
    ensures DecimalValue("1", "250") == 1.25
  {
    assert DigitsValue("1") == 1;
    assert DigitsValue("250") == 250 by {
      assert "250"[..2] == "25" && "25"[..1] == "2";
    }
    assert Pow10(3) == 1000;
  }

  /** A date as displayed: `-`, the locale date of a parsed string, or the
      text "Invalid Date". */
  datatype DateText = Dash | LocalDate(source: string) | InvalidDate

  /** `formatDate(dateString)`: `-` for a missing, empty or unparseable date.
      Whether `new Date` can parse a string is the parameter `parses`. */
  function FormatDate(date: Option<string>, parses: string -> bool): (r: DateText)
    ensures r != InvalidDate
    ensures r == Dash <==> !Truthy(date) || !parses(date.value)
    ensures r.LocalDate? ==> r.source == date.value
  {
    if !Truthy(date) then Dash
    else if !parses(date.value) then Dash
    else LocalDate(date.value)
  }

  /** The transaction date: `-` when empty, otherwise passed to `new Date`
      without a validity check. */
  function TransactionDate(date: string, parses: string -> bool): (r: DateText)
    ensures r == Dash <==> date == ""
    ensures r == InvalidDate <==> date != "" && !parses(date)
  {
    if date == "" then Dash
    else if parses(date) then LocalDate(date)
    else InvalidDate
  }

  /** The two date renderings agree on every date `new Date` parses, and
      differ only in how they show one it cannot. */
  lemma DatesAgreeWhenParsed(date: string, parses: string -> bool)
    ensures parses(date) ==> TransactionDate(date, parses) == FormatDate(Some(date), parses)
    ensures date != "" && !parses(date) ==>
              TransactionDate(date, parses) == InvalidDate && FormatDate(Some(date), parses) == Dash
  {
  }

  datatype Attachment = Attachment(fileName: string, uploadedAt: string)

  /** One attachment line: its download link and upload date. */
  datatype AttachmentView = AttachmentView(href: string, fileName: string, uploaded: DateText)

  datatype DetailView = DetailView(
    id: string,
    statusLabel: string,
    statusTone: Tone,
    total: real,
    claimType: string,
    userName: string,
    transactionDate: DateText,
    description: string,
    attachments: seq<AttachmentView>)

  /** The link `${baseUrl}/uploads/${file_name}`. */
  function AttachmentLink(baseUrl: string, fileName: string): (r: string)
    ensures |r| == |baseUrl| + |"/uploads/"| + |fileName|
    ensures r[..|baseUrl|] == baseUrl && r[|r| - |fileName|..] == fileName
    ensures r[|baseUrl|..|baseUrl| + |"/uploads/"|] == "/uploads/"
  {
    baseUrl + "/uploads/" + fileName
  }

  /** Two different file names never share a download link. */
  lemma AttachmentLinksDistinct(baseUrl: string, a: string, b: string)
    requires a != b
    ensures AttachmentLink(baseUrl, a) != AttachmentLink(baseUrl, b)
  {
    var k := |baseUrl| + |"/uploads/"|;
    assert AttachmentLink(baseUrl, a)[k..] == a;
    assert AttachmentLink(baseUrl, b)[k..] == b;
  }

  /** The modal's content for one claim. `baseUrl` is the API base URL from
      the environment. */
  function Render(claim: Data.Claim, attachments: Option<seq<Attachment>>, baseUrl: string,
                  parses: string -> bool): (v: DetailView)
    ensures v.id == claim.id
    ensures v.statusLabel == StatusText(claim.statusName.GetOr(""))
    ensures v.statusTone == StatusColor(claim.statusName.GetOr(""))
    ensures claim.statusName.None? ==> v.statusLabel == UnknownStatus && v.statusTone == Gray
    ensures v.total == FormatCurrency(TextAmount(claim.transactionTotal))
    ensures claim.claimTypeName.None? ==> v.claimType == "-"
    ensures claim.claimTypeName.Some? ==> v.claimType == claim.claimTypeName.value
    ensures claim.userName.None? ==> v.userName == "-"
    ensures claim.userName.Some? ==> v.userName == claim.userName.value
    ensures v.transactionDate == TransactionDate(claim.transactionDate, parses)
    ensures Truthy(claim.description) ==> v.description == claim.description.value
    ensures !Truthy(claim.description) ==> v.description == "-"
    ensures attachments.None? ==> v.attachments == []
    ensures attachments.Some? ==> |v.attachments| == |attachments.value|
    ensures attachments.Some? ==> forall i :: 0 <= i < |v.attachments| ==>
              v.attachments[i].fileName == attachments.value[i].fileName
              && v.attachments[i].href == AttachmentLink(baseUrl, attachments.value[i].fileName)
              && v.attachments[i].uploaded == FormatDate(Some(attachments.value[i].uploadedAt), parses)
  {
    var status := claim.statusName.GetOr("");
    var files := attachments.GetOr([]);
    DetailView(
      claim.id,
      StatusText(status),
      StatusColor(status),
      FormatCurrency(TextAmount(claim.transactionTotal)),
      claim.claimTypeName.GetOr("-"),
      claim.userName.GetOr("-"),
      TransactionDate(claim.transactionDate, parses),
      OrElse(claim.description, "-"),
      seq(|files|, i requires 0 <= i < |files| =>
        AttachmentView(AttachmentLink(baseUrl, files[i].fileName), files[i].fileName,
                       FormatDate(Some(files[i].uploadedAt), parses))))
  }
}

=== FILE: claim_submission_callback.dfy ===
/** The callback claim form (`ClaimSubmissionForm.tsx`): two validations in
    a fixed order, then the fields handed to the parent as entered. */
module ClaimSubmissionCallback {
  import opened Optional
  import opened Text
  import opened Events

  /** The form's state. The total is the number input's value; `files` is
      the chosen file names, `None` before any choice. */
  datatype Fields = Fields(userName: string, claimTypeName: string, desc1: string, transactionDate: string,
                           transactionTotal: real, files: Option<seq<string>>)

  const DateOrAmountMissing := "Isi tanggal dan nominal transaksi"
  const NameOrTypeMissing := "Isi nama user dan kategori klaim"

  predicate Blank(s: string) {
    Trim(s) == []
  }

  /** What one submission did: the effects, and `loading` afterwards. */
  datatype Outcome = Outcome(events: seq<Event<Fields>>, loading: bool)

  /** `handleSubmit` */
  function HandleSubmit(f: Fields): (r: Outcome)
    ensures f.transactionDate == "" || f.transactionTotal <= 0.0 ==> r.events == [Alerted(DateOrAmountMissing)]
    ensures (f.transactionDate != "" && f.transactionTotal > 0.0 && (Blank(f.userName) || Blank(f.claimTypeName)))
            ==> r.events == [Alerted(NameOrTypeMissing)]
    ensures Submissions(r.events) == 1 <==>
              f.transactionDate != "" && f.transactionTotal > 0.0 && !Blank(f.userName) && !Blank(f.claimTypeName)
    ensures Submissions(r.events) <= 1
    ensures forall i :: 0 <= i < |r.events| && r.events[i].Submitted? ==> r.events[i].value == f
    ensures Closed !in r.events
    ensures !r.loading
  {
    if f.transactionDate == "" || f.transactionTotal <= 0.0 then Outcome([Alerted(DateOrAmountMissing)], false)
    else if Blank(f.userName) || Blank(f.claimTypeName) then Outcome([Alerted(NameOrTypeMissing)], false)
    else Outcome([Submitted(f)], false)
  }

  /** When both checks fail only the date-and-amount message is reported. */
  lemma DateCheckFirst(f: Fields)
    requires f.transactionDate == "" || f.transactionTotal <= 0.0
    requires Blank(f.userName) || Blank(f.claimTypeName)
    ensures HandleSubmit(f).events == [Alerted(DateOrAmountMissing)]
  {
  }

  /** The browser's own check before `handleSubmit` runs: the name, claim
      type and date inputs are `required` (non-empty, white space allowed)
      and the total input has `min={0}`. */
  predicate FormAccepts(f: Fields) {
    f.userName != "" && f.claimTypeName != "" && f.transactionDate != "" && f.transactionTotal >= 0.0
  }

  /** On a form the browser lets through, the first message means exactly a
      zero total, and the second exactly a positive total with a name or
      claim type of white space only. */
  lemma BrowserFilteredSubmit(f: Fields)
    requires FormAccepts(f)
    ensures HandleSubmit(f).events == [Alerted(DateOrAmountMissing)] <==> f.transactionTotal == 0.0
    ensures HandleSubmit(f).events == [Alerted(NameOrTypeMissing)] <==>
              f.transactionTotal > 0.0 && (Blank(f.userName) || Blank(f.claimTypeName))
  {
  }

  /** Both checks still fail together in the browser: a zero total with a
      name of spaces gets only the date-and-amount message. */
  lemma DateCheckFirstInBrowser(spaces: string, claimType: string, date: string)
    requires spaces != "" && forall i :: 0 <= i < |spaces| ==> spaces[i] == ' '
    requires claimType != "" && date != ""
    ensures var f := Fields(spaces, claimType, "", date, 0.0, None);
            FormAccepts(f) && Blank(f.userName) && HandleSubmit(f).events == [Alerted(DateOrAmountMissing)]
  {
    TrimEmptyIffBlank(spaces);
  }

  /** Names are checked trimmed but passed on untrimmed, and the first
      description and the files may be empty. */
  lemma PassedAsEntered(name: string, claimType: string, date: string, total: real)
    requires name != [] && !IsSpace(name[0]) && claimType != [] && !IsSpace(claimType[0])
    requires date != "" && total > 0.0
    ensures var f := Fields(" " + name, claimType, "", date, total, None);
            HandleSubmit(f).events == [Submitted(f)]
  {
    var padded := " " + name;
    TrimEmptyIffBlank(padded);
    assert !IsSpace(padded[1]);
    TrimEmptyIffBlank(claimType);
  }
}

=== FILE: claim_submission_form.dfy ===
/** The employee's claim form (`claim-submission-form.tsx`): field updates,
    the digits-only amount, its display value, the submit guard and the
    logged claim. */
module ClaimSubmissionForm {
  import opened Optional
  import opened Text
  import opened Lists
  import opened Numbers
  import opened Events

  datatype FormData = FormData(
    claimTypeId: string,
    desc1: string,
    desc2: string,
    transactionDate: string,
    transactionTotal: string,
    description: string,
    attachment: string)

  const InitialForm := FormData("", "", "", "", "", "", "")

  /** The keys of `ClaimFormData`. */
  datatype Field = ClaimTypeId | Desc1 | Desc2 | TransactionDate | TransactionTotal | Description | Attachment

  function Get(f: FormData, field: Field): string {
    match field
    case ClaimTypeId => f.claimTypeId
    case Desc1 => f.desc1
    case Desc2 => f.desc2
    case TransactionDate => f.transactionDate
    case TransactionTotal => f.transactionTotal
    case Description => f.description
    case Attachment => f.attachment
  }

  /** `handleInputChange(field, value)`: `{ ...prev, [field]: value }`. */
  function InputChange(f: FormData, field: Field, value: string): (r: FormData)
    ensures Get(r, field) == value
    ensures forall other :: other != field ==> Get(r, other) == Get(f, other)
  {
    match field
    case ClaimTypeId => f.(claimTypeId := value)
    case Desc1 => f.(desc1 := value)
    case Desc2 => f.(desc2 := value)
    case TransactionDate => f.(transactionDate := value)
    case TransactionTotal => f.(transactionTotal := value)
    case Description => f.(description := value)
    case Attachment => f.(attachment := value)
  }

  /** Updating two different fields gives the same form in either order. */
  lemma InputChangesCommute(f: FormData, a: Field, x: string, b: Field, y: string)
    requires a != b
    ensures InputChange(InputChange(f, a, x), b, y) == InputChange(InputChange(f, b, y), a, x)
  {
  }

  /** `value.replace(/\D/g, '')` */
  function DigitsOnly(s: string): (r: string)
    ensures AllDigits(r) && |r| <= |s|
    ensures forall c :: c in r <==> c in s && IsDigit(c)
    ensures forall c :: multiset(r)[c] == if IsDigit(c) then multiset(s)[c] else 0
    ensures IsSubsequence(r, s)
  {
    FilterMultiplicity(s, IsDigit);
    FilterIsSubsequence(s, IsDigit);
    Filter(s, IsDigit)
  }

  /** Stripping non-digits twice is stripping once, and a digit string is
      left as it is. */
  lemma DigitsOnlyIdempotent(s: string)
    ensures DigitsOnly(DigitsOnly(s)) == DigitsOnly(s)
    ensures AllDigits(s) ==> DigitsOnly(s) == s
  {
    FilterIdempotent(s, IsDigit);
    if AllDigits(s) {
      FilterKeepsAll(s, IsDigit);
    }
  }

  /** `handleAmountChange(value)`: store only the typed digits. */
  function AmountChange(f: FormData, value: string): (r: FormData)
    ensures AllDigits(r.transactionTotal)
    ensures r.transactionTotal == DigitsOnly(value)
    ensures forall other :: other != TransactionTotal ==> Get(r, other) == Get(f, other)
  {
    InputChange(f, TransactionTotal, DigitsOnly(value))
  }

  /** `formatCurrency(value)`: the number `parseInt` reads from the digits,
      or 0 when there are none (`NaN || 0`). */
  function FormatCurrency(value: string): (r: nat)
    ensures DigitsOnly(value) == [] ==> r == 0
    ensures DigitsOnly(value) != [] ==> r == DigitsValue(DigitsOnly(value))
  {
    var digits := DigitsOnly(value);
    if digits == [] then 0
    else
      assert !HexPrefixed(digits) by {
        if |digits| >= 2 { assert IsDigit(digits[1]); }
      }
      ParseIntOfDigits(digits);
      var n := ParseInt(digits).GetOr(0);
      assert n == DigitsValue(digits);
      n
  }

  /** The display value depends only on the digits typed, and what is shown
      for a stored amount is the amount itself. */
  lemma FormatCurrencyOfStored(a: string, b: string)
    ensures DigitsOnly(a) == DigitsOnly(b) ==> FormatCurrency(a) == FormatCurrency(b)
    ensures AllDigits(a) && a != [] ==> FormatCurrency(a) == DigitsValue(a)
  {
    DigitsOnlyIdempotent(a);
  }

  /** The fields the submit guard requires. */
  predicate Required(field: Field) {
    field == ClaimTypeId || field == Desc1 || field == TransactionDate || field == TransactionTotal
  }

  /** The submit button is enabled: not submitting, and the claim type, the
      first description, the date and the total are all filled in. */
  function SubmitEnabled(submitting: bool, f: FormData): (r: bool)
    ensures r <==> !submitting && forall field :: Required(field) ==> Get(f, field) != ""
  {
    assert Get(f, ClaimTypeId) == f.claimTypeId && Get(f, Desc1) == f.desc1
        && Get(f, TransactionDate) == f.transactionDate && Get(f, TransactionTotal) == f.transactionTotal;
    !submitting && f.claimTypeId != "" && f.desc1 != "" && f.transactionDate != "" && f.transactionTotal != ""
  }

  /** The optional fields never affect the guard, and a zero total enables
      it: positivity is not checked. */
  lemma GuardIgnoresOptionalFields(submitting: bool, f: FormData, field: Field, value: string)
    requires !Required(field)
    ensures SubmitEnabled(submitting, InputChange(f, field, value)) == SubmitEnabled(submitting, f)
    ensures f.claimTypeId != "" && f.desc1 != "" && f.transactionDate != "" ==>
              SubmitEnabled(false, AmountChange(f, "0"))
  {
    assert DigitsOnly("0") == "0" by {
      assert Filter("0", IsDigit) == ['0'] + Filter("0"[1..], IsDigit);
    }
  }

  /** The claim the handler logs: the form spread over the fixed fields. */
  datatype ClaimRecord = ClaimRecord(id: string, userId: string, statusId: string, createdAt: string,
                                     updatedAt: string, form: FormData)

  const CurrentUserId := "user-001"
  const PendingStatusId := "status-pending"

  /** `handleSubmit`: log the new claim as pending, then close. `freshId` is the
      generated id; `created` and `updated` are the two separate clock
      reads. */
  function Submit(f: FormData, freshId: string, created: string, updated: string): (es: seq<Event<ClaimRecord>>)
    ensures Submissions(es) == 1 && es[|es| - 1] == Closed
    ensures |es| == 2 && es[0].Submitted? && es[1] == Closed
    ensures forall i :: 0 <= i < |es| && es[i].Submitted? ==>
              es[i].value.statusId == PendingStatusId && es[i].value.userId == CurrentUserId
              && es[i].value.form == f && es[i].value.id == freshId
              && es[i].value.createdAt == created && es[i].value.updatedAt == updated
  {
    SubmitThenClose(ClaimRecord(freshId, CurrentUserId, PendingStatusId, created, updated, f))
  }
}

=== FILE: data.dfy ===
/** The shared records of `lib/data.ts` and the queries the dashboards use to
    select claims. Each query takes the claim list as a parameter; the
    dashboards pass the sample list. */
module Data {
  import opened Optional
  import opened Lists

  /** A reimbursement claim. The first eleven fields are the stored record;
      the optional ones after them are view fields some components read. */
  datatype Claim = Claim(
    id: string,
    userId: string,
    claimTypeId: string,
    desc1: string,
    desc2: string,
    transactionDate: string,
    transactionTotal: string,
    statusId: string,
    description: Option<string>,
    createdAt: string,
    updatedAt: string,
    claimId: Option<string>,
    amount: Option<real>,
    status: Option<string>,
    category: Option<string>,
    nik: Option<string>,
    submissionDate: Option<string>,
    reviewDate: Option<string>,
    approvalDate: Option<string>,
    notes: Option<string>,
    reviewedBy: Option<string>,
    userName: Option<string>,
    statusName: Option<string>,
    claimTypeName: Option<string>)

  /** An HR decision on one claim, carrying the claim it refers to. */
  datatype Review = Review(
    id: string,
    userId: string,
    claimId: string,
    statusId: string,
    description: Option<string>,
    createdAt: string,
    updatedAt: string,
    claim: Claim)

  /** A payment method; `methodName` is the source's `method` field. */
  datatype PaymentMethod = PaymentMethod(id: string, methodName: string, createdAt: string, updatedAt: string)

  /** A disbursement against a claim, with the URLs of its proof files. */
  datatype Payment = Payment(
    id: string,
    note: string,
    bank: string,
    claim: Claim,
    review: Option<Review>,
    paymentMethod: Option<PaymentMethod>,
    proofs: seq<string>)

  /** A stored claim with none of the optional view fields set. */
  function StoredClaim(id: string, userId: string, claimTypeId: string, desc1: string, desc2: string,
                       transactionDate: string, transactionTotal: string, statusId: string,
                       description: string, createdAt: string, updatedAt: string): Claim
  {
    Claim(id, userId, claimTypeId, desc1, desc2, transactionDate, transactionTotal, statusId,
          Some(description), createdAt, updatedAt,
          None, None, None, None, None, None, None, None, None, None, None, None, None)
  }

  /** `SAMPLE_CLAIMS`: two approved claims. */
  function SampleClaims(): seq<Claim> {
    [ StoredClaim("1", "user-001", "type-001", "Klaim transportasi", "Biaya transport",
                  "2025-01-20", "420000", "approved",
                  "Pemeriksaan kesehatan berkala dan pembelian vitamin",
                  "2025-01-20T10:00:00Z", "2025-01-21T10:00:00Z"),
      StoredClaim("2", "user-002", "type-002", "Klaim kesehatan", "Rawat jalan",
                  "2025-02-10", "310000", "approved",
                  "Pengobatan flu dan pembelian obat",
                  "2025-02-10T08:00:00Z", "2025-02-11T10:00:00Z") ]
  }

  /** `getClaimsByStatus(status)`: exactly the claims whose `status_id` is
      `status`, each as often as it occurs, in input order. */
  function ClaimsByStatus(claims: seq<Claim>, status: string): (r: seq<Claim>)
    ensures forall c :: c in r <==> c in claims && c.statusId == status
    ensures forall c :: multiset(r)[c] == if c.statusId == status then multiset(claims)[c] else 0
    ensures IsSubsequence(r, claims)
  {
    var p := (c: Claim) => c.statusId == status;
    FilterIsSubsequence(claims, p);
    FilterMultiplicity(claims, p);
    Filter(claims, p)
  }

  /** `getClaimsForFinance()`: the same queue as `getClaimsByStatus("approved")`. */
  function ClaimsForFinance(claims: seq<Claim>): (r: seq<Claim>)
    ensures r == ClaimsByStatus(claims, "approved")
  {
    var p := (c: Claim) => c.statusId == "approved";
    FilterCongruent(claims, p, (c: Claim) => c.statusId == "approved");
    Filter(claims, p)
  }

  /** `getClaimsForHR()`: the pending claims that have no transaction date. */
  function ClaimsForHR(claims: seq<Claim>): (r: seq<Claim>)
    ensures forall c :: c in r <==> c in claims && c.statusId == "pending" && c.transactionDate == ""
    ensures forall c :: multiset(r)[c] ==
              if c.statusId == "pending" && c.transactionDate == "" then multiset(claims)[c] else 0
    ensures IsSubsequence(r, claims)
  {
    var p := (c: Claim) => c.statusId == "pending" && c.transactionDate == "";
    FilterIsSubsequence(claims, p);
    FilterMultiplicity(claims, p);
    Filter(claims, p)
  }

  /** `getClaimsForEmployee(id)`: with a non-empty id, exactly that user's
      claims; with an absent or empty id, the whole list. */
  function ClaimsForEmployee(claims: seq<Claim>, employeeId: Option<string>): (r: seq<Claim>)
    ensures Truthy(employeeId) ==>
              forall c :: c in r <==> c in claims && c.userId == employeeId.value
    ensures Truthy(employeeId) ==>
              forall c :: multiset(r)[c] == if c.userId == employeeId.value then multiset(claims)[c] else 0
    ensures !Truthy(employeeId) ==> r == claims
    ensures IsSubsequence(r, claims)
  {
    if Truthy(employeeId) then
      var p := (c: Claim) => c.userId == employeeId.value;
      FilterIsSubsequence(claims, p);
      FilterMultiplicity(claims, p);
      Filter(claims, p)
    else
      FilterIsSubsequence(claims, _ => true);
      FilterKeepsAll(claims, _ => true);
      claims
  }

  /** No claim is ever in both the finance queue and the HR queue. */
  lemma FinanceAndHRDisjoint(claims: seq<Claim>)
    ensures forall c :: c in ClaimsForFinance(claims) ==> c !in ClaimsForHR(claims)
  {
  }

  /** On the sample data the finance queue holds both claims. */
  lemma SampleFinanceQueue()
    ensures ClaimsForFinance(SampleClaims()) == SampleClaims()
  {
    var s := SampleClaims();
    assert forall i :: 0 <= i < |s| ==> s[i].statusId == "approved";
    FilterKeepsAll(s, (c: Claim) => c.statusId == "approved");
  }

  /** On the sample data the HR queue is empty. */
  lemma SampleHRQueueEmpty()
    ensures ClaimsForHR(SampleClaims()) == []
  {
    var s := SampleClaims();
    assert forall c :: c in s ==> c.statusId == "approved";
  }
}

=== FILE: employee_claims_list.dfy ===
/** The employee claim list: its status helpers, the only status reading in
    the code that ignores case (keyed on the Indonesian words `diterima` and
    `ditolak`), the badge it draws, and the defaults it fills in for each
    fetched claim. Only the colour helper reaches the screen; the badge text
    is the raw status name. */
module EmployeeClaimsList {
  import opened Optional
  import opened Text
  import opened Palette
  import Data

  const Approved := "Disetujui"
  const Rejected := "Ditolak"
  const Waiting := "Menunggu review"

  /** The key both helpers switch on: a missing or empty status reads as
      "pending", anything else is lower-cased. */
  function Key(status: Option<string>): string {
    if Truthy(status) then ToLower(status.value) else "pending"
  }

  /** `getStatusText`: defined beside the colour helper but never called;
      the badge shows the raw status name instead (`ClaimBadge`). */
  function StatusText(status: Option<string>): (r: string)
    ensures r == Approved <==> Truthy(status) && ToLower(status.value) == "diterima"
    ensures r == Rejected <==> Truthy(status) && ToLower(status.value) == "ditolak"
    ensures r == Waiting <==> !(Truthy(status) && ToLower(status.value) in {"diterima", "ditolak"})
  {
    match Key(status)
    case "diterima" => Approved
    case "ditolak" => Rejected
    case _ => Waiting
  }

  /** The badge colour (`getStatusColor`). */
  function StatusColor(status: Option<string>): (t: Tone)
    ensures t == Emerald <==> Truthy(status) && ToLower(status.value) == "diterima"
    ensures t == Red <==> Truthy(status) && ToLower(status.value) == "ditolak"
    ensures t == Yellow <==> !(Truthy(status) && ToLower(status.value) in {"diterima", "ditolak"})
  {
    match Key(status)
    case "diterima" => Emerald
    case "ditolak" => Red
    case _ => Yellow
  }

  /** Colour and text classify every status the same way. */
  lemma ColorAgreesWithText(status: Option<string>)
    ensures StatusColor(status) == Emerald <==> StatusText(status) == Approved
    ensures StatusColor(status) == Red <==> StatusText(status) == Rejected
    ensures StatusColor(status) == Yellow <==> StatusText(status) == Waiting
  {
  }

  /** A status and its lower-cased form get the same text and colour. */
  lemma CaseInsensitive(s: string)
    ensures StatusText(Some(s)) == StatusText(Some(ToLower(s)))
    ensures StatusColor(Some(s)) == StatusColor(Some(ToLower(s)))
  {
    ToLowerIdempotent(s);
  }

  /** A missing or empty status reads as pending. */
  lemma MissingIsWaiting()
    ensures StatusText(None) == Waiting && StatusText(Some("")) == Waiting
    ensures StatusColor(None) == Yellow && StatusColor(Some("")) == Yellow
  {
  }

  /** The English keys the rest of the code uses are not recognised here:
      "approved" and "paid" both read as waiting for review. */
  lemma EnglishKeysAreWaiting()
    ensures StatusText(Some("approved")) == Waiting
    ensures StatusText(Some("paid")) == Waiting
    ensures StatusText(Some("DITERIMA")) == Approved
  {
    assert ToLower("approved") == "approved";
    assert ToLower("paid") == "paid";
    assert ToLower("DITERIMA") == "diterima";
  }

  /** An embedded `{ name }` object of a fetched claim (user, claim type or
      status); its `name` may be null. */
  datatype Named = Named(name: Option<string>)

  /** A claim as the server returns it, with its embedded objects. */
  datatype FetchedClaim = FetchedClaim(
    record: Data.Claim,
    user: Option<Named>,
    claimType: Option<Named>,
    status: Option<Named>)

  /** A fetched claim with the three display names the list adds. */
  datatype ListedClaim = ListedClaim(
    item: FetchedClaim,
    userName: string,
    claimTypeName: string,
    statusName: string)

  /** `obj?.name ?? fallback`: only null or undefined fall back, so an empty
      name is kept. */
  function NameOr(obj: Option<Named>, fallback: string): (r: string)
    ensures obj.Some? && obj.value.name.Some? ==> r == obj.value.name.value
    ensures obj.None? || obj.value.name.None? ==> r == fallback
  {
    if obj.Some? && obj.value.name.Some? then obj.value.name.value else fallback
  }

  /** The mapping applied to every fetched claim: the record is kept whole
      and the three names are added, each defaulting only when absent. */
  function ListClaim(item: FetchedClaim): (r: ListedClaim)
    ensures r.item == item
    ensures item.user.Some? && item.user.value.name.Some? ==> r.userName == item.user.value.name.value
    ensures item.user.None? || item.user.value.name.None? ==> r.userName == "Nama tidak diketahui"
    ensures item.claimType.Some? && item.claimType.value.name.Some? ==>
              r.claimTypeName == item.claimType.value.name.value
    ensures item.claimType.None? || item.claimType.value.name.None? ==>
              r.claimTypeName == "Jenis klaim tidak diketahui"
    ensures item.status.Some? && item.status.value.name.Some? ==> r.statusName == item.status.value.name.value
    ensures item.status.None? || item.status.value.name.None? ==> r.statusName == "pending"
  {
    ListedClaim(item,
                NameOr(item.user, "Nama tidak diketahui"),
                NameOr(item.claimType, "Jenis klaim tidak diketahui"),
                NameOr(item.status, "pending"))
  }

  /** `data.map(...)`: one listed claim per fetched claim, in order. */
  function ListClaims(items: seq<FetchedClaim>): (r: seq<ListedClaim>)
    ensures |r| == |items|
    ensures forall i :: 0 <= i < |items| ==> r[i] == ListClaim(items[i]) && r[i].item == items[i]
  {
    seq(|items|, i requires 0 <= i < |items| => ListClaim(items[i]))
  }

  /** The status badge of a listed claim (`<Badge>` under the amount). */
  datatype Badge = Badge(tone: Tone, text: string)

  /** The badge is coloured by `getStatusColor(statusName ?? "")` and
      labelled with `statusName ?? "Status Tidak Diketahui"`: the raw status
      name, not `getStatusText`, which the list never calls. The `??`
      fallbacks cannot fire because `ListClaim` always sets a string. */
  function ClaimBadge(c: ListedClaim): (b: Badge)
    ensures b.text == c.statusName
    ensures b.tone == Emerald <==> c.statusName != "" && ToLower(c.statusName) == "diterima"
    ensures b.tone == Red <==> c.statusName != "" && ToLower(c.statusName) == "ditolak"
    ensures b.tone == Yellow <==> !(c.statusName != "" && ToLower(c.statusName) in {"diterima", "ditolak"})
  {
    Badge(StatusColor(Some(c.statusName)), c.statusName)
  }

  /** A fetched claim without a status name gets a yellow badge reading the
      default name "pending" itself. */
  lemma MissingStatusBadge(item: FetchedClaim)
    requires item.status.None? || item.status.value.name.None?
    ensures StatusColor(Some(ListClaim(item).statusName)) == Yellow
    ensures ClaimBadge(ListClaim(item)) == Badge(Yellow, "pending")
  {
    assert ToLower("pending") == "pending";
  }

  /** Only the badge's colour ignores case: "DITERIMA" and "diterima" are
      both emerald, but each badge shows its own spelling. */
  lemma BadgeColourIgnoresCase(c: ListedClaim)
    ensures ClaimBadge(c).tone == ClaimBadge(c.(statusName := ToLower(c.statusName))).tone
    ensures ClaimBadge(c.(statusName := ToLower(c.statusName))).text == ToLower(c.statusName)
  {
    CaseInsensitive(c.statusName);
  }

  /** A status name is shown as given, even when `getStatusText` would have
      translated it: "diterima" reads "diterima", not "Disetujui". */
  lemma BadgeShowsRawName(c: ListedClaim)
    requires c.statusName == "diterima"
    ensures ClaimBadge(c) == Badge(Emerald, "diterima")
    ensures StatusText(Some(c.statusName)) == Approved && ClaimBadge(c).text != Approved
  {
    assert ToLower("diterima") == "diterima";
  }
}

=== FILE: employee_dashboard.dfy ===
/** The employee dashboard's statistics over the current employee's claims. */
module EmployeeDashboard {
  import opened Optional
  import opened Lists
  import opened Data

  /** The employee the dashboard is hard-wired to. */
  const CurrentEmployee := "EMP-001"

  /** `claim.status === 'pending'`, on the optional view field. */
  predicate PendingStatus(c: Claim) {
    c.status == Some("pending")
  }

  /** `claim.status === 'approved' || claim.status === 'paid'` */
  predicate ApprovedStatus(c: Claim) {
    c.status == Some("approved") || c.status == Some("paid")
  }

  datatype Stats = Stats(claims: seq<Claim>, total: nat, pending: nat, approved: nat)

  /** The dashboard computed over a claim list. */
  function Dashboard(all: seq<Claim>): (s: Stats)
    ensures s.claims == ClaimsForEmployee(all, Some(CurrentEmployee))
    ensures forall c :: c in s.claims <==> c in all && c.userId == CurrentEmployee
    ensures s.total == |s.claims|
    ensures s.pending == Count(s.claims, PendingStatus)
    ensures s.approved == Count(s.claims, ApprovedStatus)
    ensures s.pending + s.approved <= s.total
  {
    var claims := ClaimsForEmployee(all, Some(CurrentEmployee));
    CountExclusive(claims, PendingStatus, ApprovedStatus);
    Stats(claims, |claims|, Count(claims, PendingStatus), Count(claims, ApprovedStatus))
  }

  /** The counts read `status`, not `status_id`: a claim stored as pending
      but without the view field is not counted as pending. */
  lemma CountsIgnoreStatusId(c: Claim)
    requires c.userId == CurrentEmployee && c.statusId == "pending" && c.status.None?
    ensures Dashboard([c]).total == 1
    ensures Dashboard([c]).pending == 0 && Dashboard([c]).approved == 0
  {
    assert Filter([c], PendingStatus) == [] by {
      assert Filter([c], PendingStatus) == Filter([c][1..], PendingStatus);
    }
    assert Filter([c], ApprovedStatus) == [] by {
      assert Filter([c], ApprovedStatus) == Filter([c][1..], ApprovedStatus);
    }
    assert c in Dashboard([c]).claims;
  }

  /** The sample claims belong to other users, so every count is 0. */
  lemma SampleDashboardEmpty()
    ensures Dashboard(SampleClaims()).total == 0
    ensures Dashboard(SampleClaims()).pending == 0 && Dashboard(SampleClaims()).approved == 0
  {
  }
}

=== FILE: events.dfy ===
/** The observable effects of an event handler, in the order they happen:
    an `alert`, the hand-over of the submitted value, a call of the close
    callback. The value is handed over by calling the parent's submit
    callback in most components; the review form and the claim submission
    form have no such callback and `console.log` it instead, so there
    `Submitted` stands for that log line. */
module Events {
  datatype Event<R> = Alerted(message: string) | Submitted(value: R) | Closed

  predicate IsSubmit<R>(e: Event<R>) {
    e.Submitted?
  }

  /** How many times the submit callback ran. */
  function Submissions<R>(es: seq<Event<R>>): (n: nat)
    ensures n <= |es|
    ensures n == 0 <==> forall i :: 0 <= i < |es| ==> !es[i].Submitted?
  {
    if es == [] then 0
    else (if es[0].Submitted? then 1 else 0) + Submissions(es[1..])
  }

  /** The effects of an accepted submission: the callback once, then close,
      and nothing else. */
  function SubmitThenClose<R>(value: R): (es: seq<Event<R>>)
    ensures |es| == 2 && es[0] == Submitted(value) && es[1] == Closed
    ensures Submissions(es) == 1 && es[|es| - 1] == Closed
    ensures forall i :: 0 <= i < |es| && es[i].Submitted? ==> es[i].value == value
  {
    [Submitted(value), Closed]
  }
}

=== FILE: finance_dashboard.dfy ===
/** The plain finance dashboard (`finance-dashboard.tsx`): a six-field form
    posted as JSON, with empty optional fields sent as `null`. */
module FinanceDashboard {
  import opened Optional

  datatype Form = Form(claimId: string, reviewId: string, paymentMethodId: string, bank: string,
                       note: string, userId: string)

  const EmptyForm := Form("", "", "", "", "", "")

  /** The posted body; `None` is `null`. */
  datatype Body = Body(claimId: string, reviewId: string, paymentMethodId: Option<string>,
                       bank: Option<string>, note: Option<string>, userId: string)

  /** `value || null` */
  function OrNull(value: string): (r: Option<string>)
    ensures r.None? <==> value == ""
    ensures r.Some? ==> r.value == value
  {
    if value == "" then None else Some(value)
  }

  /** The request body: the ids as entered, the other three `null` when empty. */
  function RequestBody(f: Form): (b: Body)
    ensures b.claimId == f.claimId && b.reviewId == f.reviewId && b.userId == f.userId
    ensures b.paymentMethodId == OrNull(f.paymentMethodId) && b.bank == OrNull(f.bank) && b.note == OrNull(f.note)
  {
    Body(f.claimId, f.reviewId, OrNull(f.paymentMethodId), OrNull(f.bank), OrNull(f.note), f.userId)
  }

  /** Every non-empty field reaches the server unchanged. */
  lemma BodyKeepsEnteredValues(f: Form)
    ensures var b := RequestBody(f);
            (f.paymentMethodId != "" ==> b.paymentMethodId == Some(f.paymentMethodId))
            && (f.bank != "" ==> b.bank == Some(f.bank))
            && (f.note != "" ==> b.note == Some(f.note))
    ensures var b := RequestBody(f);
            (f.paymentMethodId == "" ==> b.paymentMethodId.None?) && (f.bank == "" ==> b.bank.None?)
            && (f.note == "" ==> b.note.None?)
  {
  }

  /** The browser's own check before `handleSubmit` runs: the claim, review
      and user id inputs are `required`; the other three are optional. */
  predicate FormAccepts(f: Form) {
    f.claimId != "" && f.reviewId != "" && f.userId != ""
  }

  /** A form the browser lets through with the optional fields left empty
      posts the three ids and `null` for the rest. */
  lemma OptionalFieldsPostNull(claimId: string, reviewId: string, userId: string)
    requires claimId != "" && reviewId != "" && userId != ""
    ensures var f := Form(claimId, reviewId, "", "", "", userId);
            FormAccepts(f) && RequestBody(f) == Body(claimId, reviewId, None, None, None, userId)
  {
  }

  /** The server's answer: created, refused with the `message` of its JSON
      body, or an exception with its message. */
  datatype Reply = Created | Refused(serverMessage: Option<string>) | Thrown(errorMessage: string)

  datatype State = State(form: Form, error: Option<string>, loading: bool, refreshing: bool)

  const DefaultRefusal := "Failed to create payment"
  const UnknownError := "Unknown error"

  /** `err.message || 'Unknown error'` */
  function ErrorText(message: string): (r: string)
    ensures r != ""
    ensures message != "" ==> r == message
  {
    if message == "" then UnknownError else message
  }

  /** `handleSubmit`: the error is cleared before the post; on success the
      form is reset and the list refreshed; on failure the form is kept and
      the error shown. */
  function HandleSubmit(s: State, reply: Reply): (r: State)
    ensures !r.loading
    ensures reply.Created? ==> r.form == EmptyForm && r.error.None? && r.refreshing
    ensures !reply.Created? ==> r.form == s.form && r.error.Some? && r.error.value != "" && r.refreshing == s.refreshing
    ensures reply.Refused? ==>
              r.error == Some(if Truthy(reply.serverMessage) then reply.serverMessage.value else DefaultRefusal)
    ensures reply.Thrown? ==> r.error == Some(ErrorText(reply.errorMessage))
  {
    var cleared := s.(loading := true, error := None);
    match reply
    case Created => cleared.(form := EmptyForm, refreshing := true, loading := false)
    case Refused(m) => cleared.(error := Some(ErrorText(OrElse(m, DefaultRefusal))), loading := false)
    case Thrown(m) => cleared.(error := Some(ErrorText(m)), loading := false)
  }

  /** A refusal never shows "Unknown error": an empty message falls back to
      "Failed to create payment" first. */
  lemma RefusalHasOwnDefault(s: State, message: Option<string>)
    ensures HandleSubmit(s, Refused(message)).error != Some(UnknownError) || message == Some(UnknownError)
  {
  }

  /** `fetchPayments`' reply: the payment list, or a failure with a message. */
  datatype ListReply<P> = Listed(payments: seq<P>) | ListFailed(message: string)

  /** `fetchPayments`: a listing replaces the payments and clears the error. */
  function FetchPayments<P>(payments: seq<P>, error: Option<string>, reply: ListReply<P>): (r: (seq<P>, Option<string>))
    ensures reply.Listed? ==> r == (reply.payments, None)
    ensures reply.ListFailed? ==> r.0 == payments && r.1 == Some(ErrorText(reply.message))
  {
    match reply
    case Listed(ps) => (ps, None)
    case ListFailed(m) => (payments, Some(ErrorText(m)))
  }
}

=== FILE: finance_queue.dfy ===
/** The finance "ready to pay" dashboard (`finance-dashboardd.tsx`): the
    payable queue derived from the fetched claims and reviews, its totals, and
    the payment submission handler. The HTTP calls are replaced by their
    replies, given as inputs. */
module FinanceQueue {
  import opened Optional
  import opened Lists
  import opened Text
  import opened Numbers

  /** `transaction_total?: number | string` */
  datatype Total = NumberTotal(value: real) | TextTotal(text: string)

  /** A fetched claim, in this dashboard's own narrow shape. */
  datatype Claim = Claim(id: string, desc1: Option<string>, desc2: Option<string>, total: Option<Total>)

  /** A fetched review: only the fields the dashboard reads. `status_id` may
      be `null`, absent, or a string. */
  datatype FetchedReview = FetchedReview(id: string, claimId: string, statusId: Nullable<string>)

  /** `{ ...claim, reviewId }`: the referenced claim, absent when no fetched
      claim has the review's `claim_id`, extended with the review's id. */
  datatype Entry = Entry(claim: Option<Claim>, reviewId: string)

  /** A review is payable when `status_id !== null`; an absent `status_id`
      passes too, and the decision itself is never read. */
  predicate Accepted(r: FetchedReview) {
    !r.statusId.Null?
  }

  /** `claimsData.find(c => c.id === id)` */
  function ClaimById(claims: seq<Claim>, id: string): (r: Option<Claim>)
    ensures r.None? <==> forall j :: 0 <= j < |claims| ==> claims[j].id != id
    ensures r.Some? ==> r.value in claims && r.value.id == id
    ensures r.Some? ==> exists i :: 0 <= i < |claims| && claims[i] == r.value
                                    && forall j :: 0 <= j < i ==> claims[j].id != id
  {
    var i := FindIndex(claims, (c: Claim) => c.id == id);
    if i < 0 then None else Some(claims[i])
  }

  /** The entry one review contributes. */
  function Join(claims: seq<Claim>, r: FetchedReview): (e: Entry)
    ensures e.reviewId == r.id
    ensures e.claim == ClaimById(claims, r.claimId)
  {
    Entry(ClaimById(claims, r.claimId), r.id)
  }

  /** `acceptedReviews.map(...)`: one entry per accepted review, in review
      order. */
  function ClaimsWithReview(claims: seq<Claim>, reviews: seq<FetchedReview>): (r: seq<Entry>)
    ensures |r| == Count(reviews, Accepted)
    ensures forall i :: 0 <= i < |r| ==> r[i] == Join(claims, Filter(reviews, Accepted)[i])
    ensures forall e :: e in r <==> exists v :: v in reviews && Accepted(v) && e == Join(claims, v)
  {
    if reviews == [] then []
    else
      var rest := ClaimsWithReview(claims, reviews[1..]);
      assert forall v :: v in reviews <==> v == reviews[0] || v in reviews[1..];
      if Accepted(reviews[0]) then
        assert Filter(reviews, Accepted) == [reviews[0]] + Filter(reviews[1..], Accepted);
        [Join(claims, reviews[0])] + rest
      else
        assert Filter(reviews, Accepted) == Filter(reviews[1..], Accepted);
        rest
  }

  /** The `Map` key of an entry: the claim's id, `undefined` when the review
      referenced no fetched claim. */
  function EntryKey(e: Entry): Option<string> {
    if e.claim.Some? then Some(e.claim.value.id) else None
  }

  /** `uniqueClaims`: one entry per claim id, at the position of the claim's
      first accepted review, carrying its last accepted review. */
  function UniqueClaims(claims: seq<Claim>, reviews: seq<FetchedReview>): (r: seq<Entry>)
    ensures Distinct(Keys(r, EntryKey))
    ensures Keys(r, EntryKey) == FirstOccurrences(Keys(ClaimsWithReview(claims, reviews), EntryKey))
    ensures forall i :: 0 <= i < |r| ==>
              LastWithKey(ClaimsWithReview(claims, reviews), EntryKey, EntryKey(r[i])) == Some(r[i])
    ensures |r| <= Count(reviews, Accepted)
  {
    var es := ClaimsWithReview(claims, reviews);
    MapValuesKeys(es, EntryKey);
    MapValues(es, EntryKey)
  }

  /** Every entry in the queue is the join of some accepted review, and every
      accepted review's claim is represented in the queue. */
  lemma QueueComesFromAcceptedReviews(claims: seq<Claim>, reviews: seq<FetchedReview>)
    ensures forall u :: u in UniqueClaims(claims, reviews) ==>
              exists v :: v in reviews && Accepted(v) && u == Join(claims, v)
    ensures forall v :: v in reviews && Accepted(v) ==>
              EntryKey(Join(claims, v)) in Keys(UniqueClaims(claims, reviews), EntryKey)
  {
    var es := ClaimsWithReview(claims, reviews);
    var u := UniqueClaims(claims, reviews);
    forall x | x in u
      ensures exists v :: v in reviews && Accepted(v) && x == Join(claims, v)
    {
      var i :| 0 <= i < |u| && u[i] == x;
      assert LastWithKey(es, EntryKey, EntryKey(u[i])) == Some(u[i]);
    }
    forall v | v in reviews && Accepted(v)
      ensures EntryKey(Join(claims, v)) in Keys(u, EntryKey)
    {
      var e := Join(claims, v);
      assert e in es;
      var i :| 0 <= i < |es| && es[i] == e;
      MapValuesKeys(es, EntryKey);
    }
  }

  /** Two review lists that agree on ids, claim ids and on which `status_id`s
      are `null` give the same queue: an approval and a rejection are treated
      alike. */
  lemma {:induction false} DecisionNotConsulted(claims: seq<Claim>, a: seq<FetchedReview>, b: seq<FetchedReview>)
    requires |a| == |b|
    requires forall i :: 0 <= i < |a| ==>
               a[i].id == b[i].id && a[i].claimId == b[i].claimId && a[i].statusId.Null? == b[i].statusId.Null?
    ensures ClaimsWithReview(claims, a) == ClaimsWithReview(claims, b)
    ensures UniqueClaims(claims, a) == UniqueClaims(claims, b)
  {
    if a != [] {
      DecisionNotConsulted(claims, a[1..], b[1..]);
      assert Join(claims, a[0]) == Join(claims, b[0]);
    }
  }

  /** A rejected review is payable: only a `null` decision is filtered out. */
  lemma RejectedReviewIsPayable(claims: seq<Claim>, id: string, claimId: string)
    ensures ClaimsWithReview(claims, [FetchedReview(id, claimId, Present("status-rejected"))])
         == [Join(claims, FetchedReview(id, claimId, Present("status-rejected")))]
    ensures ClaimsWithReview(claims, [FetchedReview(id, claimId, Null)]) == []
  {
  }

  /** `Number(c.transaction_total) || 0`: the amount an entry adds to the
      total. A missing claim or total reads `NaN` and counts 0. */
  function Amount(e: Entry): (r: real)
    ensures e.claim.None? || e.claim.value.total.None? ==> r == 0.0
    ensures (e.claim.Some? && e.claim.value.total.Some? && e.claim.value.total.value.NumberTotal?)
            ==> r == e.claim.value.total.value.value
    ensures (e.claim.Some? && e.claim.value.total.Some? && e.claim.value.total.value.TextTotal?
             && JsNumber(e.claim.value.total.value.text).Some?) ==> r == JsNumber(e.claim.value.total.value.text).value
    ensures (e.claim.Some? && e.claim.value.total.Some? && e.claim.value.total.value.TextTotal?
             && JsNumber(e.claim.value.total.value.text).None?) ==> r == 0.0
  {
    if e.claim.None? then 0.0
    else
      match e.claim.value.total
      case None => 0.0
      case Some(NumberTotal(x)) => x
      case Some(TextTotal(s)) => JsNumber(s).GetOr(0.0)
  }

  /** A digit-string total adds the number it spells. */
  lemma AmountOfDigits(c: Claim, reviewId: string, s: string)
    requires s != [] && AllDigits(s) && c.total == Some(TextTotal(s))
    ensures Amount(Entry(Some(c), reviewId)) == DigitsValue(s) as real
  {
    JsNumberOfDigits(s);
  }

  /** `totalAmount` */
  function TotalAmount(queue: seq<Entry>): (r: real)
    ensures (forall i :: 0 <= i < |queue| ==> Amount(queue[i]) >= 0.0) ==> r >= 0.0
  {
    if forall i :: 0 <= i < |queue| ==> Amount(queue[i]) >= 0.0 then
      SumRealNonNegative(queue, Amount);
      SumReal(queue, Amount)
    else
      SumReal(queue, Amount)
  }

  /** The `reduce` behind `totalAmount`: it starts at 0 and each further
      entry adds its own amount. */
  lemma TotalAmountStep(queue: seq<Entry>, e: Entry)
    ensures TotalAmount([]) == 0.0
    ensures TotalAmount(queue + [e]) == TotalAmount(queue) + Amount(e)
  {
    SumRealConcat(queue, [e], Amount);
    assert SumReal([e], Amount) == Amount(e) + SumReal([], Amount);
  }

  datatype PaymentMethod = PaymentMethod(id: string, methodName: string)
  datatype PaymentProof = PaymentProof(id: Option<string>, fileUrl: string)

  /** A payment as fetched; the server may omit its id. */
  datatype Payment = Payment(
    id: Option<string>,
    claim: Option<Claim>,
    bank: Option<string>,
    paymentMethod: Option<PaymentMethod>,
    proofs: Option<seq<PaymentProof>>)

  function PaymentKey(p: Payment): Option<string> {
    p.id
  }

  /** `uniquePayments`: one payment per fetched id, listed in the order the
      ids first occur, each the last payment fetched with its id. */
  function UniquePayments(payments: seq<Payment>): (r: seq<Payment>)
    ensures |r| <= |payments|
    ensures Distinct(Keys(r, PaymentKey))
    ensures Keys(r, PaymentKey) == FirstOccurrences(Keys(payments, PaymentKey))
    ensures forall i :: 0 <= i < |r| ==> LastWithKey(payments, PaymentKey, PaymentKey(r[i])) == Some(r[i])
    ensures forall i :: 0 <= i < |payments| ==> payments[i].id in Keys(r, PaymentKey)
    ensures forall p :: p in r ==> p in payments
  {
    var r := MapValues(payments, PaymentKey);
    MapValuesKeys(payments, PaymentKey);
    assert forall i :: 0 <= i < |r| ==> LastWithKey(payments, PaymentKey, PaymentKey(r[i])) == Some(r[i]);
    assert |Keys(r, PaymentKey)| == |r|;
    r
  }

  /** The payment form's fields. `file` is the chosen file, if any. */
  datatype Form = Form(bank: string, methodId: string, note: string, file: Option<string>)

  const EmptyForm := Form("", "", "", None)

  datatype State = State(
    claims: seq<Entry>,
    payments: seq<Payment>,
    paymentMethods: seq<PaymentMethod>,
    totalClaims: nat,
    totalAmount: real,
    modalOpen: bool,
    selected: Option<Entry>,
    form: Form,
    loading: bool)

  const Initial := State([], [], [], 0, 0.0, false, None, EmptyForm, false)

  /** The four replies of the initial fetch, or `None` when the token is
      missing or any of them is not ok. */
  datatype Fetched = Fetched(claims: seq<Claim>, reviews: seq<FetchedReview>, payments: seq<Payment>,
                             methods: seq<PaymentMethod>)

  datatype Alert = FetchFailed | FieldsRequired | SubmitFailed

  /** `fetchData`: on success the queue, the payments, the methods and both
      totals are replaced together; on failure only an alert is raised. */
  function Load(s: State, fetched: Option<Fetched>): (r: (State, Option<Alert>))
    ensures fetched.None? ==> r == (s, Some(FetchFailed))
    ensures fetched.Some? ==> r.1.None?
    ensures fetched.Some? ==>
              var f := fetched.value;
              r.0.claims == UniqueClaims(f.claims, f.reviews)
              && r.0.totalClaims == |r.0.claims|
              && r.0.totalAmount == TotalAmount(r.0.claims)
              && r.0.payments == UniquePayments(f.payments)
              && r.0.paymentMethods == f.methods
              && r.0.form == s.form && r.0.selected == s.selected
    ensures fetched.Some? ==>
              r.0 == s.(claims := r.0.claims, payments := r.0.payments, paymentMethods := r.0.paymentMethods,
                        totalClaims := r.0.totalClaims, totalAmount := r.0.totalAmount)
  {
    match fetched
    case None => (s, Some(FetchFailed))
    case Some(f) =>
      var queue := UniqueClaims(f.claims, f.reviews);
      (s.(claims := queue, payments := UniquePayments(f.payments), paymentMethods := f.methods,
          totalClaims := |queue|, totalAmount := TotalAmount(queue)), None)
  }

  /** The "Bayar" button: select the entry and open the modal. */
  function Open(s: State, e: Entry): (r: State)
    ensures r.selected == Some(e) && r.modalOpen
    ensures r.form == s.form && r.payments == s.payments && r.claims == s.claims
  {
    s.(selected := Some(e), modalOpen := true)
  }

  /** The multipart request the submission posts. */
  datatype PaymentRequest = PaymentRequest(claimId: string, reviewId: string, methodId: string,
                                           bank: string, note: string, file: Option<string>)

  /** The server's reply to the post: an error, a payment, or an array whose
      first element is taken. */
  datatype Reply = ErrorReply(message: string) | PaymentReply(payment: Payment) | ArrayReply(payments: seq<Payment>)

  /** `Array.isArray(data) ? data[0] : data`; an empty array yields
      `undefined`, on which reading `id` throws. */
  function ReplyPayment(reply: Reply): (r: Option<Payment>)
    ensures reply.ErrorReply? ==> r.None?
    ensures reply.ArrayReply? ==> (r.None? <==> reply.payments == [])
  {
    match reply
    case ErrorReply(_) => None
    case PaymentReply(p) => Some(p)
    case ArrayReply(ps) => if ps == [] then None else Some(ps[0])
  }

  /** What one submission did: the new state, the alert raised, and the
      request posted. */
  datatype Submission = Submission(state: State, alert: Option<Alert>, request: Option<PaymentRequest>)

  /** The request built from the selected entry and the form. `FormData`
      turns an `undefined` claim id into the text "undefined". */
  function Request(e: Entry, f: Form): (q: PaymentRequest)
    ensures q.reviewId == e.reviewId && q.methodId == f.methodId && q.bank == f.bank && q.note == f.note
    ensures e.claim.Some? ==> q.claimId == e.claim.value.id
  {
    PaymentRequest(if e.claim.Some? then e.claim.value.id else "undefined",
                   e.reviewId, f.methodId, f.bank, f.note, f.file)
  }

  /** `handleSubmitPayment`. `token` is the stored token, `reply` the
      server's answer to the post and `freshId` the value
      `crypto.randomUUID()` would return. */
  function SubmitPayment(s: State, token: Option<string>, reply: Reply, freshId: string): (r: Submission)
    ensures s.selected.None? ==> r == Submission(s, None, None)
    ensures s.selected.Some? && (s.form.bank == "" || s.form.methodId == "") ==>
              r == Submission(s, Some(FieldsRequired), None)
    ensures r.request.Some? <==> s.selected.Some? && s.form.bank != "" && s.form.methodId != "" && Truthy(token)
    ensures r.request.Some? ==> r.request.value == Request(s.selected.value, s.form)
    ensures r.request.Some? ==> (r.alert.None? <==> ReplyPayment(reply).Some?)
    ensures r.request.Some? && ReplyPayment(reply).Some? ==>
              var p := ReplyPayment(reply).value;
              r.state.payments == [if Truthy(p.id) then p else p.(id := Some(freshId))] + s.payments
    ensures r.state != s ==> !r.state.loading
    ensures r.alert == Some(SubmitFailed) ==> r.state == s.(loading := false)
    ensures s.selected.Some? && s.form.bank != "" && s.form.methodId != ""
            && (!Truthy(token) || ReplyPayment(reply).None?) ==>
              r.alert == Some(SubmitFailed) && r.state == s.(loading := false)
    ensures r.alert.None? && r.state != s ==>
              |r.state.payments| == |s.payments| + 1 && r.state.payments[1..] == s.payments
              && r.state.payments[0].id.Some?
              && r.state.form == EmptyForm && r.state.selected.None? && !r.state.modalOpen
    ensures r.alert.None? && r.state != s ==>
              r.state == s.(payments := r.state.payments, form := EmptyForm, selected := None,
                            modalOpen := false, loading := false)
  {
    if s.selected.None? then Submission(s, None, None)
    else if s.form.bank == "" || s.form.methodId == "" then Submission(s, Some(FieldsRequired), None)
    else if !Truthy(token) then Submission(s.(loading := false), Some(SubmitFailed), None)
    else
      var request := Request(s.selected.value, s.form);
      var p := ReplyPayment(reply);
      if p.None? then Submission(s.(loading := false), Some(SubmitFailed), Some(request))
      else
        var created := if Truthy(p.value.id) then p.value else p.value.(id := Some(freshId));
        Submission(s.(payments := [created] + s.payments, modalOpen := false, form := EmptyForm,
                      selected := None, loading := false), None, Some(request))
  }

  /** A successful submission keeps the reply's own id when it has one, and
      otherwise stamps the fresh id. */
  lemma CreatedPaymentId(s: State, token: string, p: Payment, freshId: string)
    requires s.selected.Some? && s.form.bank != "" && s.form.methodId != "" && token != ""
    ensures var r := SubmitPayment(s, Some(token), PaymentReply(p), freshId);
            r.alert.None? && r.state.payments[1..] == s.payments
            && r.state.payments[0] == (if Truthy(p.id) then p else p.(id := Some(freshId)))
  {
  }
}

=== FILE: hr_dashboard.dfy ===
/** The HR dashboard's statistics: the pending queue, the reviewed claims,
    the approval rate and the "Recently Reviewed" list. */
module HrDashboard {
  import opened Optional
  import opened Lists
  import opened Data

  /** `claim.reviewDate` is truthy. */
  predicate Reviewed(c: Claim) {
    Truthy(c.reviewDate)
  }

  /** `c.status === 'approved'`, on the optional view field. */
  predicate ApprovedStatus(c: Claim) {
    c.status == Some("approved")
  }

  /** `SAMPLE_CLAIMS.filter(claim => claim.reviewDate)` */
  function ReviewedClaims(claims: seq<Claim>): (r: seq<Claim>)
    ensures forall c :: c in r <==> c in claims && Reviewed(c)
    ensures forall c :: multiset(r)[c] == if Reviewed(c) then multiset(claims)[c] else 0
    ensures IsSubsequence(r, claims)
  {
    FilterIsSubsequence(claims, Reviewed);
    FilterMultiplicity(claims, Reviewed);
    Filter(claims, Reviewed)
  }

  /** A share of `part` out of `whole`, as a percentage, lies in [0, 100]. */
  lemma PercentageBounds(part: nat, whole: nat)
    requires 0 < whole && part <= whole
    ensures 0.0 <= part as real / whole as real * 100.0 <= 100.0
  {
    assert part as real / whole as real <= 1.0 by {
      assert part as real <= whole as real;
    }
  }

  /** The two ends of the percentage scale. */
  lemma Percentage(part: nat, whole: nat)
    requires 0 < whole && (part == 0 || part == whole)
    ensures part == 0 ==> part as real / whole as real * 100.0 == 0.0
    ensures part == whole ==> part as real / whole as real * 100.0 == 100.0
  {
    var w := whole as real;
    if part == whole {
      assert w / w == 1.0;
    }
  }

  datatype Stats = Stats(
    pending: seq<Claim>,
    reviewed: seq<Claim>,
    totalPending: nat,
    totalReviewed: nat,
    approvalRate: real,
    recent: seq<Claim>)

  /** The dashboard computed over a claim list. */
  function Dashboard(claims: seq<Claim>): (s: Stats)
    ensures s.pending == ClaimsForHR(claims) && s.totalPending == |s.pending|
    ensures s.reviewed == ReviewedClaims(claims) && s.totalReviewed == |s.reviewed|
    ensures s.totalReviewed == 0 ==> s.approvalRate == 0.0
    ensures s.totalReviewed > 0 ==>
              s.approvalRate == Count(s.reviewed, ApprovedStatus) as real / s.totalReviewed as real * 100.0
    ensures 0.0 <= s.approvalRate <= 100.0
    ensures |s.recent| == if |s.reviewed| < 3 then |s.reviewed| else 3
    ensures s.recent == s.reviewed[..|s.recent|]
  {
    var pending := ClaimsForHR(claims);
    var reviewed := ReviewedClaims(claims);
    var approved := Count(reviewed, ApprovedStatus);
    var rate := if |reviewed| > 0 then approved as real / |reviewed| as real * 100.0 else 0.0;
    if |reviewed| > 0 then
      PercentageBounds(approved, |reviewed|);
      Stats(pending, reviewed, |pending|, |reviewed|, rate,
            reviewed[..if |reviewed| < 3 then |reviewed| else 3])
    else
      Stats(pending, reviewed, |pending|, |reviewed|, rate, [])
  }

  /** When every reviewed claim is approved the rate is 100. */
  lemma AllApprovedRate(claims: seq<Claim>)
    requires |ReviewedClaims(claims)| > 0
    requires forall c :: c in ReviewedClaims(claims) ==> ApprovedStatus(c)
    ensures Dashboard(claims).approvalRate == 100.0
  {
    var d := Dashboard(claims);
    var reviewed := d.reviewed;
    FilterKeepsAll(reviewed, ApprovedStatus);
    assert Count(reviewed, ApprovedStatus) == d.totalReviewed;
    Percentage(d.totalReviewed, d.totalReviewed);
  }

  /** When no reviewed claim is approved the rate is 0. */
  lemma NoneApprovedRate(claims: seq<Claim>)
    requires forall c :: c in ReviewedClaims(claims) ==> !ApprovedStatus(c)
    ensures Dashboard(claims).approvalRate == 0.0
  {
    var d := Dashboard(claims);
    FilterKeepsNone(d.reviewed, ApprovedStatus);
    if d.totalReviewed > 0 {
      Percentage(Count(d.reviewed, ApprovedStatus), d.totalReviewed);
    }
  }

  /** On the sample data nothing is pending and nothing has been reviewed, so
      the rate is 0 and the recent list is empty. */
  lemma SampleDashboard()
    ensures Dashboard(SampleClaims()).totalPending == 0
    ensures Dashboard(SampleClaims()).totalReviewed == 0
    ensures Dashboard(SampleClaims()).approvalRate == 0.0
    ensures Dashboard(SampleClaims()).recent == []
  {
    var s := SampleClaims();
    SampleHRQueueEmpty();
    assert forall c :: c in s ==> !Reviewed(c);
  }
}

=== FILE: hr_reviews_list.dfy ===
/** The HR page listing the claims that wait for review: the statistics
    cards, the "submitted n days ago" phrase, and which modal is open. */
module HrReviewsList {
  import opened Optional
  import opened Text
  import opened Lists
  import opened Numbers
  import opened Amounts
  import Data

  /** `getDaysAgo` first rewrites "20 Januari 2025" as "2025-Januari-20"
      before handing it to `new Date`. */
  function DateSource(date: string): (r: string) {
    Join(Reverse(Split(date, ' ')), "-")
  }

  /** A day, month and year separated by single spaces come out year first,
      joined by dashes. */
  lemma DateSourceOfThreeWords(day: string, month: string, year: string)
    requires ' ' !in day && ' ' !in month && ' ' !in year
    ensures DateSource(day + " " + month + " " + year) == year + "-" + month + "-" + day
  {
    assert Split(day + " " + month + " " + year, ' ') == [day, month, year] by {
      SplitThreeWords(day, month, year);
    }
    assert Reverse([day, month, year]) == [year, month, day];
    assert Join([year, month, day], "-") == year + "-" + (month + "-" + day) by {
      assert [year, month, day][1..] == [month, day];
      assert [month, day][1..] == [day];
    }
    assert year + "-" + (month + "-" + day) == year + "-" + month + "-" + day;
  }

  lemma SplitThreeWords(day: string, month: string, year: string)
    requires ' ' !in day && ' ' !in month && ' ' !in year
    ensures Split(day + " " + month + " " + year, ' ') == [day, month, year]
  {
    var s := day + " " + month + " " + year;
    assert s == day + [' '] + (month + [' '] + year);
    SplitWordThenRest(day, ' ', month + [' '] + year);
    SplitWordThenRest(month, ' ', year);
    SplitWord(year, ' ');
  }

  /** The milliseconds in a day. */
  const DayMillis := 1000 * 60 * 60 * 24

  /** `Math.ceil(Math.abs(today - submitted) / day)`; an unparseable date
      (`None`) gives `NaN`. */
  function DiffDays(today: int, submitted: Option<int>): (r: Option<nat>)
    ensures r.None? <==> submitted.None?
    ensures r.Some? ==> var gap := if today >= submitted.value then today - submitted.value else submitted.value - today;
                        (r.value - 1) * DayMillis < gap <= r.value * DayMillis
                        || (gap == 0 && r.value == 0)
  {
    if submitted.None? then None
    else
      var gap := if today >= submitted.value then today - submitted.value else submitted.value - today;
      var d := (gap + DayMillis - 1) / DayMillis;
      assert d * DayMillis <= gap + DayMillis - 1 < (d + 1) * DayMillis by {
        var m := (gap + DayMillis - 1) % DayMillis;
        assert gap + DayMillis - 1 == d * DayMillis + m && 0 <= m < DayMillis;
      }
      Some(d)
  }

  datatype Unit = Days | Weeks | Months

  /** The phrase "n hari/minggu/bulan yang lalu"; `count` is `None` when it
      prints as "NaN". */
  datatype Ago = Ago(count: Option<int>, unit: Unit)

  function UnitWord(u: Unit): string {
    match u
    case Days => "hari"
    case Weeks => "minggu"
    case Months => "bulan"
  }

  function AgoText(a: Ago): string {
    NumberText(a.count) + " " + UnitWord(a.unit) + " yang lalu"
  }

  /** How long ago a claim was submitted, from the whole days elapsed. */
  function DaysAgo(diffDays: Option<nat>): (a: Ago)
    ensures a.unit == Days <==> diffDays.Some? && diffDays.value < 7
    ensures a.unit == Weeks <==> diffDays.Some? && 7 <= diffDays.value < 30
    ensures a.unit == Months <==> diffDays.None? || diffDays.value >= 30
    ensures diffDays.None? ==> a.count.None?
    ensures a.unit == Days ==> a.count == Some(diffDays.value as int)
    ensures a.unit == Weeks ==> a.count.Some? && 1 <= a.count.value <= 4
    ensures a.unit == Weeks ==> a.count.value * 7 <= diffDays.value < (a.count.value + 1) * 7
    ensures a.unit == Months && diffDays.Some? ==> a.count.Some? && a.count.value >= 1
    ensures (a.unit == Months && diffDays.Some?) ==> a.count.value * 30 <= diffDays.value < (a.count.value + 1) * 30
  {
    if diffDays.None? then Ago(None, Months)
    else
      var d := diffDays.value;
      if d == 1 then Ago(Some(1), Days)
      else if d < 7 then Ago(Some(d), Days)
      else if d < 30 then Ago(Some(d / 7), Weeks)
      else Ago(Some(d / 30), Months)
  }

  /** The special case for one day says what the general day phrase would. */
  lemma OneDayIsGeneralCase()
    ensures AgoText(DaysAgo(Some(1))) == AgoText(Ago(Some(1), Days))
  {
  }

  /** More days never read as a shorter unit. */
  lemma UnitsGrowWithDays(d: nat, e: nat)
    requires d <= e
    ensures DaysAgo(Some(d)).unit == Months ==> DaysAgo(Some(e)).unit == Months
    ensures DaysAgo(Some(d)).unit == Weeks ==> DaysAgo(Some(e)).unit != Days
  {
  }

  /** The amounts as the cards read them. */
  function AmountValue(amount: string): Option<int> {
    ParseDotted(amount)
  }

  /** The two money cards: the `NaN`-propagating total, and
      `Math.round(total / count || 0)`, where `NaN` (an unreadable amount or
      an empty queue) falls back to 0. */
  datatype Cards = Cards(pending: nat, total: Option<int>, average: int)

  function Statistics(amounts: seq<string>): (c: Cards)
    ensures c.pending == |amounts|
    ensures c.total == SumDefined(amounts, AmountValue)
    ensures c.total.None? || amounts == [] ==> c.average == 0
    ensures c.total.Some? && amounts != [] ==> Some(c.average) == RoundedQuotient(c.total.value, |amounts|)
  {
    var total := SumDefined(amounts, AmountValue);
    var average := if total.None? then None else RoundedQuotient(total.value, |amounts|);
    Cards(|amounts|, total, average.GetOr(0))
  }

  /** The total card formats `total.toString()` and so shows the total
      itself, or "NaN". */
  lemma TotalCardShowsTotal(amounts: seq<string>)
    ensures ParseDotted(NumberText(Statistics(amounts).total)) == Statistics(amounts).total
  {
    ParseDottedOfNumberText(Statistics(amounts).total);
  }

  /** With the sample data nobody waits for review: the cards read 0, 0 and
      0, and the empty-list message is shown. */
  lemma SampleQueueEmpty()
    ensures Data.ClaimsForHR(Data.SampleClaims()) == []
    ensures Statistics([]) == Cards(0, Some(0), 0)
  {
    Data.SampleHRQueueEmpty();
  }

  /** Which claim is selected and which modals are open. */
  datatype State = State(selected: Option<Data.Claim>, showDetailModal: bool, showReviewForm: bool)

  const Initial := State(None, false, false)

  function DetailShown(s: State): (r: Option<Data.Claim>)
    ensures r.Some? <==> s.showDetailModal && s.selected.Some?
    ensures r.Some? ==> r == s.selected
  {
    if s.showDetailModal && s.selected.Some? then s.selected else None
  }

  function ReviewShown(s: State): (r: Option<Data.Claim>)
    ensures r.Some? <==> s.showReviewForm && s.selected.Some?
    ensures r.Some? ==> r == s.selected
  {
    if s.showReviewForm && s.selected.Some? then s.selected else None
  }

  /** `handleViewDetail(claim)`: clicking a card. */
  function ViewDetail(s: State, c: Data.Claim): (r: State)
    ensures DetailShown(r) == Some(c)
    ensures r.showReviewForm == s.showReviewForm
  {
    s.(selected := Some(c), showDetailModal := true)
  }

  /** `handleReviewClaim(claim)`: the card's review button, which stops the
      click from also opening the detail. */
  function ReviewClaim(s: State, c: Data.Claim): (r: State)
    ensures ReviewShown(r) == Some(c)
    ensures r.showDetailModal == s.showDetailModal
  {
    s.(selected := Some(c), showReviewForm := true)
  }

  function CloseDetailModal(s: State): (r: State)
    ensures DetailShown(r).None? && ReviewShown(r).None?
    ensures r.showReviewForm == s.showReviewForm
  {
    s.(selected := None, showDetailModal := false)
  }

  function CloseReviewForm(s: State): (r: State)
    ensures DetailShown(r).None? && ReviewShown(r).None?
    ensures r.showDetailModal == s.showDetailModal
  {
    s.(selected := None, showReviewForm := false)
  }

  /** Closing either modal clears the shared selection, so it hides the other
      one too, although its flag stays set. */
  lemma ClosingHidesBoth(s: State, c: Data.Claim)
    ensures ReviewShown(ReviewClaim(ViewDetail(s, c), c)) == Some(c)
    ensures DetailShown(ReviewClaim(ViewDetail(s, c), c)) == Some(c)
    ensures CloseReviewForm(ReviewClaim(ViewDetail(s, c), c)).showDetailModal
    ensures DetailShown(CloseReviewForm(ReviewClaim(ViewDetail(s, c), c))).None?
  {
  }
}

=== FILE: lists.dfy ===
/** The array operations the components use: `filter`, `find`, `reduce` for
    sums, and the de-duplication performed by building a JavaScript `Map`. */
module Lists {
  import opened Optional

  /** `xs.filter(p)` */
  function Filter<T(!new)>(xs: seq<T>, p: T -> bool): (r: seq<T>)
    ensures |r| <= |xs|
    ensures forall i :: 0 <= i < |r| ==> p(r[i])
    ensures forall x :: x in r <==> x in xs && p(x)
  {
    if xs == [] then []
    else if p(xs[0]) then [xs[0]] + Filter(xs[1..], p)
    else Filter(xs[1..], p)
  }

  /** A filter keeps every occurrence of a selected element and no occurrence
      of any other: nothing is duplicated or invented. */
  lemma {:induction false} FilterMultiplicity<T(!new)>(xs: seq<T>, p: T -> bool)
    ensures forall x :: multiset(Filter(xs, p))[x] == if p(x) then multiset(xs)[x] else 0
  {
    if xs != [] {
      FilterMultiplicity(xs[1..], p);
      assert xs == [xs[0]] + xs[1..];
    }
  }

  /** `a` can be obtained from `b` by deleting elements. */
  predicate IsSubsequence<T(==)>(a: seq<T>, b: seq<T>)
    decreases |b|
  {
    if a == [] then true
    else if b == [] then false
    else if a[0] == b[0] then IsSubsequence(a[1..], b[1..])
    else IsSubsequence(a, b[1..])
  }

  /** A filter only deletes: its result is a subsequence of its input, so no
      element is altered, duplicated or moved. */
  lemma {:induction false} FilterIsSubsequence<T(!new)>(xs: seq<T>, p: T -> bool)
    ensures IsSubsequence(Filter(xs, p), xs)
  {
    if xs != [] {
      FilterIsSubsequence(xs[1..], p);
      if !p(xs[0]) {
        SubsequenceOfTail(Filter(xs[1..], p), xs);
      }
    }
  }

  /** A subsequence of the tail of `b` is a subsequence of `b`. */
  lemma {:induction false} SubsequenceOfTail<T>(a: seq<T>, b: seq<T>)
    requires b != [] && IsSubsequence(a, b[1..])
    ensures IsSubsequence(a, b)
    decreases |b|, 0
  {
    if a != [] && a[0] == b[0] {
      SubsequenceDropHead(a, b[1..]);
    }
  }

  /** Dropping the first element of a subsequence keeps it a subsequence. */
  lemma {:induction false} SubsequenceDropHead<T>(a: seq<T>, c: seq<T>)
    requires a != [] && IsSubsequence(a, c)
    ensures IsSubsequence(a[1..], c)
    decreases |c|, 1
  {
    if a[0] == c[0] {
      if a[1..] != [] {
        SubsequenceOfTail(a[1..], c);
      }
    } else {
      SubsequenceDropHead(a, c[1..]);
      if a[1..] != [] {
        SubsequenceOfTail(a[1..], c);
      }
    }
  }

  /** Filtering a concatenation filters each part in turn: the order of the
      kept elements is the input order. */
  lemma {:induction false} FilterConcat<T(!new)>(a: seq<T>, b: seq<T>, p: T -> bool)
    ensures Filter(a + b, p) == Filter(a, p) + Filter(b, p)
  {
    if a != [] {
      var ab := a + b;
      assert ab[0] == a[0] && ab[1..] == a[1..] + b;
      FilterConcat(a[1..], b, p);
      if p(a[0]) {
        assert Filter(ab, p) == [a[0]] + Filter(a[1..] + b, p);
      } else {
        assert Filter(ab, p) == Filter(a[1..] + b, p);
      }
    } else {
      assert a + b == b;
    }
  }

  /** Two tests that agree on every element select the same elements. */
  lemma {:induction false} FilterCongruent<T(!new)>(xs: seq<T>, p: T -> bool, q: T -> bool)
    requires forall x :: x in xs ==> p(x) == q(x)
    ensures Filter(xs, p) == Filter(xs, q)
  {
    if xs != [] {
      FilterCongruent(xs[1..], p, q);
    }
  }

  /** A filter that keeps everything returns its input. */
  lemma {:induction false} FilterKeepsAll<T(!new)>(xs: seq<T>, p: T -> bool)
    requires forall i :: 0 <= i < |xs| ==> p(xs[i])
    ensures Filter(xs, p) == xs
  {
    if xs != [] {
      FilterKeepsAll(xs[1..], p);
    }
  }

  /** Filtering out every element leaves nothing. */
  lemma {:induction false} FilterKeepsNone<T(!new)>(xs: seq<T>, p: T -> bool)
    requires forall i :: 0 <= i < |xs| ==> !p(xs[i])
    ensures Filter(xs, p) == []
  {
    if xs != [] {
      FilterKeepsNone(xs[1..], p);
    }
  }

  /** Filtering twice with the same test is filtering once. */
  lemma FilterIdempotent<T(!new)>(xs: seq<T>, p: T -> bool)
    ensures Filter(Filter(xs, p), p) == Filter(xs, p)
  {
    FilterKeepsAll(Filter(xs, p), p);
  }

  /** `xs.filter(p).length` */
  function Count<T(!new)>(xs: seq<T>, p: T -> bool): (n: nat)
    ensures n <= |xs|
  {
    |Filter(xs, p)|
  }

  /** Two tests that never hold together count at most `|xs|` elements
      between them. */
  lemma {:induction false} CountExclusive<T(!new)>(xs: seq<T>, p: T -> bool, q: T -> bool)
    requires forall x :: x in xs ==> !(p(x) && q(x))
    ensures Count(xs, p) + Count(xs, q) <= |xs|
  {
    if xs != [] {
      CountExclusive(xs[1..], p, q);
    }
  }

  /** `xs.reduce((sum, x) => sum + f(x), 0)` */
  function Sum<T>(xs: seq<T>, f: T -> int): int
  {
    if xs == [] then 0 else f(xs[0]) + Sum(xs[1..], f)
  }

  /** The sum over a concatenation is the sum of the sums. */
  lemma {:induction false} SumConcat<T>(a: seq<T>, b: seq<T>, f: T -> int)
    ensures Sum(a + b, f) == Sum(a, f) + Sum(b, f)
  {
    if a != [] {
      var ab := a + b;
      assert ab[0] == a[0] && ab[1..] == a[1..] + b;
      SumConcat(a[1..], b, f);
    } else {
      assert a + b == b;
    }
  }

  /** The same sum over real numbers. */
  function SumReal<T>(xs: seq<T>, f: T -> real): real
  {
    if xs == [] then 0.0 else f(xs[0]) + SumReal(xs[1..], f)
  }

  /** The real sum over a concatenation is the sum of the sums. */
  lemma {:induction false} SumRealConcat<T>(a: seq<T>, b: seq<T>, f: T -> real)
    ensures SumReal(a + b, f) == SumReal(a, f) + SumReal(b, f)
  {
    if a != [] {
      var ab := a + b;
      assert ab[0] == a[0] && ab[1..] == a[1..] + b;
      SumRealConcat(a[1..], b, f);
    } else {
      assert a + b == b;
    }
  }

  /** A sum of non-negative terms is non-negative. */
  lemma {:induction false} SumRealNonNegative<T>(xs: seq<T>, f: T -> real)
    requires forall i :: 0 <= i < |xs| ==> f(xs[i]) >= 0.0
    ensures SumReal(xs, f) >= 0.0
  {
    if xs != [] {
      SumRealNonNegative(xs[1..], f);
    }
  }

  /** A sum in which one `NaN` term (here `None`) makes the whole sum `NaN`,
      as `reduce` with `+` does. */
  function SumDefined<T>(xs: seq<T>, f: T -> Option<int>): (r: Option<int>)
    ensures r.Some? <==> forall i :: 0 <= i < |xs| ==> f(xs[i]).Some?
  {
    if xs == [] then Some(0)
    else
      var rest := SumDefined(xs[1..], f);
      if f(xs[0]).None? || rest.None? then None else Some(f(xs[0]).value + rest.value)
  }

  /** When every term is defined, the `NaN`-propagating sum is the plain sum. */
  lemma {:induction false} SumDefinedIsSum<T>(xs: seq<T>, f: T -> Option<int>, g: T -> int)
    requires forall i :: 0 <= i < |xs| ==> f(xs[i]) == Some(g(xs[i]))
    ensures SumDefined(xs, f) == Some(Sum(xs, g))
  {
    if xs != [] {
      SumDefinedIsSum(xs[1..], f, g);
    }
  }

  /** The index `xs.findIndex(p)` returns: the first element satisfying `p`,
      or -1. */
  function FindIndex<T>(xs: seq<T>, p: T -> bool): (i: int)
    ensures -1 <= i < |xs|
    ensures i >= 0 ==> p(xs[i])
    ensures forall j :: 0 <= j < |xs| && (i < 0 || j < i) ==> !p(xs[j])
  {
    if xs == [] then -1
    else if p(xs[0]) then 0
    else
      var k := FindIndex(xs[1..], p);
      if k < 0 then -1 else k + 1
  }

  /** `xs.find(p)`: the first element satisfying `p`, or `undefined`. */
  function Find<T>(xs: seq<T>, p: T -> bool): (r: Option<T>)
    ensures r.None? <==> forall j :: 0 <= j < |xs| ==> !p(xs[j])
    ensures r.Some? ==> r.value in xs && p(r.value)
  {
    var i := FindIndex(xs, p);
    if i < 0 then None else Some(xs[i])
  }

  /** The keys of a sequence of entries, in order. */
  function Keys<E, K>(es: seq<E>, key: E -> K): (ks: seq<K>)
    ensures |ks| == |es|
    ensures forall i :: 0 <= i < |es| ==> ks[i] == key(es[i])
  {
    seq(|es|, i requires 0 <= i < |es| => key(es[i]))
  }

  predicate Distinct<K(==)>(ks: seq<K>) {
    forall i, j :: 0 <= i < j < |ks| ==> ks[i] != ks[j]
  }

  /** Filtering a list without repeats cannot create one. */
  lemma {:induction false} FilterDistinct<T(!new)>(xs: seq<T>, p: T -> bool)
    requires Distinct(xs)
    ensures Distinct(Filter(xs, p))
  {
    if xs != [] {
      var tail := xs[1..];
      assert Distinct(tail) by {
        forall i, j | 0 <= i < j < |tail| ensures tail[i] != tail[j] {
          assert tail[i] == xs[i + 1] && tail[j] == xs[j + 1];
        }
      }
      FilterDistinct(tail, p);
      if p(xs[0]) {
        var r := Filter(tail, p);
        assert xs[0] !in tail by {
          forall k | 0 <= k < |tail| ensures tail[k] != xs[0] {
            assert tail[k] == xs[k + 1];
          }
        }
        assert xs[0] !in r;
        ConsDistinct(xs[0], r);
      }
    }
  }

  /** Putting a new element in front of a list without repeats. */
  lemma ConsDistinct<T>(x: T, r: seq<T>)
    requires Distinct(r) && x !in r
    ensures Distinct([x] + r)
  {
    var s := [x] + r;
    forall i, j | 0 <= i < j < |s| ensures s[i] != s[j] {
      assert s[j] == r[j - 1];
      if i > 0 { assert s[i] == r[i - 1]; }
    }
  }

  /** The keys in order of first occurrence, each once: the reference order in
      which a JavaScript `Map` lists its entries. */
  function FirstOccurrences<K(==,!new)>(ks: seq<K>): (r: seq<K>)
    ensures |r| <= |ks|
    ensures Distinct(r)
    ensures forall k :: k in r <==> k in ks
    decreases |ks|
  {
    if ks == [] then []
    else
      var d := FirstOccurrences(ks[..|ks| - 1]);
      var k := ks[|ks| - 1];
      assert ks == ks[..|ks| - 1] + [k];
      if k in d then d else d + [k]
  }

  /** The last entry whose key is `k`, if any. */
  function LastWithKey<E, K(==)>(es: seq<E>, key: E -> K, k: K): (r: Option<E>)
    ensures r.None? <==> forall i :: 0 <= i < |es| ==> key(es[i]) != k
    ensures r.Some? ==> r.value in es && key(r.value) == k
  {
    if es == [] then None
    else if key(es[|es| - 1]) == k then Some(es[|es| - 1])
    else LastWithKey(es[..|es| - 1], key, k)
  }

  /** `map.set(key(e), e)`: overwrite the entry with the same key in place, or
      append a new one. */
  function Upsert<E, K(==)>(acc: seq<E>, e: E, key: E -> K): (r: seq<E>)
    requires Distinct(Keys(acc, key))
    ensures key(e) in Keys(acc, key) ==> Keys(r, key) == Keys(acc, key)
    ensures key(e) !in Keys(acc, key) ==> Keys(r, key) == Keys(acc, key) + [key(e)]
    ensures forall i :: 0 <= i < |r| ==> if key(r[i]) == key(e) then r[i] == e else r[i] in acc
  {
    if acc == [] then [e]
    else if key(acc[0]) == key(e) then
      assert Keys(acc[1..], key) == Keys(acc, key)[1..];
      [e] + acc[1..]
    else
      assert Keys(acc[1..], key) == Keys(acc, key)[1..];
      var tail := Upsert(acc[1..], e, key);
      assert Keys([acc[0]] + tail, key) == [key(acc[0])] + Keys(tail, key);
      [acc[0]] + tail
  }

  /** `Array.from(new Map(es.map(e => [key(e), e])).values())`: one entry per
      key, listed in the order the keys first occur, each carrying the LAST
      entry given for its key. */
  function MapValues<E, K(==,!new)>(es: seq<E>, key: E -> K): (r: seq<E>)
    ensures Keys(r, key) == FirstOccurrences(Keys(es, key))
    ensures forall i :: 0 <= i < |r| ==> LastWithKey(es, key, key(r[i])) == Some(r[i])
    decreases |es|
  {
    if es == [] then []
    else
      var init := es[..|es| - 1];
      var e := es[|es| - 1];
      var acc := MapValues(init, key);
      assert Keys(init, key) == Keys(es, key)[..|es| - 1];
      var r := Upsert(acc, e, key);
      forall i | 0 <= i < |r|
        ensures LastWithKey(es, key, key(r[i])) == Some(r[i])
      {
        if key(r[i]) != key(e) {
          var j :| 0 <= j < |acc| && acc[j] == r[i];
          assert LastWithKey(init, key, key(acc[j])) == Some(acc[j]);
        }
      }
      r
  }

  /** The entries `MapValues` keeps have pairwise distinct keys, and every key
      given appears among them. */
  lemma MapValuesKeys<E, K(!new)>(es: seq<E>, key: E -> K)
    ensures Distinct(Keys(MapValues(es, key), key))
    ensures forall i :: 0 <= i < |es| ==> key(es[i]) in Keys(MapValues(es, key), key)
  {
    var ks := Keys(es, key);
    forall i | 0 <= i < |es| ensures key(es[i]) in Keys(MapValues(es, key), key) {
      assert ks[i] == key(es[i]);
    }
  }
}

=== FILE: numbers.dfy ===
/** The JavaScript number conversions the components rely on, over ASCII text:
    `parseInt`, `parseFloat`, `Number(...)` and `n.toString()`. `NaN` is
    `None`; numbers are exact (`int` or `real`), so precision beyond 2^53 is
    not modelled. */
module Numbers {
  import opened Optional
  import opened Text

  function DigitValue(c: char): (n: nat)
    requires IsDigit(c)
    ensures n < 10
  {
    c as int - '0' as int
  }

  function DigitChar(n: nat): (c: char)
    requires n < 10
    ensures IsDigit(c) && DigitValue(c) == n
  {
    ('0' as int + n) as char
  }

  /** The value of a string of decimal digits, most significant first. */
  function DigitsValue(s: string): nat
    requires AllDigits(s)
    decreases |s|
  {
    if s == [] then 0 else DigitsValue(s[..|s| - 1]) * 10 + DigitValue(s[|s| - 1])
  }

  lemma AllDigitsConcat(a: string, b: string)
    requires AllDigits(a) && AllDigits(b)
    ensures AllDigits(a + b)
  {
    var ab := a + b;
    forall i | 0 <= i < |ab| ensures IsDigit(ab[i]) {
      if i >= |a| { assert ab[i] == b[i - |a|]; }
    }
  }

  /** Digits written after others shift them left: the value of `a + b` is
      the value of `a` times `10^|b|` plus the value of `b`. */
  lemma {:induction false} DigitsValueConcat(a: string, b: string)
    requires AllDigits(a) && AllDigits(b)
    ensures AllDigits(a + b) && DigitsValue(a + b) == DigitsValue(a) * Pow10(|b|) + DigitsValue(b)
    decreases |b|
  {
    AllDigitsConcat(a, b);
    if b == [] {
      assert a + b == a;
    } else {
      var init := b[..|b| - 1];
      DigitsValueConcat(a, init);
      assert (a + b)[..|a + b| - 1] == a + init;
      assert (a + b)[|a + b| - 1] == b[|b| - 1];
      ShiftStep(DigitsValue(a), Pow10(|init|), DigitsValue(init), DigitValue(b[|b| - 1]));
    }
  }

  lemma ShiftStep(va: int, p: int, vi: int, d: int)
    ensures (va * p + vi) * 10 + d == va * (10 * p) + (vi * 10 + d)
  {
  }

  function Pow10(k: nat): (p: nat)
    ensures p >= 1
  {
    if k == 0 then 1 else 10 * Pow10(k - 1)
  }

  /** The longest prefix of `s` made of decimal digits. */
  function LeadingDigits(s: string): (r: string)
    ensures |r| <= |s| && r == s[..|r|]
    ensures AllDigits(r)
    ensures |r| < |s| ==> !IsDigit(s[|r|])
  {
    if s != [] && IsDigit(s[0]) then [s[0]] + LeadingDigits(s[1..]) else []
  }

  predicate IsHexDigit(c: char) {
    IsDigit(c) || 'a' <= c <= 'f' || 'A' <= c <= 'F'
  }

  function HexDigitValue(c: char): (n: nat)
    requires IsHexDigit(c)
    ensures n < 16
  {
    if IsDigit(c) then DigitValue(c)
    else if 'a' <= c <= 'f' then c as int - 'a' as int + 10
    else c as int - 'A' as int + 10
  }

  function HexValue(s: string): nat
    requires forall i :: 0 <= i < |s| ==> IsHexDigit(s[i])
    decreases |s|
  {
    if s == [] then 0 else HexValue(s[..|s| - 1]) * 16 + HexDigitValue(s[|s| - 1])
  }

  /** The longest prefix of `s` made of hexadecimal digits. */
  function LeadingHexDigits(s: string): (r: string)
    ensures |r| <= |s| && r == s[..|r|]
    ensures forall i :: 0 <= i < |r| ==> IsHexDigit(r[i])
  {
    if s != [] && IsHexDigit(s[0]) then [s[0]] + LeadingHexDigits(s[1..]) else []
  }

  predicate HasSign(t: string) {
    t != [] && (t[0] == '-' || t[0] == '+')
  }

  function Unsigned(t: string): string {
    if HasSign(t) then t[1..] else t
  }

  predicate HexPrefixed(u: string) {
    |u| >= 2 && u[0] == '0' && (u[1] == 'x' || u[1] == 'X')
  }

  /** `parseInt(s)` without a radix: leading white space is skipped, one sign
      is read, a `0x` prefix selects base 16, and then the longest run of
      digits is read; no digit at all gives `NaN`. */
  function ParseInt(s: string): (r: Option<int>)
  {
    ParseTrimmed(TrimStart(s))
  }

  /** `parseInt` once the leading white space is gone. */
  function ParseTrimmed(t: string): Option<int>
  {
    var negative := t != [] && t[0] == '-';
    var u := Unsigned(t);
    if HexPrefixed(u) then
      var h := LeadingHexDigits(u[2..]);
      if h == [] then None
      else
        var v: int := HexValue(h);
        Some(if negative then -v else v)
    else
      var d := LeadingDigits(u);
      if d == [] then None
      else
        var v: int := DigitsValue(d);
        Some(if negative then -v else v)
  }

  /** `parseFloat` of `whole.frac` followed by anything that does not
      continue the fraction reads `whole + frac / 10^|frac|` and ignores the
      rest: a second `.` ends the number. */
  lemma ParseFloatOfDecimal(whole: string, frac: string, rest: string)
    requires whole != [] && AllDigits(whole) && AllDigits(frac)
    requires rest == [] || !IsDigit(rest[0])
    ensures ParseFloat(whole + "." + frac + rest) == Some(DecimalValue(whole, frac))
  {
    var s := whole + "." + frac + rest;
    TrimStartOfDigit(s);
    ScanOfDecimal(whole, frac, rest);
  }

  lemma TrimStartOfDigit(s: string)
    requires s != [] && IsDigit(s[0])
    ensures TrimStart(s) == s
  {
  }

  lemma ScanOfDecimal(whole: string, frac: string, rest: string)
    requires whole != [] && AllDigits(whole) && AllDigits(frac)
    requires rest == [] || !IsDigit(rest[0])
    ensures var d := ScanDecimal(whole + "." + frac + rest);
            !d.negative && d.whole == whole && d.frac == frac
  {
    var s := whole + "." + frac + rest;
    var tail := "." + frac + rest;
    assert s == whole + tail;
    assert !HasSign(s);
    LeadingDigitsStop(whole, tail);
    assert s[|whole|..] == tail;
    assert tail[1..] == frac + rest;
    LeadingDigitsStop(frac, rest);
  }

  /** A string with no decimal digit parses to `NaN`. */
  lemma ParseIntNeedsDigit(s: string)
    requires forall i :: 0 <= i < |s| ==> !IsDigit(s[i])
    ensures ParseInt(s) == None
  {
    var t := TrimStart(s);
    assert forall i :: 0 <= i < |t| ==> !IsDigit(t[i]) by {
      assert forall i :: 0 <= i < |t| ==> t[i] == s[|s| - |t| + i];
    }
    var u := Unsigned(t);
    assert forall i :: 0 <= i < |u| ==> !IsDigit(u[i]);
    assert !HexPrefixed(u) && LeadingDigits(u) == [] by {
      if u != [] {
        assert !IsDigit(u[0]);
      }
    }
  }

  /** A non-empty string of digits parses to the number it spells. */
  lemma ParseIntOfDigits(s: string)
    requires s != [] && AllDigits(s) && !HexPrefixed(s)
    ensures ParseInt(s) == Some(DigitsValue(s))
  {
    assert TrimStart(s) == s;
    LeadingDigitsOfDigits(s);
  }

  /** `parseInt` reads the digits at the start and ignores whatever follows
      the first non-digit: "12abc" reads 12. */
  lemma ParseIntReadsLeadingDigits(w: string, rest: string)
    requires w != [] && AllDigits(w) && (rest == [] || !IsDigit(rest[0]))
    requires !HexPrefixed(w + rest)
    ensures ParseInt(w + rest) == Some(DigitsValue(w))
  {
    var s := w + rest;
    assert s[0] == w[0];
    TrimStartOfDigit(s);
    assert Unsigned(s) == s;
    LeadingDigitsStop(w, rest);
  }

  /** A leading minus sign negates the digits that follow it. */
  lemma ParseIntOfNegative(w: string)
    requires w != [] && AllDigits(w) && !HexPrefixed(w)
    ensures ParseInt("-" + w) == Some(-(DigitsValue(w) as int))
  {
    var s := "-" + w;
    assert TrimStart(s) == s;
    assert Unsigned(s) == w;
    LeadingDigitsOfDigits(w);
  }

  /** Leading white space is skipped. */
  lemma ParseIntSkipsSpace(s: string)
    ensures ParseInt(" " + s) == ParseInt(s)
  {
    assert (" " + s)[1..] == s;
    assert TrimStart(" " + s) == TrimStart(s);
    assert ParseInt(" " + s) == ParseTrimmed(TrimStart(" " + s));
  }

  lemma {:induction false} LeadingHexDigitsOfHex(h: string)
    requires forall i :: 0 <= i < |h| ==> IsHexDigit(h[i])
    ensures LeadingHexDigits(h) == h
  {
    if h != [] {
      LeadingHexDigitsOfHex(h[1..]);
    }
  }

  /** Without a radix, a `0x` prefix switches to base 16: "0x1A" reads 26. */
  lemma ParseIntOfHex(h: string)
    requires h != [] && forall i :: 0 <= i < |h| ==> IsHexDigit(h[i])
    ensures ParseInt("0x" + h) == Some(HexValue(h))
  {
    var s := "0x" + h;
    assert s[0] == '0' && s[1] == 'x' && s[2..] == h;
    assert TrimStart(s) == s by {
      assert !IsSpace(s[0]);
    }
    assert Unsigned(s) == s && HexPrefixed(s);
    assert LeadingHexDigits(h) == h by {
      LeadingHexDigitsOfHex(h);
    }
  }

  /** `ParseIntOfDigits` with the value named by the caller. */
  lemma ParseIntOfValue(s: string, v: int)
    requires s != [] && AllDigits(s) && !HexPrefixed(s) && DigitsValue(s) == v
    ensures ParseInt(s) == Some(v)
  {
    ParseIntOfDigits(s);
  }

  lemma {:induction false} LeadingDigitsOfDigits(s: string)
    requires AllDigits(s)
    ensures LeadingDigits(s) == s
  {
    if s != [] {
      LeadingDigitsOfDigits(s[1..]);
    }
  }

  /** The digit run stops at the first character that is not a digit. */
  lemma {:induction false} LeadingDigitsStop(w: string, rest: string)
    requires AllDigits(w)
    requires rest == [] || !IsDigit(rest[0])
    ensures LeadingDigits(w + rest) == w
  {
    if w == [] {
      assert w + rest == rest;
    } else {
      assert (w + rest)[1..] == w[1..] + rest;
      LeadingDigitsStop(w[1..], rest);
    }
  }

  /** `n.toString()` for a natural number. */
  function NatToString(n: nat): (s: string)
    ensures s != [] && AllDigits(s)
    ensures s[0] == '0' ==> n == 0 && |s| == 1
  {
    if n < 10 then [DigitChar(n)] else NatToString(n / 10) + [DigitChar(n % 10)]
  }

  /** `n.toString()` for an integer. */
  function IntToString(n: int): string {
    if n < 0 then "-" + NatToString(-n) else NatToString(n)
  }

  /** Reading the digits `toString` writes gives back the number. */
  lemma {:induction false} DigitsValueOfNatToString(n: nat)
    ensures DigitsValue(NatToString(n)) == n
  {
    if n >= 10 {
      var s := NatToString(n);
      DigitsValueOfNatToString(n / 10);
      assert s[..|s| - 1] == NatToString(n / 10);
    }
  }

  /** `parseInt(n.toString()) === n` for every integer. */
  lemma ParseIntOfIntToString(n: int)
    ensures ParseInt(IntToString(n)) == Some(n)
  {
    var m := if n < 0 then -n else n;
    var digits := NatToString(m);
    DigitsValueOfNatToString(m);
    assert !HexPrefixed(digits) by {
      if |digits| >= 2 { assert IsDigit(digits[1]); }
    }
    if n < 0 {
      ParseIntOfNegative(digits);
    } else {
      ParseIntOfDigits(digits);
    }
  }

  /** The decimal literal at the start of a string: a sign, digits, and an
      optional fraction, with the number of characters it spans. */
  datatype Scan = Scan(negative: bool, whole: string, frac: string, length: nat)
  {
    predicate HasDigits() {
      whole != [] || frac != []
    }
  }

  function ScanDecimal(t: string): (d: Scan)
    ensures AllDigits(d.whole) && AllDigits(d.frac)
    ensures d.length <= |t|
    ensures d.negative ==> t != [] && t[0] == '-'
  {
    var u := Unsigned(t);
    var w := LeadingDigits(u);
    var rest := u[|w|..];
    var dot := rest != [] && rest[0] == '.';
    var f := if dot then LeadingDigits(rest[1..]) else [];
    Scan(t != [] && t[0] == '-', w, f,
         (if HasSign(t) then 1 else 0) + |w| + (if dot then 1 + |f| else 0))
  }

  /** The value of the decimal numeral `whole.frac`. */
  function DecimalValue(whole: string, frac: string): real
    requires AllDigits(whole) && AllDigits(frac)
  {
    DigitsValue(whole) as real + DigitsValue(frac) as real / Pow10(|frac|) as real
  }

  function ScanValue(d: Scan): real
    requires AllDigits(d.whole) && AllDigits(d.frac)
  {
    var magnitude := DecimalValue(d.whole, d.frac);
    if d.negative then -magnitude else magnitude
  }

  /** `parseFloat(s)` on text without letters (the callers remove them first,
      so exponents and `Infinity` cannot occur): the longest decimal literal
      at the start, or `NaN` when it holds no digit. */
  function ParseFloat(s: string): (r: Option<real>)
  {
    var d := ScanDecimal(TrimStart(s));
    if d.HasDigits() then Some(ScanValue(d)) else None
  }

  /** A string with no decimal digit parses to `NaN`. */
  lemma ParseFloatNeedsDigit(s: string)
    requires forall i :: 0 <= i < |s| ==> !IsDigit(s[i])
    ensures ParseFloat(s) == None
  {
    var t := TrimStart(s);
    assert forall i :: 0 <= i < |t| ==> t[i] == s[|s| - |t| + i];
    var u := Unsigned(t);
    assert forall i :: 0 <= i < |u| ==> !IsDigit(u[i]);
    var w := LeadingDigits(u);
    var rest := u[|w|..];
    if rest != [] && rest[0] == '.' {
      assert forall i :: 0 <= i < |rest[1..]| ==> !IsDigit(rest[1..][i]);
    }
  }

  /** A string of digits, without sign or fraction, denotes its digits' value. */
  lemma ParseFloatOfDigits(s: string)
    requires s != [] && AllDigits(s)
    ensures ParseFloat(s) == Some(DigitsValue(s) as real)
  {
    assert IsDigit(s[0]);
    assert TrimStart(s) == s;
    ScanOfDigits(s);
    var d := Scan(false, s, [], |s|);
    assert d.HasDigits();
    assert DecimalValue(s, []) == DigitsValue(s) as real by {
      assert DigitsValue([]) == 0 && Pow10(0) == 1;
    }
  }

  /** The decimal literal at the start of a string of digits is all of it. */
  lemma ScanOfDigits(s: string)
    requires s != [] && AllDigits(s)
    ensures ScanDecimal(s) == Scan(false, s, [], |s|)
  {
    assert !HasSign(s);
    assert Unsigned(s) == s;
    LeadingDigitsOfDigits(s);
    assert s[|s|..] == [];
  }

  /** `Number(s)` for a string: surrounding white space is ignored, the empty
      string is 0, and otherwise the whole text must be one decimal literal. */
  function JsNumber(s: string): (r: Option<real>)
    ensures Trim(s) == [] ==> r == Some(0.0)
  {
    var t := Trim(s);
    if t == [] then Some(0.0)
    else
      var d := ScanDecimal(t);
      if d.HasDigits() && d.length == |t| then Some(ScanValue(d)) else None
  }

  /** A string of digits converts to its digits' value. */
  lemma JsNumberOfDigits(s: string)
    requires s != [] && AllDigits(s)
    ensures JsNumber(s) == Some(DigitsValue(s) as real)
  {
    TrimOfDigits(s);
    ScanOfDigits(s);
  }

  /** The optional sign in front of a numeral. */
  predicate IsSignText(sign: string) {
    sign == "" || sign == "-" || sign == "+"
  }

  /** The value of the numeral `sign whole.frac`. */
  function SignedDecimal(sign: string, whole: string, frac: string): real
    requires AllDigits(whole) && AllDigits(frac)
  {
    if sign == "-" then -DecimalValue(whole, frac) else DecimalValue(whole, frac)
  }

  /** A sign in front of `u` is skipped, and only a minus makes it negative. */
  lemma UnsignedOfSigned(sign: string, u: string)
    requires IsSignText(sign)
    requires sign == "" ==> u == [] || (u[0] != '-' && u[0] != '+')
    ensures Unsigned(sign + u) == u
    ensures HasSign(sign + u) <==> sign != ""
    ensures (sign + u != [] && (sign + u)[0] == '-') <==> sign == "-"
  {
    if sign == "" {
      assert sign + u == u;
    } else {
      assert (sign + u)[0] == sign[0];
      assert (sign + u)[1..] == u;
    }
  }

  /** `ScanDecimal` assembled from its parts when a dot follows the digits. */
  lemma ScanWithFraction(t: string, whole: string, frac: string)
    requires LeadingDigits(Unsigned(t)) == whole
    requires |Unsigned(t)| > |whole| && Unsigned(t)[|whole|] == '.'
    requires LeadingDigits(Unsigned(t)[|whole| + 1..]) == frac
    ensures ScanDecimal(t) == Scan(t != [] && t[0] == '-', whole, frac, (if HasSign(t) then 1 else 0) + |whole| + 1 + |frac|)
  {
    var rest := Unsigned(t)[|whole|..];
    assert rest[1..] == Unsigned(t)[|whole| + 1..];
  }

  /** `ScanDecimal` assembled from its parts when no dot follows the digits. */
  lemma ScanWithoutFraction(t: string, whole: string)
    requires LeadingDigits(Unsigned(t)) == whole
    requires |Unsigned(t)| == |whole| || Unsigned(t)[|whole|] != '.'
    ensures ScanDecimal(t) == Scan(t != [] && t[0] == '-', whole, [], (if HasSign(t) then 1 else 0) + |whole|)
  {
  }

  /** The digits, the dot and the fraction digits of an unsigned numeral. */
  lemma UnsignedDecimalParts(whole: string, frac: string, rest: string)
    requires AllDigits(whole) && AllDigits(frac)
    requires rest == [] || !IsDigit(rest[0])
    ensures var u := whole + "." + frac + rest;
            && LeadingDigits(u) == whole
            && |u| > |whole| && u[|whole|] == '.'
            && LeadingDigits(u[|whole| + 1..]) == frac
  {
    var tail := "." + frac + rest;
    assert whole + "." + frac + rest == whole + tail;
    LeadingDigitsStop(whole, tail);
    assert (whole + tail)[|whole| + 1..] == frac + rest;
    LeadingDigitsStop(frac, rest);
  }

  /** How `ScanDecimal` sees a signed `whole.frac` numeral: the sign, the
      digits before the dot, the dot, and the digits after it. */
  lemma SignedDecimalParts(sign: string, whole: string, frac: string, rest: string)
    requires IsSignText(sign) && AllDigits(whole) && AllDigits(frac)
    requires rest == [] || !IsDigit(rest[0])
    ensures var t := sign + whole + "." + frac + rest;
            && LeadingDigits(Unsigned(t)) == whole
            && |Unsigned(t)| > |whole| && Unsigned(t)[|whole|] == '.'
            && LeadingDigits(Unsigned(t)[|whole| + 1..]) == frac
            && (HasSign(t) <==> sign != "")
            && ((t != [] && t[0] == '-') <==> sign == "-")
  {
    var u := whole + "." + frac + rest;
    var t := sign + whole + "." + frac + rest;
    assert t == sign + u;
    assert u[0] == '.' || IsDigit(u[0]);
    UnsignedOfSigned(sign, u);
    UnsignedDecimalParts(whole, frac, rest);
  }

  /** The scan of a signed `whole.frac` numeral stops where the fraction's
      digits end. */
  lemma ScanOfSignedDecimal(sign: string, whole: string, frac: string, rest: string)
    requires IsSignText(sign) && AllDigits(whole) && AllDigits(frac)
    requires rest == [] || !IsDigit(rest[0])
    ensures ScanDecimal(sign + whole + "." + frac + rest)
         == Scan(sign == "-", whole, frac, |sign| + |whole| + 1 + |frac|)
  {
    var t := sign + whole + "." + frac + rest;
    SignedDecimalParts(sign, whole, frac, rest);
    ScanWithFraction(t, whole, frac);
  }

  /** How `ScanDecimal` sees a signed digit string followed by text that is
      neither a digit nor a dot. */
  lemma SignedIntegerParts(sign: string, whole: string, rest: string)
    requires IsSignText(sign) && whole != [] && AllDigits(whole)
    requires rest == [] || (!IsDigit(rest[0]) && rest[0] != '.')
    ensures var t := sign + whole + rest;
            && LeadingDigits(Unsigned(t)) == whole
            && (|Unsigned(t)| == |whole| || Unsigned(t)[|whole|] != '.')
            && (HasSign(t) <==> sign != "")
            && ((t != [] && t[0] == '-') <==> sign == "-")
  {
    var u := whole + rest;
    var t := sign + whole + rest;
    assert t == sign + u;
    assert IsDigit(u[0]);
    UnsignedOfSigned(sign, u);
    LeadingDigitsStop(whole, rest);
    assert u[|whole|..] == rest;
  }

  /** The scan of a signed numeral without a fraction. */
  lemma ScanOfSignedInteger(sign: string, whole: string, rest: string)
    requires IsSignText(sign) && whole != [] && AllDigits(whole)
    requires rest == [] || (!IsDigit(rest[0]) && rest[0] != '.')
    ensures ScanDecimal(sign + whole + rest) == Scan(sign == "-", whole, [], |sign| + |whole|)
  {
    var t := sign + whole + rest;
    SignedIntegerParts(sign, whole, rest);
    ScanWithoutFraction(t, whole);
  }

  /** A numeral starts with a sign, a digit or a dot, none of them white space. */
  lemma NumeralEnds(sign: string, body: string)
    requires IsSignText(sign) && body != []
    requires IsDigit(body[0]) || body[0] == '.'
    requires !IsSpace(body[|body| - 1])
    ensures var core := sign + body;
            core != [] && !IsSpace(core[0]) && !IsSpace(core[|core| - 1])
  {
    var core := sign + body;
    assert core[|core| - 1] == body[|body| - 1];
    if sign == "" { assert core[0] == body[0]; } else { assert core[0] == sign[0]; }
  }

  /** `Number` is the scanned value exactly when the scan covers the whole
      trimmed text. */
  lemma JsNumberOfNumeral(s: string)
    requires Trim(s) != []
    ensures var d := ScanDecimal(Trim(s));
            JsNumber(s) == if d.HasDigits() && d.length == |Trim(s)| then Some(ScanValue(d)) else None
  {
  }

  /** `Number` of a text whose trimmed form scans completely is the scanned
      value. */
  lemma JsNumberOfScan(s: string, t: string, negative: bool, whole: string, frac: string)
    requires Trim(s) == t && t != []
    requires AllDigits(whole) && AllDigits(frac) && (whole != [] || frac != [])
    requires ScanDecimal(t) == Scan(negative, whole, frac, |t|)
    ensures JsNumber(s) == Some(ScanValue(Scan(negative, whole, frac, |t|)))
  {
    JsNumberOfNumeral(s);
  }

  /** `Number` of a text whose trimmed form scans completely as a signed
      numeral is that numeral's value. */
  lemma JsNumberOfSignedScan(s: string, t: string, sign: string, whole: string, frac: string)
    requires Trim(s) == t && t != []
    requires AllDigits(whole) && AllDigits(frac) && (whole != [] || frac != [])
    requires ScanDecimal(t) == Scan(sign == "-", whole, frac, |t|)
    ensures JsNumber(s) == Some(SignedDecimal(sign, whole, frac))
  {
    JsNumberOfScan(s, t, sign == "-", whole, frac);
    ScanValueSigned(sign, whole, frac, |t|);
  }

  /** The scanned value of a signed numeral is its signed decimal value. */
  lemma ScanValueSigned(sign: string, whole: string, frac: string, length: nat)
    requires AllDigits(whole) && AllDigits(frac)
    ensures ScanValue(Scan(sign == "-", whole, frac, length)) == SignedDecimal(sign, whole, frac)
  {
  }

  /** A numeral without a fraction is worth its digits. */
  lemma WholeDecimalValue(whole: string)
    requires AllDigits(whole)
    ensures DecimalValue(whole, []) == DigitsValue(whole) as real
  {
    assert DigitsValue([]) == 0 && Pow10(0) == 1;
  }

  /** Regrouping a numeral followed by other text. */
  lemma SplitRest(pre: string, sign: string, whole: string, rest: string)
    ensures pre + sign + (whole + rest) + [] == pre + sign + whole + rest
    ensures sign + (whole + rest) == sign + whole + rest
  {
  }

  /** A signed numeral without a fraction is worth its digits, negated
      after a minus. */
  lemma SignedWholeValue(sign: string, whole: string)
    requires AllDigits(whole)
    ensures SignedDecimal(sign, whole, []) == if sign == "-" then -(DigitsValue(whole) as real) else DigitsValue(whole) as real
  {
    WholeDecimalValue(whole);
  }

  /** Regrouping a `whole.frac` numeral followed by other text. */
  lemma SplitFractionRest(pre: string, sign: string, whole: string, frac: string, rest: string)
    ensures pre + sign + whole + "." + (frac + rest) + [] == pre + sign + whole + "." + frac + rest
    ensures sign + whole + "." + (frac + rest) == sign + whole + "." + frac + rest
  {
  }

  /** Regrouping a padded `whole.frac` numeral around its core. */
  lemma RegroupDecimal(pre: string, sign: string, whole: string, frac: string, post: string)
    ensures pre + sign + whole + "." + frac + post == pre + (sign + (whole + "." + frac)) + post
    ensures sign + (whole + "." + frac) == sign + whole + "." + frac
  {
  }

  /** Trimming the padding around a signed `whole.frac` text leaves the text. */
  lemma TrimOfPaddedDecimal(pre: string, sign: string, whole: string, frac: string, post: string)
    requires AllSpace(pre) && AllSpace(post) && IsSignText(sign)
    requires whole == [] || IsDigit(whole[0])
    requires frac == [] || !IsSpace(frac[|frac| - 1])
    ensures Trim(pre + sign + whole + "." + frac + post) == sign + whole + "." + frac
  {
    var body := whole + "." + frac;
    var core := sign + body;
    RegroupDecimal(pre, sign, whole, frac, post);
    assert !IsSpace(core[0]) && !IsSpace(core[|core| - 1]) by {
      assert body[0] == '.' || IsDigit(body[0]);
      assert body[|body| - 1] == '.' || body[|body| - 1] == frac[|frac| - 1];
      NumeralEnds(sign, body);
    }
    TrimOfPadded(pre, core, post);
  }

  /** Trimming the padding around a signed text that starts with a digit
      leaves the text. */
  lemma TrimOfPaddedInteger(pre: string, sign: string, body: string, post: string)
    requires AllSpace(pre) && AllSpace(post) && IsSignText(sign)
    requires body != [] && IsDigit(body[0]) && !IsSpace(body[|body| - 1])
    ensures Trim(pre + sign + body + post) == sign + body
  {
    var core := sign + body;
    assert pre + sign + body + post == pre + core + post;
    NumeralEnds(sign, body);
    TrimOfPadded(pre, core, post);
  }

  /** `Number` of a padded, optionally signed `whole.frac` numeral (either
      side of the dot may be empty, not both) is its value: " -12.5 " is
      -12.5 and "150000.00" is 150000. */
  lemma JsNumberOfDecimal(pre: string, sign: string, whole: string, frac: string, post: string)
    requires AllSpace(pre) && AllSpace(post) && IsSignText(sign)
    requires AllDigits(whole) && AllDigits(frac) && (whole != [] || frac != [])
    ensures JsNumber(pre + sign + whole + "." + frac + post) == Some(SignedDecimal(sign, whole, frac))
  {
    var t := sign + whole + "." + frac;
    assert Trim(pre + sign + whole + "." + frac + post) == t by {
      TrimOfPaddedDecimal(pre, sign, whole, frac, post);
    }
    assert ScanDecimal(t) == Scan(sign == "-", whole, frac, |t|) by {
      assert t + [] == t;
      ScanOfSignedDecimal(sign, whole, frac, []);
    }
    JsNumberOfSignedScan(pre + sign + whole + "." + frac + post, t, sign, whole, frac);
  }

  /** `Number` of a padded, optionally signed digit string is its value. */
  lemma JsNumberOfInteger(pre: string, sign: string, whole: string, post: string)
    requires AllSpace(pre) && AllSpace(post) && IsSignText(sign)
    requires whole != [] && AllDigits(whole)
    ensures JsNumber(pre + sign + whole + post) == Some(SignedDecimal(sign, whole, []))
    ensures SignedDecimal(sign, whole, []) == if sign == "-" then -(DigitsValue(whole) as real) else DigitsValue(whole) as real
  {
    var t := sign + whole;
    assert Trim(pre + sign + whole + post) == t by {
      TrimOfPaddedInteger(pre, sign, whole, post);
    }
    assert ScanDecimal(t) == Scan(sign == "-", whole, [], |t|) by {
      assert t + [] == t;
      ScanOfSignedInteger(sign, whole, []);
    }
    JsNumberOfSignedScan(pre + sign + whole + post, t, sign, whole, []);
    SignedWholeValue(sign, whole);
  }

  /** Text after a `whole.frac` numeral that does not continue it (a digit
      would, and so would an exponent `e`/`E`) makes `Number` give `NaN`:
      "150.000 IDR" and "1.250.000" are both `NaN`. */
  lemma JsNumberRejectsTextAfterDecimal(pre: string, sign: string, whole: string, frac: string, rest: string)
    requires AllSpace(pre) && IsSignText(sign) && AllDigits(whole) && AllDigits(frac)
    requires rest != [] && !IsDigit(rest[0]) && rest[0] != 'e' && rest[0] != 'E'
    requires !IsSpace(rest[|rest| - 1])
    ensures JsNumber(pre + sign + whole + "." + frac + rest) == None
  {
    var s := pre + sign + whole + "." + frac + rest;
    var t := sign + whole + "." + frac + rest;
    assert Trim(s) == t by {
      TrimOfPaddedDecimal(pre, sign, whole, frac + rest, []);
      SplitFractionRest(pre, sign, whole, frac, rest);
    }
    assert ScanDecimal(t).length < |t| by {
      ScanOfSignedDecimal(sign, whole, frac, rest);
    }
    JsNumberOfNumeral(s);
  }

  /** Text after a digit string that does not continue the numeral (a digit,
      a dot, an exponent or a `0x`/`0b`/`0o` prefix letter would) makes
      `Number` give `NaN`: "500000,-" is `NaN`. */
  lemma JsNumberRejectsTextAfterInteger(pre: string, sign: string, whole: string, rest: string)
    requires AllSpace(pre) && IsSignText(sign) && whole != [] && AllDigits(whole)
    requires rest != [] && !IsDigit(rest[0]) && rest[0] !in ".eExXbBoO"
    requires !IsSpace(rest[|rest| - 1])
    ensures JsNumber(pre + sign + whole + rest) == None
  {
    var s := pre + sign + whole + rest;
    var t := sign + whole + rest;
    assert Trim(s) == t by {
      TrimOfPaddedInteger(pre, sign, whole + rest, []);
      SplitRest(pre, sign, whole, rest);
    }
    assert ScanDecimal(t).length < |t| by {
      ScanOfSignedInteger(sign, whole, rest);
    }
    JsNumberOfNumeral(s);
  }

  /** `parseInt` of digits followed by a letter reads the digits. */
  lemma ParseIntStopsAtLetter(w: string)
    requires w != [] && AllDigits(w)
    ensures ParseInt(w + "a") == Some(DigitsValue(w))
  {
    assert !HexPrefixed(w + "a") by {
      var s := w + "a";
      if |s| >= 2 {
        assert s[1] == 'a' || IsDigit(s[1]);
      }
    }
    ParseIntReadsLeadingDigits(w, "a");
  }

  /** No padding and no sign around a text leave it as it is. */
  lemma Unpadded(w: string, rest: string)
    ensures "" + "" + w + rest == w + rest
  {
  }

  /** `Number` needs the whole text to be a numeral where `parseInt` stops
      at the first stray character: "500000a" converts to `NaN` but parses
      to 500000. */
  lemma JsNumberRejectsTrailingText(w: string)
    requires w != [] && AllDigits(w)
    ensures JsNumber(w + "a") == None
    ensures ParseInt(w + "a") == Some(DigitsValue(w))
  {
    JsNumberRejectsTextAfterInteger("", "", w, "a");
    Unpadded(w, "a");
    ParseIntStopsAtLetter(w);
  }

  lemma TrimOfDigits(s: string)
    requires s != [] && AllDigits(s)
    ensures Trim(s) == s
  {
    assert TrimStart(s) == s;
    assert TrimEnd(s) == s;
  }

  /** `Math.round(total / count)`: halves round up. A count of 0 gives `NaN`
      (`None`); that is JavaScript's `0 / 0`, and every caller reaches a count
      of 0 only with a total of 0 (a non-zero total over 0 would be an
      infinity, which is not modelled). */
  function RoundedQuotient(total: int, count: nat): (r: Option<int>)
    ensures r.None? <==> count == 0
    ensures r.Some? ==> 2 * count * r.value <= 2 * total + count < 2 * count * (r.value + 1)
  {
    if count == 0 then None
    else
      var q := (2 * total + count) / (2 * count);
      assert 2 * count * q <= 2 * total + count < 2 * count * (q + 1) by {
        var m := (2 * total + count) % (2 * count);
        assert 2 * total + count == 2 * count * q + m && 0 <= m < 2 * count;
      }
      Some(q)
  }
}

=== FILE: optional.dfy ===
/** JavaScript's `null` and `undefined`, as the components meet them. */
module Optional {

  /** A value that may be absent. The components treat `null` and `undefined`
      alike almost everywhere, so both become `None`. */
  datatype Option<+T> = None | Some(value: T) {

    /** `x ?? d` */
    function GetOr(default: T): T {
      match this
      case Some(v) => v
      case None => default
    }
  }

  /** A fetched JSON field where `null` and `undefined` must be told apart,
      because the code compares with `!== null`. */
  datatype Nullable<+T> = Null | Undefined | Present(value: T)

  /** JavaScript truthiness of an optional string: present and non-empty. */
  predicate Truthy(s: Option<string>) {
    s.Some? && s.value != ""
  }

  /** `s || d` on an optional string. */
  function OrElse(s: Option<string>, default: string): (r: string)
    ensures Truthy(s) ==> r == s.value
    ensures !Truthy(s) ==> r == default
  {
    if Truthy(s) then s.value else default
  }
}

=== FILE: palette.dfy ===
/** The colour classes the components attach to badges. Each class string is
    an opaque token here; only which token is chosen matters. */
module Palette {
  datatype Tone = Emerald | Red | Yellow | Blue | Purple | Gray

  /** The claim categories that have a colour of their own. */
  const KnownCategories: set<string> := {"Medis", "Pembelian Barang", "Perjalanan Dinas"}

  /** `getCategoryColor`, identical in every component that badges a
      category: an exact match on the category name, gray otherwise. */
  function CategoryTone(category: string): (t: Tone)
    ensures t == Gray <==> category !in KnownCategories
    ensures t != Red && t != Yellow
  {
    match category
    case "Medis" => Emerald
    case "Pembelian Barang" => Blue
    case "Perjalanan Dinas" => Purple
    case _ => Gray
  }

  /** Different known categories never share a colour. */
  lemma CategoryTonesDistinct(a: string, b: string)
    requires a in KnownCategories && b in KnownCategories && a != b
    ensures CategoryTone(a) != CategoryTone(b)
  {
  }
}

=== FILE: payment_card.dfy ===
/** The payment card: the same exact-match status labels as the claim card,
    and a `-` or `?` fallback for every field a payment may lack. */
module PaymentCard {
  import opened Optional
  import opened Text
  import opened Palette
  import opened Amounts
  import Lists
  import ClaimCard

  /** `getStatusText`: the four known keys get their Indonesian label, any
      other value is shown as it is. */
  function StatusText(status: string): (r: string)
    ensures status == "approved" ==> r == "Disetujui"
    ensures status == "rejected" ==> r == "Ditolak"
    ensures status == "pending" ==> r == "Pending"
    ensures status == "paid" ==> r == "Dibayar"
    ensures status !in ClaimCard.KnownStatuses ==> r == status
  {
    match status
    case "approved" => "Disetujui"
    case "rejected" => "Ditolak"
    case "pending" => "Pending"
    case "paid" => "Dibayar"
    case _ => status
  }

  /** The payment card and the claim card label every status identically;
      the badge colour table (`getStatusColor`) is the claim card's own,
      class for class, so it is `ClaimCard.StatusColor`. */
  lemma SameBadgesAsClaimCard(status: string)
    ensures StatusText(status) == ClaimCard.StatusText(status)
  {
  }

  /** The claim embedded in a payment; every field may be missing. */
  datatype PaymentClaim = PaymentClaim(
    id: Option<string>,
    employeeName: Option<string>,
    amount: Option<string>,
    description: Option<string>,
    category: Option<string>,
    status: Option<string>,
    submissionDate: Option<string>,
    approvalDate: Option<string>,
    reviewDate: Option<string>,
    nik: Option<string>,
    notes: Option<string>,
    reviewedBy: Option<string>)

  datatype Payment = Payment(
    id: string,
    note: Option<string>,
    proof: Option<string>,
    bank: Option<string>,
    createdAt: string,
    userId: string,
    claim: Option<PaymentClaim>)

  datatype Badge = Badge(caption: string, tone: Tone)

  datatype PaymentView = PaymentView(
    initials: string,
    name: string,
    categoryBadge: Option<Badge>,
    statusBadge: Option<Badge>,
    claimId: Option<string>,
    amount: Shown,
    reviewer: string,
    description: string,
    notes: Option<string>,
    bank: string,
    note: string,
    nik: string,
    date: string)

  /** `a || b || ... || fallback` over optional strings: the first present,
      non-empty candidate. */
  function FirstTruthy(candidates: seq<Option<string>>, fallback: string): (r: string)
    ensures (forall i :: 0 <= i < |candidates| ==> !Truthy(candidates[i])) ==> r == fallback
    ensures forall i :: (0 <= i < |candidates| && Truthy(candidates[i])
                         && forall j :: 0 <= j < i ==> !Truthy(candidates[j])) ==> r == candidates[i].value
  {
    var i := Lists.FindIndex(candidates, Truthy);
    if i < 0 then fallback else candidates[i].value
  }

  /** The text fields of the embedded claim the card reads. */
  datatype ClaimText = Id | EmployeeName | Category | Status | Description | Nik | Notes | ReviewedBy
                     | ApprovalDate | ReviewDate | SubmissionDate

  /** Optional chaining `claim?.field`. */
  function Field(claim: Option<PaymentClaim>, f: ClaimText): (r: Option<string>)
    ensures claim.None? ==> r.None?
  {
    if claim.None? then None
    else
      var c := claim.value;
      match f
      case Id => c.id
      case EmployeeName => c.employeeName
      case Category => c.category
      case Status => c.status
      case Description => c.description
      case Nik => c.nik
      case Notes => c.notes
      case ReviewedBy => c.reviewedBy
      case ApprovalDate => c.approvalDate
      case ReviewDate => c.reviewDate
      case SubmissionDate => c.submissionDate
  }

  /** `claim?.<field> || '-'`: a line of the card that falls back to a dash. */
  function LineOrDash(claim: Option<PaymentClaim>, f: ClaimText): (r: string)
    ensures Truthy(Field(claim, f)) ==> r == Field(claim, f).value
    ensures !Truthy(Field(claim, f)) ==> r == "-"
  {
    OrElse(Field(claim, f), "-")
  }

  /** `claim?.<field> && ...`: an element drawn only for a truthy field. */
  function IfTruthy(claim: Option<PaymentClaim>, f: ClaimText): (r: Option<string>)
    ensures r.Some? <==> Truthy(Field(claim, f))
    ensures r.Some? ==> r == Field(claim, f)
  {
    if Truthy(Field(claim, f)) then Field(claim, f) else None
  }

  /** The avatar letters: the initials of a truthy employee name, else "?". */
  function AvatarText(claim: Option<PaymentClaim>): (r: string)
    ensures Truthy(Field(claim, EmployeeName)) ==> r == Initials(Field(claim, EmployeeName).value)
    ensures !Truthy(Field(claim, EmployeeName)) ==> r == "?"
  {
    var name := Field(claim, EmployeeName);
    if Truthy(name) then Initials(name.value) else "?"
  }

  /** The category badge, drawn only for a truthy category. */
  function CategoryBadge(claim: Option<PaymentClaim>): (r: Option<Badge>)
    ensures r.Some? <==> Truthy(Field(claim, Category))
    ensures r.Some? ==> r.value == Badge(Field(claim, Category).value, CategoryTone(Field(claim, Category).value))
  {
    var category := Field(claim, Category);
    if Truthy(category) then Some(Badge(category.value, CategoryTone(category.value))) else None
  }

  /** The status badge, drawn only for a truthy status. */
  function StatusBadge(claim: Option<PaymentClaim>): (r: Option<Badge>)
    ensures r.Some? <==> Truthy(Field(claim, Status))
    ensures r.Some? ==> r.value == Badge(StatusText(Field(claim, Status).value), ClaimCard.StatusColor(Field(claim, Status).value))
  {
    var status := Field(claim, Status);
    if Truthy(status) then Some(Badge(StatusText(status.value), ClaimCard.StatusColor(status.value))) else None
  }

  /** `claim ? formatCurrency(claim.amount) : '-'` */
  function AmountShown(claim: Option<PaymentClaim>): (r: Shown)
    ensures claim.None? ==> r == Dash
    ensures claim.Some? ==> r == FormatOrDash(claim.value.amount.GetOr(""))
  {
    if claim.Some? then FormatOrDash(claim.value.amount.GetOr("")) else Dash
  }

  /** `claim?.reviewed_by && `Oleh ${claim.reviewed_by}``: empty unless a
      reviewer is named. */
  function ReviewerLine(claim: Option<PaymentClaim>): (r: string)
    ensures Truthy(Field(claim, ReviewedBy)) ==> r == "Oleh " + Field(claim, ReviewedBy).value
    ensures !Truthy(Field(claim, ReviewedBy)) ==> r == ""
  {
    var reviewer := Field(claim, ReviewedBy);
    if Truthy(reviewer) then "Oleh " + reviewer.value else ""
  }

  /** The card's content for one payment: every line reads the embedded
      claim through optional chaining, so a payment without a claim shows
      its fallbacks. */
  function Render(p: Payment): (v: PaymentView)
    ensures Truthy(Field(p.claim, EmployeeName)) ==>
              v.name == Field(p.claim, EmployeeName).value && v.initials == Initials(v.name)
    ensures !Truthy(Field(p.claim, EmployeeName)) ==> v.initials == "?" && v.name == "Unknown Employee"
    ensures v.categoryBadge.Some? <==> Truthy(Field(p.claim, Category))
    ensures v.categoryBadge.Some? ==>
              v.categoryBadge.value == Badge(Field(p.claim, Category).value, CategoryTone(Field(p.claim, Category).value))
    ensures v.statusBadge.Some? <==> Truthy(Field(p.claim, Status))
    ensures v.statusBadge.Some? ==>
              v.statusBadge.value == Badge(StatusText(Field(p.claim, Status).value), ClaimCard.StatusColor(Field(p.claim, Status).value))
    ensures v.claimId.Some? <==> Truthy(Field(p.claim, Id))
    ensures v.claimId.Some? ==> v.claimId == Field(p.claim, Id)
    ensures p.claim.None? ==> v.amount == Dash
    ensures p.claim.Some? ==> v.amount == FormatOrDash(p.claim.value.amount.GetOr(""))
    ensures Truthy(Field(p.claim, ReviewedBy)) ==> v.reviewer == "Oleh " + Field(p.claim, ReviewedBy).value
    ensures !Truthy(Field(p.claim, ReviewedBy)) ==> v.reviewer == ""
    ensures Truthy(Field(p.claim, Description)) ==> v.description == Field(p.claim, Description).value
    ensures !Truthy(Field(p.claim, Description)) ==> v.description == "-"
    ensures v.notes.Some? <==> Truthy(Field(p.claim, Notes))
    ensures v.notes.Some? ==> v.notes == Field(p.claim, Notes)
    ensures !Truthy(p.bank) ==> v.bank == "-"
    ensures Truthy(p.bank) ==> v.bank == p.bank.value
    ensures !Truthy(p.note) ==> v.note == "-"
    ensures Truthy(p.note) ==> v.note == p.note.value
    ensures Truthy(Field(p.claim, Nik)) ==> v.nik == Field(p.claim, Nik).value
    ensures !Truthy(Field(p.claim, Nik)) ==> v.nik == "-"
    ensures v.date == DateShown(p.claim)
  {
    PaymentView(
      AvatarText(p.claim),
      OrElse(Field(p.claim, EmployeeName), "Unknown Employee"),
      CategoryBadge(p.claim),
      StatusBadge(p.claim),
      IfTruthy(p.claim, Id),
      AmountShown(p.claim),
      ReviewerLine(p.claim),
      LineOrDash(p.claim, Description),
      IfTruthy(p.claim, Notes),
      OrElse(p.bank, "-"),
      OrElse(p.note, "-"),
      LineOrDash(p.claim, Nik),
      DateShown(p.claim))
  }

  /** The date shown: approval, else review, else submission date, else `-`. */
  function DateShown(claim: Option<PaymentClaim>): (r: string)
    ensures Truthy(Field(claim, ApprovalDate)) ==> r == claim.value.approvalDate.value
    ensures !Truthy(Field(claim, ApprovalDate)) && Truthy(Field(claim, ReviewDate)) ==>
              r == claim.value.reviewDate.value
    ensures (!Truthy(Field(claim, ApprovalDate)) && !Truthy(Field(claim, ReviewDate))
             && Truthy(Field(claim, SubmissionDate))) ==> r == claim.value.submissionDate.value
    ensures (!Truthy(Field(claim, ApprovalDate)) && !Truthy(Field(claim, ReviewDate))
             && !Truthy(Field(claim, SubmissionDate))) ==> r == "-"
  {
    OrElse(Field(claim, ApprovalDate), OrElse(Field(claim, ReviewDate), OrElse(Field(claim, SubmissionDate), "-")))
  }

  /** The chained `||` of the date is the first-truthy choice over the three
      dates in priority order. */
  lemma DateIsFirstTruthy(claim: Option<PaymentClaim>)
    ensures DateShown(claim)
         == FirstTruthy([Field(claim, ApprovalDate), Field(claim, ReviewDate), Field(claim, SubmissionDate)], "-")
  {
    var cs := [Field(claim, ApprovalDate), Field(claim, ReviewDate), Field(claim, SubmissionDate)];
    if Truthy(cs[0]) {
    } else if Truthy(cs[1]) {
      assert forall j :: 0 <= j < 1 ==> !Truthy(cs[j]);
    } else if Truthy(cs[2]) {
      assert forall j :: 0 <= j < 2 ==> !Truthy(cs[j]);
    } else {
      assert forall i :: 0 <= i < |cs| ==> !Truthy(cs[i]);
    }
  }
}

=== FILE: payment_form.dfy ===
/** The finance payment form: both fields are required, and the payload
    always names the same payment method. */
module PaymentForm {
  import opened Optional
  import opened Events

  /** The claim the form pays, as the finance queue hands it over. */
  datatype Claim = Claim(id: string, reviewId: Option<string>, userId: Option<string>)

  /** The posted JSON. `JSON.stringify` drops a field whose value is
      `undefined`, which `None` stands for here. */
  datatype Payload = Payload(claimId: string, reviewId: Option<string>, userId: Option<string>,
                             bank: string, note: string, paymentMethodId: string)

  /** The placeholder payment method every payload names. */
  const FixedMethodId := "d1264546-3407-4fe7-8333-5f53c421e093"

  const Incomplete := "Lengkapi semua field"
  const Succeeded := "Pembayaran berhasil!"
  const Failed := "Gagal mengirim data ke backend"

  /** What one submission did: the payload posted, the effects in order,
      and `loading` afterwards. */
  datatype Outcome = Outcome(posted: Option<Payload>, events: seq<Event<Payload>>, loading: bool)

  /** `handleSubmit`. `ok` is whether the server answered with a success
      status; a network error counts as not ok. */
  function HandleSubmit(claim: Claim, bank: string, note: string, ok: bool): (r: Outcome)
    ensures r.posted.Some? <==> bank != "" && note != ""
    ensures r.posted.None? ==> r.events == [Alerted(Incomplete)]
    ensures r.posted.Some? ==>
              var p := r.posted.value;
              p.claimId == claim.id && p.reviewId == claim.reviewId && p.userId == claim.userId
              && p.bank == bank && p.note == note && p.paymentMethodId == FixedMethodId
    ensures r.posted.Some? && ok ==> r.events == [Alerted(Succeeded), Closed]
    ensures r.posted.Some? && !ok ==> r.events == [Alerted(Failed)]
    ensures Closed in r.events <==> r.posted.Some? && ok
    ensures !r.loading
    ensures Submissions(r.events) == 0
  {
    if bank == "" || note == "" then Outcome(None, [Alerted(Incomplete)], false)
    else
      var payload := Payload(claim.id, claim.reviewId, claim.userId, bank, note, FixedMethodId);
      if ok then Outcome(Some(payload), [Alerted(Succeeded), Closed], false)
      else Outcome(Some(payload), [Alerted(Failed)], false)
  }

  /** Whatever the form's other inputs, two accepted submissions post the
      same payment method. */
  lemma MethodIsFixed(c1: Claim, b1: string, n1: string, ok1: bool, c2: Claim, b2: string, n2: string, ok2: bool)
    requires b1 != "" && n1 != "" && b2 != "" && n2 != ""
    ensures HandleSubmit(c1, b1, n1, ok1).posted.value.paymentMethodId
         == HandleSubmit(c2, b2, n2, ok2).posted.value.paymentMethodId
  {
  }
}

=== FILE: review_detail_modal.dfy ===
/** The review detail modal: like the review modal, but on its own narrow
    claim shape, with an empty starting note and no timestamps. */
module ReviewDetailModal {
  import opened Optional
  import opened Events

  datatype Claim = Claim(id: string, userId: string, claimType: Option<string>, totalClaim: Option<real>,
                         statusId: Option<string>, description: Option<string>, createdAt: string)

  datatype Review = Review(claimId: string, statusId: string, description: string, userId: string)

  datatype State = State(statusId: string, description: string)

  const MissingStatus := "Pilih status terlebih dahulu"

  /** The initial state: the claim's `status_id` or "", and an empty note. */
  function Initial(claim: Claim): (s: State)
    ensures Truthy(claim.statusId) ==> s.statusId == claim.statusId.value
    ensures !Truthy(claim.statusId) ==> s.statusId == ""
    ensures s.description == ""
  {
    State(OrElse(claim.statusId, ""), "")
  }

  /** `handleSubmit` */
  function HandleSubmit(claim: Claim, currentUserId: string, s: State): (es: seq<Event<Review>>)
    ensures s.statusId == "" ==> es == [Alerted(MissingStatus)] && Submissions(es) == 0
    ensures s.statusId != "" ==> Submissions(es) == 1 && es[|es| - 1] == Closed
    ensures s.statusId != "" ==> es == [Submitted(Review(claim.id, s.statusId, s.description, currentUserId)), Closed]
    ensures forall i :: 0 <= i < |es| && es[i].Submitted? ==>
              es[i].value == Review(claim.id, s.statusId, s.description, currentUserId)
  {
    if s.statusId == "" then [Alerted(MissingStatus)]
    else SubmitThenClose(Review(claim.id, s.statusId, s.description, currentUserId))
  }

  /** A claim without a decision cannot be submitted until one is chosen. */
  lemma UndecidedClaimRefused(claim: Claim, currentUserId: string)
    requires !Truthy(claim.statusId)
    ensures Submissions(HandleSubmit(claim, currentUserId, Initial(claim))) == 0
  {
  }
}

=== FILE: review_form.dfy ===
/** The HR review form: the three decisions, the selected-decision lookup,
    the submit-enabled guard, the field updates and the logged review. */
module ReviewForm {
  import opened Optional
  import opened Text
  import opened Lists
  import opened Palette
  import opened Events

  datatype StatusOption = StatusOption(id: string, name: string, description: string, tone: Tone)

  const ApprovedId := "status-approved"
  const RejectedId := "status-rejected"
  const PendingId := "status-pending"

  /** `STATUS_OPTIONS`: "needs more information" is filed under the pending
      id; there is no status of its own for it. */
  const StatusOptions: seq<StatusOption> := [
    StatusOption(ApprovedId, "Disetujui", "Klaim disetujui dan akan diproses untuk pembayaran", Emerald),
    StatusOption(RejectedId, "Ditolak", "Klaim ditolak karena tidak memenuhi kriteria", Red),
    StatusOption(PendingId, "Butuh Info Tambahan", "Memerlukan informasi atau dokumen tambahan", Yellow)
  ]

  function OptionId(o: StatusOption): string {
    o.id
  }

  /** There are exactly three decisions, with distinct ids, and the
      "Butuh Info Tambahan" decision reuses the pending id. */
  lemma ExactlyThreeDecisions()
    ensures Keys(StatusOptions, OptionId) == [ApprovedId, RejectedId, PendingId]
    ensures Distinct(Keys(StatusOptions, OptionId))
    ensures forall o :: o in StatusOptions && o.name == "Butuh Info Tambahan" ==> o.id == PendingId
  {
    assert Keys(StatusOptions, OptionId) == [ApprovedId, RejectedId, PendingId];
  }

  /** `STATUS_OPTIONS.find(status => status.id === formData.statusId)` */
  function SelectedStatus(statusId: string): (r: Option<StatusOption>)
    ensures r.Some? <==> statusId in {ApprovedId, RejectedId, PendingId}
    ensures r.Some? ==> r.value in StatusOptions && r.value.id == statusId
  {
    assert StatusOptions[0].id == ApprovedId && StatusOptions[1].id == RejectedId
        && StatusOptions[2].id == PendingId && |StatusOptions| == 3;
    Find(StatusOptions, (o: StatusOption) => o.id == statusId)
  }

  datatype FormData = FormData(statusId: string, description: string)

  const InitialForm := FormData("", "")

  /** The keys of `ReviewFormData`. */
  datatype Field = StatusIdField | DescriptionField

  function Get(f: FormData, field: Field): string {
    match field
    case StatusIdField => f.statusId
    case DescriptionField => f.description
  }

  /** `handleInputChange(field, value)` */
  function InputChange(f: FormData, field: Field, value: string): (r: FormData)
    ensures Get(r, field) == value
    ensures forall other :: other != field ==> Get(r, other) == Get(f, other)
  {
    match field
    case StatusIdField => f.(statusId := value)
    case DescriptionField => f.(description := value)
  }

  /** Only the last update of a field counts. */
  lemma InputChangeOverwrites(f: FormData, field: Field, a: string, b: string)
    ensures InputChange(InputChange(f, field, a), field, b) == InputChange(f, field, b)
  {
  }

  /** The "Simpan Review" button is enabled: nothing is being submitted, a
      decision is chosen, and the note has a character that is not white
      space. */
  function SubmitEnabled(submitting: bool, f: FormData): (r: bool)
    ensures r <==> !submitting && f.statusId != ""
                   && exists i :: 0 <= i < |f.description| && !IsSpace(f.description[i])
  {
    TrimEmptyIffBlank(f.description);
    !submitting && f.statusId != "" && Trim(f.description) != []
  }

  /** Any decision string enables the button, not only the three offered. */
  lemma AnyDecisionEnables(statusId: string, note: string)
    requires statusId != "" && note != [] && !IsSpace(note[0])
    ensures SubmitEnabled(false, FormData(statusId, note))
  {
  }

  /** The note's placeholder and the button's colour. */
  datatype Variant = ApproveVariant | RejectVariant | DefaultVariant

  function VariantOf(statusId: string): (v: Variant)
    ensures v == ApproveVariant <==> statusId == ApprovedId
    ensures v == RejectVariant <==> statusId == RejectedId
  {
    if statusId == ApprovedId then ApproveVariant
    else if statusId == RejectedId then RejectVariant
    else DefaultVariant
  }

  function Placeholder(v: Variant): string {
    match v
    case ApproveVariant => "Berikan catatan persetujuan dan instruksi untuk finance..."
    case RejectVariant => "Jelaskan alasan penolakan klaim..."
    case DefaultVariant => "Jelaskan informasi tambahan yang diperlukan..."
  }

  function ButtonTone(v: Variant): Tone {
    match v
    case ApproveVariant => Emerald
    case RejectVariant => Red
    case DefaultVariant => Blue
  }

  /** The placeholder and the button colour single out the same two
      decisions; the pending decision and any other value share the default. */
  lemma VariantsAgree(statusId: string)
    ensures ButtonTone(VariantOf(statusId)) == Blue
        <==> Placeholder(VariantOf(statusId)) == "Jelaskan informasi tambahan yang diperlukan..."
    ensures statusId != ApprovedId && statusId != RejectedId ==> VariantOf(statusId) == VariantOf(PendingId)
  {
  }

  /** The review the handler logs. */
  datatype Review = Review(id: string, userId: string, claimId: string, statusId: string, description: string,
                           createdAt: string, updatedAt: string)

  /** The HR user the form is hard-wired to. */
  const HrUserId := "hr-user-001"

  /** `handleSubmit`: log the review, then close. `freshId` is the value
      `crypto.randomUUID()` would give; `created` and `updated` are the two
      separate `new Date().toISOString()` reads. The handler
      itself does not re-check the guard; the disabled button does. */
  function Submit(claimId: string, f: FormData, freshId: string, created: string, updated: string): (es: seq<Event<Review>>)
    ensures Submissions(es) == 1 && es[|es| - 1] == Closed
    ensures |es| == 2 && es[0].Submitted? && es[1] == Closed
    ensures forall i :: 0 <= i < |es| && es[i].Submitted? ==>
              var r := es[i].value;
              r.claimId == claimId && r.statusId == f.statusId && r.description == f.description
              && r.userId == HrUserId && r.id == freshId && r.createdAt == created && r.updatedAt == updated
  {
    SubmitThenClose(Review(freshId, HrUserId, claimId, f.statusId, f.description, created, updated))
  }
}

=== FILE: review_modal.dfy ===
/** The review modal opened on a stored claim: the decision and the note
    start from the claim, and an empty decision is refused. */
module ReviewModal {
  import opened Optional
  import opened Events
  import Data

  /** The review handed to `onSubmit`; the modal never sets `id`. */
  datatype Review = Review(id: Option<string>, claimId: string, userId: string, statusId: string,
                           description: Option<string>, createdAt: Option<string>, updatedAt: Option<string>)

  datatype State = State(statusId: string, description: string)

  const MissingStatus := "Pilih status terlebih dahulu"

  /** The initial state: the claim's `status_id` and its `notes`, or "". */
  function Initial(claim: Data.Claim): (s: State)
    ensures s.statusId == claim.statusId
    ensures s.description == (if Truthy(claim.notes) then claim.notes.value else "")
  {
    State(claim.statusId, OrElse(claim.notes, ""))
  }

  /** `handleSubmit`. `created` and `updated` are the two separate
      `new Date().toISOString()` reads. */
  function HandleSubmit(claim: Data.Claim, currentUserId: string, s: State, created: string, updated: string): (es: seq<Event<Review>>)
    ensures s.statusId == "" ==> es == [Alerted(MissingStatus)] && Submissions(es) == 0
    ensures s.statusId != "" ==> Submissions(es) == 1 && es[|es| - 1] == Closed
    ensures s.statusId != "" ==>
              es == [Submitted(Review(None, claim.id, currentUserId, s.statusId, Some(s.description), Some(created), Some(updated))),
                     Closed]
    ensures forall i :: 0 <= i < |es| && es[i].Submitted? ==>
              es[i].value == Review(None, claim.id, currentUserId, s.statusId, Some(s.description), Some(created), Some(updated))
  {
    if s.statusId == "" then [Alerted(MissingStatus)]
    else SubmitThenClose(Review(None, claim.id, currentUserId, s.statusId, Some(s.description), Some(created), Some(updated)))
  }

  /** Opening the modal on a claim that already has a decision and
      submitting at once re-sends that decision with the claim's notes. */
  lemma ResubmitFromInitial(claim: Data.Claim, currentUserId: string, created: string, updated: string)
    requires claim.statusId != ""
    ensures var es := HandleSubmit(claim, currentUserId, Initial(claim), created, updated);
            es[0] == Submitted(Review(None, claim.id, currentUserId, claim.statusId,
                                      Some(OrElse(claim.notes, "")), Some(created), Some(updated)))
  {
  }
}

=== FILE: sidebar.dfy ===
/** The navigation sidebar: which collapsible menu sections are expanded,
    the mobile drawer, and the highlighted entry. */
module Sidebar {
  import opened Lists

  predicate Other(menuId: string, id: string) {
    id != menuId
  }

  /** `toggleMenu(menuId)`: close an expanded section by removing every
      occurrence of its id, or open a collapsed one by appending its id. */
  function Toggle(expanded: seq<string>, menuId: string): (r: seq<string>)
    ensures menuId in r <==> menuId !in expanded
    ensures forall id :: id != menuId ==> (id in r <==> id in expanded)
    ensures menuId !in expanded ==> r == expanded + [menuId]
    ensures menuId in expanded ==> IsSubsequence(r, expanded) && |r| < |expanded|
  {
    if menuId in expanded then
      var r := Filter(expanded, id => Other(menuId, id));
      FilterIsSubsequence(expanded, id => Other(menuId, id));
      FilterDropsOne(expanded, id => Other(menuId, id), menuId);
      r
    else
      expanded + [menuId]
  }

  /** A filter that rejects an element of the list makes it shorter. */
  lemma {:induction false} FilterDropsOne(xs: seq<string>, p: string -> bool, x: string)
    requires x in xs && !p(x)
    ensures |Filter(xs, p)| < |xs|
  {
    if xs[0] != x {
      FilterDropsOne(xs[1..], p, x);
    }
  }

  /** The sections open when the page loads. */
  const InitialExpanded: seq<string> := ["finance"]

  /** `isExpanded` in `MenuSection`. */
  predicate IsExpanded(expanded: seq<string>, menuId: string) {
    menuId in expanded
  }

  /** Clicking a section header flips that section and no other. */
  lemma ToggleFlips(expanded: seq<string>, menuId: string, other: string)
    ensures IsExpanded(Toggle(expanded, menuId), menuId) <==> !IsExpanded(expanded, menuId)
    ensures other != menuId ==> (IsExpanded(Toggle(expanded, menuId), other) <==> IsExpanded(expanded, other))
  {
  }

  /** Opening a collapsed section and closing it again restores the list
      exactly. */
  lemma ToggleTwice(expanded: seq<string>, menuId: string)
    requires menuId !in expanded
    ensures Toggle(Toggle(expanded, menuId), menuId) == expanded
  {
    var p := id => Other(menuId, id);
    FilterConcat(expanded, [menuId], p);
    FilterKeepsAll(expanded, p);
    assert Filter([menuId], p) == [];
  }

  /** Toggling keeps the list free of repeats. */
  lemma ToggleKeepsDistinct(expanded: seq<string>, menuId: string)
    requires Distinct(expanded)
    ensures Distinct(Toggle(expanded, menuId))
  {
    if menuId in expanded {
      FilterDistinct(expanded, id => Other(menuId, id));
    } else {
      var r := expanded + [menuId];
      forall i, j | 0 <= i < j < |r| ensures r[i] != r[j] {
        if j == |expanded| {
          assert r[i] == expanded[i];
        }
      }
    }
  }

  /** The list after a run of clicks, starting from the initial one. */
  function AfterClicks(clicks: seq<string>): (r: seq<string>)
    ensures forall id :: id in r ==> id in clicks || id in InitialExpanded
  {
    if clicks == [] then InitialExpanded
    else Toggle(AfterClicks(clicks[..|clicks| - 1]), clicks[|clicks| - 1])
  }

  /** No run of clicks ever puts the same section in the list twice. */
  lemma {:induction false} ClicksKeepDistinct(clicks: seq<string>)
    ensures Distinct(AfterClicks(clicks))
  {
    if clicks != [] {
      ClicksKeepDistinct(clicks[..|clicks| - 1]);
      ToggleKeepsDistinct(AfterClicks(clicks[..|clicks| - 1]), clicks[|clicks| - 1]);
    }
  }

  /** The number of clicks on one section. */
  function ClicksOn(clicks: seq<string>, menuId: string): nat {
    Count(clicks, id => id == menuId)
  }

  lemma ClicksOnLast(clicks: seq<string>, menuId: string)
    requires clicks != []
    ensures ClicksOn(clicks, menuId)
            == ClicksOn(clicks[..|clicks| - 1], menuId) + (if clicks[|clicks| - 1] == menuId then 1 else 0)
  {
    var init, last := clicks[..|clicks| - 1], clicks[|clicks| - 1];
    assert clicks == init + [last];
    FilterConcat(init, [last], id => id == menuId);
  }

  /** A section is open after a run of clicks iff the parity of the clicks on
      it differs from whether it started open. */
  lemma {:induction false} ExpandedByParity(clicks: seq<string>, menuId: string)
    ensures IsExpanded(AfterClicks(clicks), menuId)
            <==> (ClicksOn(clicks, menuId) % 2 == 1) != (menuId in InitialExpanded)
  {
    if clicks != [] {
      var init, last := clicks[..|clicks| - 1], clicks[|clicks| - 1];
      ExpandedByParity(init, menuId);
      ClicksOnLast(clicks, menuId);
      ParityStep(AfterClicks(init), last, menuId, ClicksOn(init, menuId), menuId in InitialExpanded);
    }
  }

  /** One more click keeps the parity rule. */
  lemma ParityStep(prev: seq<string>, last: string, menuId: string, n: nat, start: bool)
    requires IsExpanded(prev, menuId) <==> (n % 2 == 1) != start
    ensures IsExpanded(Toggle(prev, last), menuId) <==> ((n + (if last == menuId then 1 else 0)) % 2 == 1) != start
  {
    ToggleFlips(prev, last, menuId);
  }

  /** The mobile drawer: the menu button flips it and following a link
      closes it. */
  function ToggleMobileMenu(open: bool): (r: bool)
    ensures r != open
  {
    !open
  }

  function Navigate(open: bool): (r: bool)
    ensures !r
  {
    false
  }

  /** A link is highlighted exactly when it is the current page. */
  function IsActive(pathname: string, href: string): (r: bool)
    ensures r <==> pathname == href
  {
    pathname == href
  }
}

=== FILE: text.dfy ===
/** ASCII approximations of the string built-ins the components call:
    `toLowerCase`, `toUpperCase`, `trim`, `split` and `join`. */
module Text {
  import Lists

  predicate IsDigit(c: char) {
    '0' <= c <= '9'
  }

  predicate AllDigits(s: string) {
    forall i :: 0 <= i < |s| ==> IsDigit(s[i])
  }

  predicate IsUpperAscii(c: char) {
    'A' <= c <= 'Z'
  }

  predicate IsLowerAscii(c: char) {
    'a' <= c <= 'z'
  }

  /** The white space `trim` removes, restricted to ASCII: space, tab, line
      feed, vertical tab, form feed and carriage return. */
  predicate IsSpace(c: char) {
    c == ' ' || '\t' <= c <= '\r'
  }

  function LowerChar(c: char): (r: char)
    ensures !IsUpperAscii(r)
    ensures !IsUpperAscii(c) ==> r == c
  {
    if IsUpperAscii(c) then (c as int + 32) as char else c
  }

  function UpperChar(c: char): (r: char)
    ensures !IsLowerAscii(r)
    ensures !IsLowerAscii(c) ==> r == c
  {
    if IsLowerAscii(c) then (c as int - 32) as char else c
  }

  /** `s.toLowerCase()` over ASCII. */
  function ToLower(s: string): (r: string)
    ensures |r| == |s|
    ensures forall i :: 0 <= i < |s| ==> r[i] == LowerChar(s[i])
  {
    seq(|s|, i requires 0 <= i < |s| => LowerChar(s[i]))
  }

  /** `s.toUpperCase()` over ASCII. */
  function ToUpper(s: string): (r: string)
    ensures |r| == |s|
    ensures forall i :: 0 <= i < |s| ==> r[i] == UpperChar(s[i])
  {
    seq(|s|, i requires 0 <= i < |s| => UpperChar(s[i]))
  }

  /** Lower-casing twice is lower-casing once. */
  lemma ToLowerIdempotent(s: string)
    ensures ToLower(ToLower(s)) == ToLower(s)
  {
  }

  /** `s.trimStart()` */
  function TrimStart(s: string): (r: string)
    ensures |r| <= |s| && r == s[|s| - |r|..]
    ensures r == [] || !IsSpace(r[0])
    ensures forall i :: 0 <= i < |s| - |r| ==> IsSpace(s[i])
  {
    if s != [] && IsSpace(s[0]) then TrimStart(s[1..]) else s
  }

  /** `s.trimEnd()` */
  function TrimEnd(s: string): (r: string)
    ensures |r| <= |s| && r == s[..|r|]
    ensures r == [] || !IsSpace(r[|r| - 1])
    ensures forall i :: |r| <= i < |s| ==> IsSpace(s[i])
  {
    if s != [] && IsSpace(s[|s| - 1]) then TrimEnd(s[..|s| - 1]) else s
  }

  /** `s.trim()` */
  function Trim(s: string): (r: string)
    ensures |r| <= |s|
    ensures r == [] || (!IsSpace(r[0]) && !IsSpace(r[|r| - 1]))
  {
    TrimEnd(TrimStart(s))
  }

  predicate AllSpace(s: string) {
    forall i :: 0 <= i < |s| ==> IsSpace(s[i])
  }

  /** White space around a text that neither starts nor ends with white
      space is exactly what `trim` removes. */
  lemma TrimOfPadded(pre: string, core: string, post: string)
    requires AllSpace(pre) && AllSpace(post)
    requires core != [] && !IsSpace(core[0]) && !IsSpace(core[|core| - 1])
    ensures Trim(pre + core + post) == core
  {
    var s := pre + core + post;
    var a := TrimStart(s);
    assert s[|pre|] == core[0];
    assert forall i :: 0 <= i < |pre| ==> s[i] == pre[i];
    assert |s| - |a| == |pre|;
    assert a == core + post;
    var b := TrimEnd(a);
    assert a[|core| - 1] == core[|core| - 1];
    assert forall i :: |core| <= i < |a| ==> a[i] == post[i - |core|];
    assert |b| == |core|;
  }

  /** `s.trim()` is empty exactly when every character of `s` is white space. */
  lemma {:induction false} TrimEmptyIffBlank(s: string)
    ensures Trim(s) == [] <==> forall i :: 0 <= i < |s| ==> IsSpace(s[i])
  {
    var t := TrimStart(s);
    if Trim(s) == [] {
      assert TrimEnd(t) == [];
      assert t == [];
    } else {
      assert t != [];
    }
  }

  /** `s.split(sep)` for a one-character separator: the pieces between
      separators, so `""` gives `[""]` and two adjacent separators give an empty
      piece. */
  function Split(s: string, sep: char): (r: seq<string>)
    ensures |r| >= 1
    ensures forall k :: 0 <= k < |r| ==> sep !in r[k]
    decreases |s|
  {
    if s == [] then [[]]
    else
      var rest := Split(s[1..], sep);
      if s[0] == sep then [[]] + rest
      else [[s[0]] + rest[0]] + rest[1..]
  }

  /** A text without the separator is one piece. */
  lemma {:induction false} SplitWord(w: string, sep: char)
    requires sep !in w
    ensures Split(w, sep) == [w]
    decreases |w|
  {
    if w != [] {
      assert w[0] != sep && sep !in w[1..];
      SplitWord(w[1..], sep);
      assert w == [w[0]] + w[1..];
    }
  }

  /** A word followed by the separator is the first piece. */
  lemma {:induction false} SplitWordThenRest(w: string, sep: char, rest: string)
    requires sep !in w
    ensures Split(w + [sep] + rest, sep) == [w] + Split(rest, sep)
    decreases |w|
  {
    var s := w + [sep] + rest;
    if w == [] {
      assert s == [sep] + rest;
      assert s[1..] == rest;
    } else {
      assert s[0] == w[0] && s[1..] == w[1..] + [sep] + rest;
      assert w[0] != sep && sep !in w[1..];
      SplitWordThenRest(w[1..], sep, rest);
      var r := Split(s[1..], sep);
      assert r == [w[1..]] + Split(rest, sep);
      assert Split(s, sep) == [[w[0]] + r[0]] + r[1..];
      assert w == [w[0]] + w[1..];
    }
  }

  /** `parts.join(sep)` */
  function Join(parts: seq<string>, sep: string): (r: string)
    ensures |parts| == 1 ==> r == parts[0]
  {
    if parts == [] then []
    else if |parts| == 1 then parts[0]
    else parts[0] + sep + Join(parts[1..], sep)
  }

  /** Splitting and joining again with the same separator gives back the text. */
  lemma {:induction false} JoinSplit(s: string, sep: char)
    ensures Join(Split(s, sep), [sep]) == s
    decreases |s|
  {
    if s != [] {
      var rest := Split(s[1..], sep);
      JoinSplit(s[1..], sep);
      if s[0] == sep {
        assert Split(s, sep) == [[]] + rest;
        assert s == [sep] + s[1..];
      } else {
        var parts := Split(s, sep);
        assert parts == [[s[0]] + rest[0]] + rest[1..];
        if |rest| == 1 {
          assert parts == [[s[0]] + rest[0]];
        } else {
          assert parts[1..] == rest[1..];
          assert Join(rest, [sep]) == rest[0] + [sep] + Join(rest[1..], [sep]);
          assert Join(parts, [sep]) == ([s[0]] + rest[0]) + [sep] + Join(rest[1..], [sep]);
        }
      }
    }
  }

  /** Reverses a sequence, as `Array.prototype.reverse` does. */
  function Reverse<T>(xs: seq<T>): (r: seq<T>)
    ensures |r| == |xs|
    ensures forall i :: 0 <= i < |xs| ==> r[i] == xs[|xs| - 1 - i]
  {
    if xs == [] then [] else Reverse(xs[1..]) + [xs[0]]
  }

  /** Reversing twice is the identity. */
  lemma ReverseInvolutive<T>(xs: seq<T>)
    ensures Reverse(Reverse(xs)) == xs
  {
  }

  predicate NonEmpty(w: string) {
    w != []
  }

  /** `words.map(n => n[0]).join('')`: the first character of every word; an
      empty word contributes nothing, since `""[0]` is `undefined` and `join`
      writes `undefined` as the empty string. */
  function FirstLetters(words: seq<string>): (r: string)
    ensures |r| == Lists.Count(words, NonEmpty)
    ensures forall i :: 0 <= i < |r| ==> r[i] == Lists.Filter(words, NonEmpty)[i][0]
  {
    if words == [] then []
    else (if words[0] == [] then [] else [words[0][0]]) + FirstLetters(words[1..])
  }

  /** `name.split(' ').map(n => n[0]).join('')`: the first character of each
      non-empty space-separated word, in order, so never longer than the word
      count and never a space. */
  function Initials(name: string): (r: string)
    ensures |r| == Lists.Count(Split(name, ' '), NonEmpty) <= |Split(name, ' ')|
    ensures forall i :: 0 <= i < |r| ==> r[i] == Lists.Filter(Split(name, ' '), NonEmpty)[i][0]
    ensures ' ' !in r
  {
    FirstLettersAvoid(Split(name, ' '), ' ');
    FirstLetters(Split(name, ' '))
  }

  lemma {:induction false} FirstLettersAvoid(words: seq<string>, c: char)
    requires forall k :: 0 <= k < |words| ==> c !in words[k]
    ensures c !in FirstLetters(words)
  {
    if words != [] {
      FirstLettersAvoid(words[1..], c);
    }
  }
}

=== FILE: transactions_list.dfy ===
/** The finance page's list of claims ready for payment: a fixed set of
    approved claims, the statistics cards above it, and the payment form
    opened from a row. */
module TransactionsList {
  import opened Optional
  import opened Text
  import opened Lists
  import opened Numbers
  import opened Amounts
  import opened Palette

  datatype Claim = Claim(id: string, claimId: string, employeeName: string, category: string,
                         description: string, nik: string, submissionDate: string, approvalDate: string,
                         amount: string, reviewId: string, userId: string)

  const Putri := Claim("1", "CLM-2025-007", "Putri Wulandari", "Medis",
                       "Pemeriksaan kesehatan berkala dan pembelian vitamin", "456123789",
                       "20 Januari 2025", "22 Januari 2025", "420.000", "rev-001", "user-001")
  const Indra := Claim("2", "CLM-2025-008", "Indra Permana", "Pembelian Barang",
                       "Pembelian monitor eksternal untuk workstation", "789456123",
                       "18 Januari 2025", "20 Januari 2025", "1.250.000", "rev-002", "user-002")
  const Ahmad := Claim("3", "CLM-2025-009", "Ahmad Fadli", "Perjalanan Dinas",
                       "Perjalanan dinas ke Jakarta untuk training dan workshop", "123456789",
                       "22 Januari 2025", "24 Januari 2025", "650.000", "rev-003", "user-003")

  /** `CLAIMS`: the three hard-coded rows. */
  const Claims: seq<Claim> := [Putri, Indra, Ahmad]

  function AmountOf(c: Claim): Option<int> {
    ParseDotted(c.amount)
  }

  /** `totalAmount`: the dotted amounts read as numbers and added up; one
      unreadable amount makes the total `NaN`. */
  function TotalAmount(claims: seq<Claim>): (r: Option<int>)
    ensures r.Some? <==> forall i :: 0 <= i < |claims| ==> ParseDotted(claims[i].amount).Some?
  {
    SumDefined(claims, AmountOf)
  }

  /** The numbers on the three statistics cards. */
  datatype Stats = Stats(totalClaims: nat, totalAmount: Option<int>, averageAmount: Option<int>)

  function Statistics(claims: seq<Claim>): (s: Stats)
    ensures s.totalClaims == |claims|
    ensures s.totalAmount == TotalAmount(claims)
    ensures s.averageAmount.Some? <==> claims != [] && s.totalAmount.Some?
    ensures s.averageAmount.Some? ==> s.averageAmount == RoundedQuotient(s.totalAmount.value, |claims|)
  {
    var total := TotalAmount(claims);
    Stats(|claims|, total, if total.Some? then RoundedQuotient(total.value, |claims|) else None)
  }

  /** The number an amount's digits spell once the dots are removed. */
  function GroupedValue(c: Claim): int {
    if AllDigits(RemoveDots(c.amount)) then DigitsValue(RemoveDots(c.amount)) else 0
  }

  /** When every amount is a plain grouped number, the total is the sum of
      the numbers their digits spell. */
  lemma TotalOfGrouped(claims: seq<Claim>)
    requires forall i :: 0 <= i < |claims| ==> AllDigits(RemoveDots(claims[i].amount)) && RemoveDots(claims[i].amount) != []
    ensures TotalAmount(claims) == Some(Sum(claims, GroupedValue))
  {
    forall i | 0 <= i < |claims|
      ensures AmountOf(claims[i]) == Some(GroupedValue(claims[i]))
    {
      AmountOfGrouped(claims[i]);
    }
    SumDefinedIsSum(claims, AmountOf, GroupedValue);
  }

  lemma AmountOfGrouped(c: Claim)
    requires AllDigits(RemoveDots(c.amount)) && RemoveDots(c.amount) != []
    ensures AmountOf(c) == Some(GroupedValue(c))
  {
    var r := RemoveDots(c.amount);
    assert !HexPrefixed(r) by {
      if |r| >= 2 { assert IsDigit(r[1]); }
    }
    ParseIntOfDigits(r);
  }

  /** A row's category badge colour. */
  function CategoryColor(c: Claim): (t: Tone)
    ensures t == Gray <==> c.category !in KnownCategories
  {
    CategoryTone(c.category)
  }

  /** A row as displayed. */
  datatype Row = Row(initials: string, name: string, category: string, tone: Tone, claimId: string,
                     amount: Option<int>, description: string, nik: string, approvalDate: string)

  function RenderRow(c: Claim): (r: Row)
    ensures r.initials == Initials(c.employeeName)
    ensures |r.initials| <= |Split(c.employeeName, ' ')| && ' ' !in r.initials
    ensures r.category == c.category && r.claimId == c.claimId && r.description == c.description
    ensures r.tone == CategoryTone(c.category) && r.amount == ParseDotted(c.amount)
    ensures r.name == c.employeeName && r.nik == c.nik && r.approvalDate == c.approvalDate
  {
    Row(Initials(c.employeeName), c.employeeName, c.category, CategoryTone(c.category), c.claimId,
        ParseDotted(c.amount), c.description, c.nik, c.approvalDate)
  }

  /** Which claim the payment form is open for. */
  datatype State = State(selected: Option<Claim>, showPaymentForm: bool)

  const Initial := State(None, false)

  /** The payment form is rendered only with a selected claim. */
  function FormFor(s: State): (r: Option<Claim>)
    ensures r.Some? <==> s.showPaymentForm && s.selected.Some?
    ensures r.Some? ==> r == s.selected
  {
    if s.showPaymentForm && s.selected.Some? then s.selected else None
  }

  /** `handleProcessPayment(claim)` */
  function ProcessPayment(s: State, c: Claim): (r: State)
    ensures FormFor(r) == Some(c)
  {
    State(Some(c), true)
  }

  /** `handleClosePaymentForm()` */
  function ClosePaymentForm(s: State): (r: State)
    ensures FormFor(r).None?
  {
    State(None, false)
  }

  /** Opening a row and closing the form is the same as never opening it. */
  lemma CloseUndoesProcess(s: State, c: Claim)
    ensures ClosePaymentForm(ProcessPayment(s, c)) == Initial
  {
  }

  /** A group of plain digits keeps its digits when the dots are removed. */
  lemma PlainGroup(w: string)
    requires AllDigits(w)
    ensures RemoveDots(w) == w
  {
    FilterKeepsAll(w, NotDot);
  }

  /** The digits of a group as a number, for the sample's groups. */
  lemma GroupValues()
    ensures DigitsValue("420") == 420 && DigitsValue("650") == 650 && DigitsValue("250") == 250
    ensures DigitsValue("1") == 1 && DigitsValue("000") == 0
  {
    assert "420"[..2] == "42" && "42"[..1] == "4";
    assert "650"[..2] == "65" && "65"[..1] == "6";
    assert "250"[..2] == "25" && "25"[..1] == "2";
    assert "000"[..2] == "00" && "00"[..1] == "0";
  }

  predicate Readable(c: Claim) {
    AllDigits(RemoveDots(c.amount)) && RemoveDots(c.amount) != []
  }

  /** An amount written as one group followed by a thousands group. */
  lemma TwoGroups(w: string, g: string, v: nat)
    requires AllDigits(w) && |g| == 3 && AllDigits(g) && DigitsValue(w) * 1000 + DigitsValue(g) == v
    ensures AllDigits(RemoveDots(w + "." + g)) && RemoveDots(w + "." + g) != []
    ensures DigitsValue(RemoveDots(w + "." + g)) == v
  {
    PlainGroup(w);
    AppendGroup(w, g);
    RemoveDotsAppend(w, g);
  }

  lemma FirstValue()
    ensures Readable(Putri) && GroupedValue(Putri) == 420000
  {
    var s := "420" + "." + "000";
    assert s == "420.000" by {
      assert |s| == 7 && s[0] == '4' && s[1] == '2' && s[2] == '0' && s[3] == '.' && s[4] == '0' && s[5] == '0' && s[6] == '0';
    }
    GroupValues();
    TwoGroups("420", "000", 420000);
  }

  lemma SecondValue()
    ensures Readable(Indra) && GroupedValue(Indra) == 1250000
  {
    var s := ("1" + "." + "250") + "." + "000";
    assert s == "1.250.000" by {
      assert |s| == 9 && s[0] == '1' && s[1] == '.' && s[2] == '2' && s[3] == '5' && s[4] == '0'
          && s[5] == '.' && s[6] == '0' && s[7] == '0' && s[8] == '0';
    }
    ThreeGroups();
  }

  lemma ThreeGroups()
    ensures AllDigits(RemoveDots(("1" + "." + "250") + "." + "000"))
    ensures RemoveDots(("1" + "." + "250") + "." + "000") != []
    ensures DigitsValue(RemoveDots(("1" + "." + "250") + "." + "000")) == 1250000
  {
    GroupValues();
    TwoGroups("1", "250", 1250);
    ZeroGroup("1" + "." + "250", 1250);
  }

  /** A trailing `.000` multiplies an amount by a thousand. */
  lemma ZeroGroup(head: string, v: nat)
    requires AllDigits(RemoveDots(head)) && DigitsValue(RemoveDots(head)) == v
    ensures AllDigits(RemoveDots(head + "." + "000")) && RemoveDots(head + "." + "000") != []
    ensures DigitsValue(RemoveDots(head + "." + "000")) == v * 1000
  {
    GroupValues();
    AppendGroup(head, "000");
    RemoveDotsAppend(head, "000");
  }

  lemma ThirdValue()
    ensures Readable(Ahmad) && GroupedValue(Ahmad) == 650000
  {
    var s := "650" + "." + "000";
    assert s == "650.000" by {
      assert |s| == 7 && s[0] == '6' && s[1] == '5' && s[2] == '0' && s[3] == '.' && s[4] == '0' && s[5] == '0' && s[6] == '0';
    }
    GroupValues();
    TwoGroups("650", "000", 650000);
  }

  lemma SampleReadable()
    ensures forall i :: 0 <= i < |Claims| ==> Readable(Claims[i])
  {
    FirstValue();
    SecondValue();
    ThirdValue();
    EveryOneOfThree(Claims);
  }

  lemma EveryOneOfThree(cs: seq<Claim>)
    requires |cs| == 3 && Readable(cs[0]) && Readable(cs[1]) && Readable(cs[2])
    ensures forall i :: 0 <= i < |cs| ==> Readable(cs[i])
  {
  }

  /** A sum over three elements, with the summand left abstract so that no
      sample amount is unfolded while the sum is. */
  lemma SumOfThree<T>(cs: seq<T>, f: T -> int)
    requires |cs| == 3
    ensures Sum(cs, f) == f(cs[0]) + f(cs[1]) + f(cs[2])
  {
    var t := cs[1..];
    assert t[1..][1..] == [] && t[0] == cs[1] && t[1..][0] == cs[2];
    assert Sum(t[1..], f) == f(cs[2]) + Sum(t[1..][1..], f);
    assert Sum(t, f) == f(cs[1]) + Sum(t[1..], f);
  }

  lemma SampleSum()
    ensures Sum(Claims, GroupedValue) == 2320000
  {
    SumOfThree(Claims, GroupedValue);
    FirstValue();
    SecondValue();
    ThirdValue();
  }

  lemma SampleTotal()
    ensures TotalAmount(Claims) == Some(2320000)
  {
    SampleReadable();
    SampleSum();
    TotalOfGrouped(Claims);
  }

  lemma SampleAverage()
    ensures RoundedQuotient(2320000, 3) == Some(773333)
  {
  }

  /** The sample rows: three claims worth Rp 2.320.000 in all, Rp 773.333 on
      average. */
  lemma SampleStatistics()
    ensures Statistics(Claims) == Stats(3, Some(2320000), Some(773333))
  {
    SampleTotal();
    SampleAverage();
  }
}
